=== FILE: README.md ===
# CHRONOS pipeline core, modelled in Dafny

CHRONOS turns a scanned historical medical document into ranked research
hypotheses. It runs OCR, then four phases of text generation:

1. a self-critical brainstorm;
2. a knowledge graph plus a summary (HeritageNet, SpineNet and their bridges);
3. three "lenses" and a synthesis;
4. research questions, their ranking and an executive summary.

A command-line script and a Flask web app both drive the phases.

This project models the deterministic logic around the text-generation calls:

- `RateLimiter` and `RetryLoop`: the Gemini rate limiter. This covers:
  - recognising rate-limit errors;
  - reading a server-suggested delay from an error message;
  - capped exponential backoff with jitter;
  - request pacing over an abstract clock;
  - the bounded attempt loop;
  - the statistics;
  - the process-wide limiter factory.
- `Phase2`: the graph extractor's two passes (nodes, then relationships). It also covers the source element, the prompt truncation and `run_phase2`.
- `Stages`, `Phase3`, `Phase4`: the stage executors and the partial-failure sequencing of `run_phase3` and `run_phase4`. The model is an oracle from requests to replies, so the calls made, in order, are part of each result.
- `Pipeline`: the phase gating of the command-line `main`, the database name it derives, and the extraction of the top questions (`TopQuestions`) that go to verification.
- `WebApp`: the web runner `run_chronos_pipeline`. This covers:
  - the status record it writes at each checkpoint;
  - the upload, status and results routes;
  - the extension check and sanitised names (`Names`);
  - the parser of the Phase 4 question file (`Hypotheses`).

Regular expressions are modelled as scanners anchored at a position (`Text`, `TopQuestions`, `Hypotheses`, `RateLimiter`):

- A search takes the leftmost position that matches.
- `findall` repeats the search after each match.
- A lazy group ends at the first position where its lookahead holds.
- A greedy whitespace run gives characters back when what follows needs them.

Times and delays are `real`s. Jitter draws, model replies, OCR text, database outcomes and timestamps are parameters.

Two facts about the code that the model keeps:

- A run's status is only ever `processing`, `complete` or `error` (webapp/app.py:126, :234, :256). There is no "partially complete" status. Which phases ran is read off the results records.
- `"429"` and `"RESOURCE_EXHAUSTED"` are matched case-sensitively (chronos/app/gemini_rate_limiter.py:208-214). Only the other three markers are matched after lower-casing.

## Model

| member | source | states |
|---|---|---|
| RateLimiter.CalculateDelay | chronos/app/gemini_rate_limiter.py:68-77 | The backoff never exceeds `max_delay`. It lies between `min(initial*2^attempt + 0.1, max_delay)` and `initial*2^attempt + 0.9`: jitter is absolute seconds. |
| RateLimiter.BackoffMonotone | chronos/app/gemini_rate_limiter.py:68-77 | For one jitter value the backoff never decreases as the attempt number grows. |
| RateLimiter.BackoffMonotoneAcrossDraws | chronos/app/gemini_rate_limiter.py:68-77 | With a fresh jitter per attempt the backoff still never decreases from one attempt to the next, once the initial delay is at least 0.8 s. |
| RateLimiter.BackoffCanShrinkAcrossDraws | chronos/app/gemini_rate_limiter.py:68-77 | With a 0.1 s initial delay, two jitter draws can make the next backoff shorter than the previous one. |
| RateLimiter.BackoffWithinTestBounds | chronos/test_rate_limiter.py:69-83 | The limiter built with initial delay 1 and cap 10 always backs off between 1 and 10 seconds, as the delay test asserts. |
| RateLimiter.RateLimitInContext | chronos/app/gemini_rate_limiter.py:209-215 | A rate-limit message stays rate-limit class when wrapped in any surrounding text. |
| RateLimiter.LowerMarkerNotRateLimit | chronos/app/gemini_rate_limiter.py:209-215 | "resource_exhausted" in lower case is not a rate-limit error: that marker is case-sensitive. |
| RateLimiter.UpperQuotaIsRateLimit | chronos/app/gemini_rate_limiter.py:209-215 | "QUOTA exceeded" is a rate-limit error: "quota" is matched in any case. |
| RateLimiter.RateLimitErrorIff | chronos/app/gemini_rate_limiter.py:209-215 | A message is rate-limit class iff "429" or "RESOURCE_EXHAUSTED" occurs in it as written, or "quota", "rate limit" or "too many requests" occurs in its lower-cased form. |
| RateLimiter.SearchDelay | chronos/app/gemini_rate_limiter.py:87-108 | A search finds a value only at a position where the pattern matches. It finds nothing iff the pattern matches nowhere. |
| RateLimiter.ExtractRetryDelay | chronos/app/gemini_rate_limiter.py:79-111 | No suggestion iff no pattern matches. Otherwise the suggestion is the value of the first pattern, in the fixed order, that matches, with the seconds phrase last. |
| RateLimiter.QuotedRetryDelayDecides | chronos/app/gemini_rate_limiter.py:87-101 | A quoted JSON `retryDelay` anywhere in the message decides, whatever else the message says. |
| RateLimiter.QuotedRetryDelayExtracted | chronos/app/gemini_rate_limiter.py:87-101 | `"retryDelay": "30s"` yields 30 seconds. |
| RateLimiter.JsonRetryDelayBeatsSecondsPhrase | chronos/app/gemini_rate_limiter.py:87-111 | A JSON `retryDelay` of 30 wins over a "45 seconds" phrase that comes before it. |
| RateLimiter.NoDigitsNoSuggestion | chronos/app/gemini_rate_limiter.py:79-111 | A message without digits yields no suggestion: every pattern captures digits. |
| RateLimiter.QuotaMessageHasNoSuggestion | chronos/app/gemini_rate_limiter.py:79-111 | "Quota exceeded for this project" yields no suggestion. |
| RateLimiter.HandleRateLimitError | chronos/app/gemini_rate_limiter.py:113-132 | The wait is never below `base_delay`. It is `base_delay` when there is no suggestion, a zero one or a smaller one, and the suggestion when it is larger. |
| RateLimiter.EnforceRequestDelay | chronos/app/gemini_rate_limiter.py:134-145 | The limiter sleeps iff less than `base_delay` has elapsed. The last request time becomes `max(now, last + base_delay)`, the post-sleep time. The count grows by exactly one and the configuration is kept. |
| RateLimiter.ResetStats | chronos/app/gemini_rate_limiter.py:251-255 | The reported count and last request time become zero and the reported configuration is unchanged. |
| RateLimiter.GetStats | chronos/app/gemini_rate_limiter.py:237-249 | The statistics report the request count, the last request time and the five configured values of the limiter. |
| RateLimiter.StatsReportAll | chronos/app/gemini_rate_limiter.py:237-249 | Nothing of the limiter's state is missing from its statistics: equal statistics mean equal limiters. |
| RateLimiter.GetRateLimiter | chronos/app/gemini_rate_limiter.py:262-288 | The existing instance is returned only when there is one and no override is given. Otherwise a new instance with zeroed counters is built from the defaults (2.0, 300.0, 12.0, 5, 1800) merged with the overrides. |
| RateLimiter.RateLimitedLimiter | chronos/app/gemini_rate_limiter.py:291-310 | `rate_limited_request` always gets a fresh limiter: the default configuration with the requested base delay, counters zeroed. |
| RateLimiter.ConfiguredOverridesReported | chronos/test_rate_limiter.py:42-64 | Every override passed to the factory is reported back by `get_stats`, as the configuration test expects. |
| RetryLoop.EffectiveAttempts | chronos/app/gemini_rate_limiter.py:166 | A missing or zero `max_attempts` falls back to `max_retries`; any other value is used as given. |
| RetryLoop.BackoffAfter | chronos/app/gemini_rate_limiter.py:217-227 | A rate-limit failure always sleeps the rate-limit wait, even after the last attempt. Any other failure sleeps the exponential backoff, but not after the last attempt. |
| RetryLoop.Attempt | chronos/app/gemini_rate_limiter.py:173-232 | One attempt: pacing only when the attempt number is above zero, then the call. Non-empty text ends the loop with that text. A failure records its backoff, and on the last attempt ends with its own exception text. |
| RetryLoop.GenerateContent | chronos/app/gemini_rate_limiter.py:166-235 | With bound m ≥ 0 there are between 1 and m+1 calls, every attempt following the pacing and backoff policy exactly. Attempt 0 starts at once. Attempt i ≥ 1 starts at the later of two times: when the previous call returned and its backoff sleep ended, and `base_delay` after the last request. Its pacing sleep is the gap between the two. Each failure sleeps exactly the backoff for its message, attempt number and jitter draw; a success sleeps no more. The run ends at the first non-empty text, and succeeds iff some call within the bound succeeds. Otherwise the last call's exception propagates unchanged. A negative bound makes no call and raises "Maximum retry attempts exceeded". The count grows by one per paced attempt. |
| RetryLoop.RateLimitedRunSleeps | chronos/app/gemini_rate_limiter.py:217-221 | A run whose every attempt hits the rate limit sleeps at least `base_delay` per attempt. The bound is written `Times(n, d)`, repeated addition, which `TimesIs` shows equals n·d. |
| RetryLoop.RateLimitedRequest | chronos/app/gemini_rate_limiter.py:291-310 | A request through `rate_limited_request` starts from zeroed counters. The first attempt is never paced. The second is paced only against the zeroed last request time, so its spacing bound is just `delay_between_requests` from time zero, which a real clock has long passed. What does hold is that it starts exactly when the first call returned and that call's backoff sleep ended, unless that is earlier than `delay_between_requests`. The request succeeds iff some call within the bound succeeds. |
| RetryLoop.AlwaysRateLimited | chronos/app/gemini_rate_limiter.py:202-232 | With `max_attempts=2` and a rate limit on every call: three calls, the third call's exception propagates, at least three `base_delay` sleeps, the last one after the final failure. |
| Phase2.CreateSourceElement | chronos/app/phase2_context_builder.py:281-298 | The source element holds the first 1000 characters of its text. |
| Phase2.CollectNodes | chronos/app/phase2_context_builder.py:314-325 | First pass: node ids are unique, and exactly the declared ids appear. |
| Phase2.FirstDeclarationWins | chronos/app/phase2_context_builder.py:318-325 | The stored node for an id has the type of that id's first declaration; later declarations are ignored. |
| Phase2.FirstOccurrenceOrder | chronos/app/phase2_context_builder.py:314-325 | Nodes come out in the order their ids were first declared. |
| Phase2.BuildRelationships | chronos/app/phase2_context_builder.py:327-347 | Second pass: each relationship's endpoints are the stored nodes for its ids, and both ids are declared. |
| Phase2.RelationshipKeptIff | chronos/app/phase2_context_builder.py:327-347 | One relationship match survives iff both its ids are in the node map. It then carries the stored nodes, its type, its timestamp and the fixed source property. |
| Phase2.BuildRelationshipsConcat | chronos/app/phase2_context_builder.py:327-347 | Relationship order follows match order: the pass distributes over concatenated matches. |
| Phase2.SurvivalDependsOnlyOnIds | chronos/app/phase2_context_builder.py:318-347 | Two node-match lists with the same declared ids keep the same relationships, so declaration order does not matter. |
| Phase2.EmbeddedEndpointsKeepAll | chronos/app/phase2_context_builder.py:309-347 | When every relationship's endpoints are among the node matches (`EndpointsDeclared`, as when the node pattern finds the embedded `Node(...)` texts), every relationship is kept. |
| Phase2.ParseGraphElements | chronos/app/phase2_context_builder.py:300-356 | The graph's node ids are the declared ids. Every relationship joins two of its nodes. The source is the first 1000 characters of the source text, or of the model output when the source text is empty. |
| Phase2.DuplicateDeclarationIgnored | chronos/app/phase2_context_builder.py:318-339 | A redeclared node keeps its first type, even inside a relationship that restates it. |
| Phase2.OcrExcerpt | chronos/app/phase2_context_builder.py:422 | At most 10000 OCR characters, with "...[truncated]" appended iff the text is longer. |
| Phase2.SourceTextFor | chronos/app/phase2_context_builder.py:421-422 | The traceability text is "Phase1: ", the first 500 characters of the brainstorm, "... \| OCR: ", the first 500 characters of the OCR text, then "...": each piece sits at its stated position, and the length is 22 plus both prefix lengths. |
| Phase2.ExtractKnowledgeGraph | chronos/app/phase2_context_builder.py:358-433 | A failed or empty reply fails the extraction. Otherwise the graph's ids are the declared ids and its source comes from the inputs. |
| Phase2.GenerateSummary | chronos/app/phase2_context_builder.py:448-524 | The summary succeeds iff the reply is non-empty text, and records both lengths. |
| Phase2.RunPhase2 | chronos/app/phase2_context_builder.py:526-575 | Graph and summary are each tolerated on failure. The graph is set whenever extraction succeeds, even if storage fails. A missing summary leaves the metadata empty. |
| Phase2.Phase2HalvesIndependent | chronos/app/phase2_context_builder.py:542-575 | The summary does not depend on the graph reply or on storage, and the graph does not depend on the summary reply. |
| Stages.Execute | chronos/app/phase3_distilling.py:174-177 | An executor succeeds iff the reply is non-empty text. Empty text fails with "Empty response from Gemini model", and a raised error keeps its message. |
| Phase3.LensName | chronos/app/phase3_distilling.py:193 | A lens result is labelled with its letter, then " - " and its title. |
| Phase3.GenerateLens | chronos/app/phase3_distilling.py:124-203 | A lens succeeds iff its own call answers non-empty text, which becomes the output. |
| Phase3.GenerateSynthesis | chronos/app/phase3_distilling.py:364-459 | The synthesis call is given the three lens outputs, and succeeds iff it answers non-empty text. |
| Phase3.RunPhase3 | chronos/app/phase3_distilling.py:461-533 | A None summary raises before any call. Otherwise lenses A, B and C are each called with the same summary and each is caught on failure. The synthesis is attempted iff all three lenses succeeded, on their outputs, and its failure is caught too. |
| Phase3.LensFailureIsolated | chronos/app/phase3_distilling.py:491-516 | A lens's entry depends only on the reply to that lens's own call. |
| Phase3.SynthesisNeedsAllLenses | chronos/app/phase3_distilling.py:518-533 | A failing lens rules out the synthesis (three calls only) without changing the other lenses' entries. |
| Phase3.AllRepliesGiveFullRecord | chronos/app/phase3_distilling.py:483-533 | When every call answers text, all four entries are filled. |
| Phase4.FormatLabel | chronos/app/phase4_formulating.py:728-734 | The label is "H-format" iff the H-format is requested, else "13-field". |
| Phase4.GenerateQuestions | chronos/app/phase4_formulating.py:396-525 | The question step succeeds iff its call answers non-empty text, and echoes the requested number of questions. |
| Phase4.RankQuestions | chronos/app/phase4_formulating.py:527-605 | The ranking step succeeds iff its call answers non-empty text, and echoes the requested top n. |
| Phase4.GenerateExecutiveSummary | chronos/app/phase4_formulating.py:607-696 | The summary step succeeds iff its call answers non-empty text. |
| Phase4.RunPhase4 | chronos/app/phase4_formulating.py:698-770 | Failed questions return at once with ranking and summary None. Ranking is asked about the question text, and its failure is tolerated. The summary is attempted iff questions and ranking are both present. |
| Phase4.EntriesFilledInOrder | chronos/app/phase4_formulating.py:737-770 | A summary implies a ranking, and a ranking implies questions. |
| Phase4.SummaryFailureTolerated | chronos/app/phase4_formulating.py:758-770 | Whatever the summary call answers, questions and ranking come out the same. |
| Names.LastIndex | webapp/app.py:42 | The position of the last occurrence of a character, or none when it does not occur. |
| Names.Basename | chronos/app/main.py:140 | The base name is the longest suffix of the path without a '/': it holds no '/', and when it is shorter than the path the character before it is a '/'. |
| Names.SplitextRoot | chronos/app/main.py:142 | The stem is a prefix of the name. When it differs from the name, it stops at a '.' after which no '.' or '/' follows. |
| Names.SplitextDropsExtension | chronos/app/main.py:142 | A stem with a non-dot character, followed by "." and an extension, loses exactly the extension. |
| Names.SplitextWithoutDot | chronos/app/main.py:142 | A name without a dot is its own stem. |
| Names.Sanitize | chronos/app/main.py:142 | Every character outside [A-Za-z0-9] becomes '_', and the others are kept in place. |
| Names.CleanName | webapp/app.py:120 | The clean name has the stem's length capped at 30. It holds only [A-Za-z0-9_]. Each stem alphanumeric stays in place, and every other stem character becomes '_'. |
| Names.DbName | chronos/app/main.py:144 | The database name is "chronos_", the lower-cased clean name, '_' and the lower-cased timestamp, in that layout. |
| Names.UniqueId | webapp/app.py:121-122 | The id is the clean name, then '_', then the timestamp, each at its position. |
| Names.UniqueIdSplits | webapp/app.py:121-122 | With timestamps of one width, an id determines its clean name and its timestamp. |
| Names.DbNameOfFile | webapp/app.py:122-136 | The database name is "chronos_" plus the web runner's `unique_id`, lower-cased. Its file-name part has no upper-case letter and only [a-z0-9_]. |
| Names.AllowedFileIff | webapp/app.py:39-42 | A name is allowed iff it contains a '.' and the text after the last '.', lower-cased, is pdf, png, jpg, jpeg or tiff. |
| Names.AllowedWithExtension | webapp/app.py:39-42 | Any stem followed by "." and an allowed extension in any letter case is allowed. |
| TopQuestions.RankEntries | chronos/app/main.py:46-50 | The ranking entries `findall` walks over are exactly the leftmost non-overlapping matches of the ranking pattern, in order: each is the match at its start, and every position where the pattern matches lies inside one of them. |
| TopQuestions.RankedIds | chronos/app/main.py:46-50 | Every id the ranking scan yields has the form "H…". |
| TopQuestions.RankedIdsAreEntries | chronos/app/main.py:46-50 | The ids are the captured groups of the ranking entries, one per entry and in order. |
| TopQuestions.RankEntryIs | chronos/app/main.py:46 | A ranking line "<n>. **H<m>:" yields the id "H<m>". |
| TopQuestions.ClaimTailOfLine | chronos/app/main.py:61-75 | A one-line claim after its newline, followed by a field heading, is captured exactly. |
| TopQuestions.ClaimOf | chronos/app/main.py:61-62 | The claim of an id comes from the leftmost position where the per-question pattern matches (it fails at every earlier position), or is absent when it matches nowhere. |
| TopQuestions.ClaimsOf | chronos/app/main.py:58-65 | The claims of a list of ids, for any per-id search: the m-th result is the stripped claim of the m-th id whose search succeeds. |
| TopQuestions.ClaimMatches | chronos/app/main.py:75-76 | The claim blocks `findall` walks over are exactly the leftmost non-overlapping matches of the claim pattern, in order, and no match position is missed. |
| TopQuestions.AllClaims | chronos/app/main.py:75-76 | Every claim `findall` returns is the group of a match of the claim pattern at some position of the file. |
| TopQuestions.AllClaimsAreMatches | chronos/app/main.py:75-76 | The claims are the captured groups of the claim blocks, one per block and in order. |
| TopQuestions.RankedClaims | chronos/app/main.py:50-65 | The ranking path gives, in rank order, the stripped claims of those among the first top-n ranked ids whose claim is found: the m-th claim belongs to the m-th such id. So there are at most top-n claims. |
| TopQuestions.FallbackClaims | chronos/app/main.py:67-77 | The fallback is the first `min(top_n, #claims)` claim statements, each stripped. |
| TopQuestions.ExtractTopQuestions | chronos/app/main.py:21-84 | At most top-n stripped claims. A failing read of the ranking file yields none, and so does a missing question file. A non-empty ranking result decides, and the fallback is used exactly when there is none. |
| Hypotheses.Markers | webapp/app.py:56-57 | The markers are exactly the leftmost non-overlapping matches of `\*\*(H\d+):`, in order: each is the match at its start, and every position where the pattern matches lies inside one of them. Their starts lie in the text and strictly increase. |
| Text.AllMatchesIff | webapp/app.py:56-57 | For any anchored pattern whose matches are non-empty, a sequence of spans is the leftmost non-overlapping match list described above iff it is what the left-to-right scan `FindAll` reports, so that description pins the result down. |
| Hypotheses.Title | webapp/app.py:66-71 | A title line gives an id "H…" and a non-empty title free of '*', read at the leftmost position where the title pattern matches (it fails at every earlier one). There is none iff the pattern matches nowhere in the section. |
| Hypotheses.Field | webapp/app.py:73-91 | A text field is stripped. It is the stripped group of the leftmost match of its pattern when there is one, and "" when the pattern matches nowhere. |
| Hypotheses.Testability | webapp/app.py:93-95 | The score is the one read at the leftmost match of the score pattern. It defaults to 5 when the section has none. |
| Hypotheses.Innovation | webapp/app.py:97-99 | The level is always High, Moderate or Low. It is the one read at the leftmost match of the level pattern, and Moderate when the section states none. |
| Hypotheses.ParseSection | webapp/app.py:61-111 | A section yields a hypothesis iff it has a title line. The title is stripped and free of '*'. Claim, historical source, modern relevance, variables and mechanism are each read by their own field pattern, bounded by the next field's heading. Testability and innovation come from their scanners, and every field carries its default when the section lacks it. |
| Hypotheses.ParsePhase4Results | webapp/app.py:45-113 | A missing file gives no hypotheses. Otherwise the hypotheses follow marker order: the m-th is the parse of the m-th section that yields one. There is at most one per marker, and every one is well formed. |
| Hypotheses.ParseFrom | webapp/app.py:59-111 | For any section parser, the m-th hypothesis is the parse of the m-th accepted section, in marker order. Every one is well formed when the parser only yields well-formed records. |
| Hypotheses.OnePerAcceptedSection | webapp/app.py:59-69 | Sections are only ever skipped, never merged or split: one hypothesis per marker iff every section is accepted. |
| Hypotheses.OnePerTitledSection | webapp/app.py:59-69 | A file yields one hypothesis per marker iff every section has a title line. |
| Hypotheses.SectionsCover | webapp/app.py:59-63 | The sections tile the text from the first marker to the end. |
| Pipeline.DbNameFor | chronos/app/main.py:140-144 | The database name starts with "chronos_". Its middle part is the lower-cased clean name of the input's basename, at most 30 characters of [a-z0-9_]. A '_' follows, and it ends with the lower-cased timestamp. |
| Pipeline.Phase2Step | chronos/app/main.py:243-270 | A builder that cannot connect leaves no Phase 2 results. A failure to close it leaves them in place. |
| Pipeline.Phase3Step | chronos/app/main.py:282-306 | Phase 3 runs iff Phase 2 left a non-empty summary, and then always returns its record. |
| Pipeline.Phase4Step | chronos/app/main.py:318-345 | Phase 4 runs iff Phase 3 left a synthesis, with 10 questions, top 3 and the H-format. |
| Pipeline.VerificationStep | chronos/app/main.py:348-391 | Verification needs Phase 4 questions and ranking. It extracts at most two stripped claims, and the verifier is called iff there is at least one. |
| Pipeline.Main | chronos/app/main.py:105-446 | A missing input file stops at once, and a refused confirmation cancels. An OCR failure reaches the outer handler with its message. A Phase 1 failure returns before Phase 2. Otherwise every later stage runs gated and the run completes. |
| Pipeline.StagesRunInOrder | chronos/app/main.py:282-349 | A verification request implies Phase 4 questions and ranking. Phase 4 implies a Phase 3 synthesis. Phase 3 implies a connected builder and a non-empty summary reply. |
| Pipeline.Phase2ExceptionContinues | chronos/app/main.py:266-270 | A Phase 2 exception is caught: the later stages are skipped and the run still completes. |
| Pipeline.CloseFailureHarmless | chronos/app/main.py:253-259 | A builder that fails to close changes nothing downstream. |
| Pipeline.EmptySummarySkipsLaterPhases | chronos/app/main.py:283-306 | Without a summary, Phase 3, Phase 4 and verification are all skipped. |
| Pipeline.FullRepliesReachPhase4 | chronos/app/main.py:283-345 | When every model call answers text, the pipeline reaches Phase 4 with all three entries in the H-format. |
| WebApp.RunStages | webapp/app.py:156-230 | The checkpoint reached identifies the failing step: OCR after 15, Phase 1 after 30, a builder failure after 50. A missing summary fails after 70 with Python's length error. A missing synthesis or questions entry fails after 85 with the subscript error. |
| WebApp.RunChronosPipeline | webapp/app.py:116-260 | The id is clean name + '_' + timestamp, and the run starts at ("ocr", 10). Every status but the last is processing. The last is complete iff no error is returned, otherwise the error itself. A complete status has all checkpoints, the lower-cased "chronos_" database name and a count equal to the number of hypotheses. |
| WebApp.StatusProgression | webapp/app.py:125-245 | Reported progress strictly increases along a run, and the phase labels never go back. |
| WebApp.MissingSummaryFailsRun | webapp/app.py:197-205 | Without a Phase 2 summary the web run fails at the Phase 3 checkpoint with Python's length error. The command-line pipeline skips Phase 3 instead. |
| WebApp.UploadFile | webapp/app.py:269-300 | A missing file part, an empty name or a disallowed extension gives 400 before anything runs. Otherwise the run's last status is stored under its id, and the response is 500 with the error iff the error message is non-empty. |
| WebApp.GetStatus | webapp/app.py:303-309 | An unknown id gives 404 "Invalid ID"; a known one returns its status. |
| WebApp.GetResults | webapp/app.py:312-323 | 404 for an unknown id, 400 unless the status is complete, and the status itself otherwise. |
| WebApp.UploadThenQuery | webapp/app.py:291-323 | After an accepted upload its id is known, and the results route serves it iff the run returned no error. |
| WebApp.EmptyErrorReportsSuccess | webapp/app.py:293-300 | An exception with an empty message is answered as a started upload, while the stored status is an error and the results route refuses it. |

## Left out

- Floating point: delays are exact reals, so the rounding of `float` arithmetic is not modelled.
- Real time and randomness: `time.time`, `time.sleep` and `random.uniform` become an abstract clock, recorded sleeps and jitter parameters in [0.1, 0.9]. `datetime.now()` timestamps are parameters.
- RateLimiter.ValidConfig: negative delays are excluded by a precondition, because `time.sleep` raises on them and that path is not modelled.
- The google-api-core `retry.Retry` policy and `total_timeout`: only the transport uses them; the loop never checks them.
- Gemini, Neo4j, OCR, the FutureHouse verifier, Flask and werkzeug are external services. Each is an outcome (`Result`) or a reply oracle, and `secure_filename` is a function parameter.
- Phase2.ParseGraphElements: the node and relationship regular expressions are abstracted into the two ordered match sequences they produce; their exact grammar is not scanned.
- Phase2.RunPhase2: the storage outcome is a parameter the result does not depend on, because a storage failure is caught after the graph is recorded.
- File and console I/O: output and metadata files, creation of the web run's result directories (`os.makedirs` at webapp/app.py:149-154; a failure there would end the run in the error state at progress 10, and the model lets it succeed), `print` and logging, and the `input()` prompts are not modelled. The pipeline takes the unquoted input path, an existence flag and the confirmation answer. File contents read back are the texts the stages wrote, up to newline translation (see below).
- The writing of the extracted OCR text to a file (which could raise) is not modelled.
- Newline translation on read: Python's text mode turns "\r\n" and a lone "\r" into "\n" when the ranking, question and Phase 4 files are read back. The parsers take the file text after that translation, so a file written with "\r\n" line ends is not followed byte for byte.
- The retry loop and the stages are not composed: Phase 2, 3 and 4 replies are free `Result`s and oracle replies, not outputs of `RetryLoop.GenerateContent`. The loop's properties hold for each request, but no lemma carries them into a stage.
- Prompt texts and `chronos_system_prompt.py` are not modelled. Phase 1 internals are reduced to a `Result` of its brainstorm text, because the brainstorm is prompt assembly plus one model call.
- The constructors of the Phase 3 distiller and the Phase 4 formulator, which raise without an API key: not modelled. Those stages always start.
- TopQuestions.ExtractTopQuestions: the AttributeError path is not modelled. Without a questions entry the dictionary lookup itself fails, and the function then returns []. The model takes the question file as `Option`, and None gives [] as well.
- Case folding is ASCII only, and `\d` matches the ASCII digits only; Python lower-cases all of Unicode and its `\d` matches every Unicode decimal digit. `\s` and `strip()` use Python's full whitespace set. For the extension check and the lower-cased rate-limit markers this changes nothing: the only non-ASCII character whose lower case is an ASCII letter is the Kelvin sign ('k'), and none of those words contains a 'k'. Message texts are compared as given.
- Concurrency around the process-wide limiter is not modelled: everything runs synchronously in one thread.
- `webapp/models.py` (ORM, JWT and password hashing), the `/` and `/test-parse` routes, and `test_neo4j_connection.py` are not part of this model.

=== FILE: base.dfy ===
/** Option and Result types shared by every module of the model.
    `Result` carries the message text of a Python exception: the system
    classifies and reports failures by their message, never by their type. */
module Base {

  datatype Option<T> = None | Some(value: T)

  datatype Result<T> = Ok(value: T) | Err(message: string)

  /** What a pattern matched at one position: where the match ends and the
      value it captured. */
  datatype Hit<T> = Hit(end: nat, value: T)

  /** One match reported by a left-to-right scan (Python's `re.finditer`). */
  datatype Span<T> = Span(start: nat, end: nat, value: T)

  function Min(a: int, b: int): int { if a <= b then a else b }

  function Max(a: int, b: int): int { if a <= b then b else a }

  function MinReal(a: real, b: real): real { if a <= b then a else b }

  function MaxReal(a: real, b: real): real { if a <= b then b else a }
}

=== FILE: hypotheses.dfy ===
/** `parse_phase4_results`: the research-question file split at its
    `**H<n>:` markers into sections, and one hypothesis record read from
    each section that has a title line.  Each regular expression is a
    scanner anchored at a position, in the order a backtracking matcher
    tries the alternatives; a search takes the leftmost position that
    matches. */
module Hypotheses {
  import opened Base
  import opened Text

  datatype Hypothesis = Hypothesis(
    hNumber: string,
    title: string,
    claim: string,
    historicalSource: string,
    modernRelevance: string,
    variables: string,
    mechanism: string,
    testability: nat,
    innovation: string)

  const DefaultTestability: nat := 5
  const DefaultInnovation: string := "Moderate"
  const InnovationLevels: set<string> := {"High", "Moderate", "Low"}

  /** `\*\*(H\d+):` anchored at i; the value is the id "H<n>". */
  function MarkerAt(t: string, i: nat): (r: Option<Hit<string>>)
    ensures r.Some? ==> i < r.value.end <= |t|
    ensures r.Some? ==> |r.value.value| >= 2 && r.value.value[0] == 'H'
  {
    if !StartsAt(t, i, "**H") then None
    else
      var n := DigitRun(t, i + 3);
      if n == 0 || i + 3 + n >= |t| || t[i + 3 + n] != ':' then None
      else
        assert t[i + 2] == "**H"[2];
        Some(Hit(i + 4 + n, t[i + 2..i + 3 + n]))
  }

  /** `re.finditer(r'\*\*(H\d+):', content)`: every match of the marker
      pattern, leftmost first, none overlapping. */
  function Markers(t: string): (ms: seq<Span<string>>)
    ensures AllMatchesFrom(t, 0, (i: nat) => MarkerAt(t, i), ms)
    ensures forall k :: 0 <= k < |ms| ==> ms[k].start <= |t|
    ensures forall k :: 0 <= k < |ms| - 1 ==> ms[k].start < ms[k + 1].start
  {
    var ms := FindAll(t, 0, (i: nat) => MarkerAt(t, i));
    FindAllMatches(t, 0, (i: nat) => MarkerAt(t, i));
    forall k | 0 <= k < |ms| - 1 ensures ms[k].start < ms[k + 1].start {
      assert MarkerAt(t, ms[k].start).value.end == ms[k].end;
    }
    ms
  }

  /** Marker starts lie in the text and increase. */
  predicate Placed(t: string, ms: seq<Span<string>>)
  {
    && (forall k :: 0 <= k < |ms| ==> ms[k].start <= |t|)
    && (forall k :: 0 <= k < |ms| - 1 ==> ms[k].start < ms[k + 1].start)
  }

  /** Where section k ends: at the next marker, or at the end of the text. */
  function SectionEnd(t: string, ms: seq<Span<string>>, k: nat): (e: nat)
    requires Placed(t, ms) && k < |ms|
    ensures ms[k].start <= e <= |t|
  {
    if k + 1 < |ms| then ms[k + 1].start else |t|
  }

  function Section(t: string, ms: seq<Span<string>>, k: nat): string
    requires Placed(t, ms) && k < |ms|
  {
    t[ms[k].start..SectionEnd(t, ms, k)]
  }

  predicate NotStar(c: char) { c != '*' }

  /** `\*\*(H\d+):\s+([^\*]+)\*\*` anchored at i: the id and the raw title.
      The greedy `\s+` gives back one character when nothing but
      whitespace precedes the closing "**". */
  function TitleAt(s: string, i: nat): (r: Option<(string, string)>)
    ensures r.Some? ==> |r.value.0| >= 2 && r.value.0[0] == 'H'
    ensures r.Some? ==> |r.value.1| > 0 && forall k :: 0 <= k < |r.value.1| ==> r.value.1[k] != '*'
  {
    match MarkerAt(s, i)
    case None => None
    case Some(h) =>
      var c := h.end;
      var r := SpaceRun(s, c);
      var m := Run(s, c, NotStar);
      var e := c + m;
      if r == 0 || !StartsAt(s, e, "**") then None
      else
        RunWeaker(s, c, IsSpace, NotStar);
        if r < m then Some((h.value, s[c + r..e]))
        else if r >= 2 then Some((h.value, s[e - 1..e]))
        else None
  }

  /** `re.search(title_pattern, section)`. */
  function Title(s: string): (r: Option<(string, string)>)
    ensures r.Some? ==> |r.value.0| >= 2 && r.value.0[0] == 'H'
    ensures r.Some? ==> |r.value.1| > 0 && forall k :: 0 <= k < |r.value.1| ==> r.value.1[k] != '*'
    ensures r.None? <==> forall i: nat :: i <= |s| ==> TitleAt(s, i).None?
    ensures r.Some? ==> exists i: nat ::
      i <= |s| && TitleAt(s, i) == r && forall j: nat :: j < i ==> TitleAt(s, j).None?
  {
    var p := (i: nat) => TitleAt(s, i).Some?;
    match FirstFrom(0, |s| + 1, p)
    case None =>
      forall i: nat | i <= |s| ensures TitleAt(s, i).None? { assert !p(i); }
      None
    case Some(i) =>
      assert p(i);
      forall j: nat | j < i ensures TitleAt(s, j).None? { assert !p(j); }
      TitleAt(s, i)
  }

  /** `\*\*<label>:\*\*\s+(.*?)(?=\n\*\*<next>:)` anchored at i (DOTALL):
      the group runs lazily to the first lookahead position; if there is
      none, the greedy `\s+` gives back its last character, which can only
      help when that character starts the lookahead (an empty group). */
  function FieldAt(s: string, i: nat, fieldName: string, next: string): (r: Option<string>)
  {
    var head := "**" + fieldName + ":**";
    var look := "\n**" + next + ":";
    if !StartsAt(s, i, head) then None
    else
      var c := i + |head|;
      var r := SpaceRun(s, c);
      if r == 0 then None
      else match Find(s, look, c + r)
        case Some(e) => Some(s[c + r..e])
        case None => if r >= 2 && StartsAt(s, c + r - 1, look) then Some("") else None
  }

  /** A text field: the stripped group of the leftmost match, or "". */
  function Field(s: string, fieldName: string, next: string): (r: string)
    ensures IsStripped(r)
    ensures (forall i: nat :: i <= |s| ==> FieldAt(s, i, fieldName, next).None?) ==> r == ""
    ensures (exists i: nat :: i <= |s| && FieldAt(s, i, fieldName, next).Some?) ==>
      exists i: nat :: i <= |s| && FieldAt(s, i, fieldName, next).Some? && r == Strip(FieldAt(s, i, fieldName, next).value)
        && forall j: nat :: j < i ==> FieldAt(s, j, fieldName, next).None?
  {
    var p := (i: nat) => FieldAt(s, i, fieldName, next).Some?;
    match FirstFrom(0, |s| + 1, p)
    case None =>
      forall i: nat | i <= |s| ensures FieldAt(s, i, fieldName, next).None? { assert !p(i); }
      ""
    case Some(i) =>
      assert p(i);
      forall j: nat | j < i ensures FieldAt(s, j, fieldName, next).None? { assert !p(j); }
      Strip(FieldAt(s, i, fieldName, next).value)
  }

  /** `\*\*Testability Score:\s*(\d+)/10\*\*` anchored at i: the score. */
  function ScoreAt(s: string, i: nat): Option<nat>
  {
    var head := "**Testability Score:";
    if !StartsAt(s, i, head) then None
    else
      var c := i + |head| + SpaceRun(s, i + |head|);
      var d := DigitRun(s, c);
      if d > 0 && StartsAt(s, c + d, "/10**") then Some(DigitsValue(s[c..c + d])) else None
  }

  /** The testability score, 5 when the section has none. */
  function Testability(s: string): (r: nat)
    ensures (forall i: nat :: i <= |s| ==> ScoreAt(s, i).None?) ==> r == DefaultTestability
    ensures r != DefaultTestability ==> exists i: nat :: i <= |s| && ScoreAt(s, i) == Some(r)
    ensures (exists i: nat :: i <= |s| && ScoreAt(s, i).Some?) ==>
      exists i: nat :: i <= |s| && ScoreAt(s, i) == Some(r) && forall j: nat :: j < i ==> ScoreAt(s, j).None?
  {
    var p := (i: nat) => ScoreAt(s, i).Some?;
    match FirstFrom(0, |s| + 1, p)
    case None =>
      forall i: nat | i <= |s| ensures ScoreAt(s, i).None? { assert !p(i); }
      DefaultTestability
    case Some(i) =>
      assert p(i);
      forall j: nat | j < i ensures ScoreAt(s, j).None? { assert !p(j); }
      ScoreAt(s, i).value
  }

  /** `\*\*Innovation Potential:\s*(High|Moderate|Low)\*\*` anchored at i. */
  function LevelAt(s: string, i: nat): (r: Option<string>)
    ensures r.Some? ==> r.value in InnovationLevels
  {
    var head := "**Innovation Potential:";
    if !StartsAt(s, i, head) then None
    else
      var c := i + |head| + SpaceRun(s, i + |head|);
      if StartsAt(s, c, "High**") then Some("High")
      else if StartsAt(s, c, "Moderate**") then Some("Moderate")
      else if StartsAt(s, c, "Low**") then Some("Low")
      else None
  }

  /** The innovation level, "Moderate" when the section has none. */
  function Innovation(s: string): (r: string)
    ensures r in InnovationLevels
    ensures (forall i: nat :: i <= |s| ==> LevelAt(s, i).None?) ==> r == DefaultInnovation
    ensures (exists i: nat :: i <= |s| && LevelAt(s, i).Some?) ==>
      exists i: nat :: i <= |s| && LevelAt(s, i) == Some(r) && forall j: nat :: j < i ==> LevelAt(s, j).None?
  {
    var p := (i: nat) => LevelAt(s, i).Some?;
    match FirstFrom(0, |s| + 1, p)
    case None =>
      forall i: nat | i <= |s| ensures LevelAt(s, i).None? { assert !p(i); }
      DefaultInnovation
    case Some(i) =>
      assert p(i);
      forall j: nat | j < i ensures LevelAt(s, j).None? { assert !p(j); }
      LevelAt(s, i).value
  }

  /** A hypothesis as the web page shows it. */
  predicate WellFormed(h: Hypothesis)
  {
    && |h.hNumber| >= 2 && h.hNumber[0] == 'H'
    && IsStripped(h.title) && (forall k :: 0 <= k < |h.title| ==> h.title[k] != '*')
    && IsStripped(h.claim) && IsStripped(h.historicalSource) && IsStripped(h.modernRelevance)
    && IsStripped(h.variables) && IsStripped(h.mechanism)
    && h.innovation in InnovationLevels
  }

  /** Stripping removes characters only. */
  lemma StripKeepsOut(s: string, c: char)
    requires forall k :: 0 <= k < |s| ==> s[k] != c
    ensures forall k :: 0 <= k < |Strip(s)| ==> Strip(s)[k] != c
  {
    var t := Strip(s);
    forall k | 0 <= k < |t| ensures t[k] != c {
      assert t[k] == s[StripBounds(s).0 + k];
    }
  }

  /** One section: nothing without a title line; otherwise every field,
      with its default when the section lacks it. */
  function ParseSection(s: string): (r: Option<Hypothesis>)
    ensures r.Some? <==> Title(s).Some?
    ensures r.Some? ==> WellFormed(r.value)
    ensures r.Some? ==> r.value.hNumber == Title(s).value.0 && r.value.title == Strip(Title(s).value.1)
    ensures r.Some? ==> r.value.claim == Field(s, "Claim Statement", "Historical Source")
    ensures r.Some? ==> r.value.historicalSource == Field(s, "Historical Source", "Modern Relevance")
    ensures r.Some? ==> r.value.modernRelevance == Field(s, "Modern Relevance", "Variables")
    ensures r.Some? ==> r.value.variables == Field(s, "Variables", "Mechanism")
    ensures r.Some? ==> r.value.mechanism == Field(s, "Mechanism", "Testability Score")
    ensures r.Some? ==> r.value.testability == Testability(s) && r.value.innovation == Innovation(s)
  {
    match Title(s)
    case None => None
    case Some((hNumber, rawTitle)) =>
      var title := Strip(rawTitle);
      StripKeepsOut(rawTitle, '*');
      Some(Hypothesis(
        hNumber, title,
        Field(s, "Claim Statement", "Historical Source"),
        Field(s, "Historical Source", "Modern Relevance"),
        Field(s, "Modern Relevance", "Variables"),
        Field(s, "Variables", "Mechanism"),
        Field(s, "Mechanism", "Testability Score"),
        Testability(s),
        Innovation(s)))
  }

  /** The hypotheses of the sections in marker order, skipping sections
      the section parser rejects: the m-th hypothesis is the parse of the
      m-th accepted section.  The parser is a parameter so that this loop
      is reasoned about apart from the field scanners. */
  function ParseFrom(t: string, ms: seq<Span<string>>, parse: string -> Option<Hypothesis>): (r: seq<Hypothesis>)
    requires Placed(t, ms)
    requires forall s :: parse(s).Some? ==> WellFormed(parse(s).value)
    ensures |r| <= |ms|
    ensures forall m :: 0 <= m < |r| ==> WellFormed(r[m])
    ensures var ks := Kept(0, |ms|, (j: nat) => j < |ms| && parse(Section(t, ms, j)).Some?);
      |r| == |ks| && forall m :: 0 <= m < |r| ==> parse(Section(t, ms, ks[m])) == Some(r[m])
  {
    var f := (j: nat) => if j < |ms| then parse(Section(t, ms, j)) else None;
    var r := Collect(0, |ms|, f);
    CollectKept(0, |ms|, f);
    var ks := Kept(0, |ms|, (j: nat) => f(j).Some?);
    forall m | 0 <= m < |r| ensures WellFormed(r[m]) {
      assert f(ks[m]) == Some(r[m]) && ks[m] < |ms|;
      assert parse(Section(t, ms, ks[m])) == Some(r[m]);
    }
    KeptExt(0, |ms|, (j: nat) => f(j).Some?, (j: nat) => j < |ms| && parse(Section(t, ms, j)).Some?);
    r
  }

  /** `parse_phase4_results`: None stands for a missing file.  The m-th
      hypothesis comes from the m-th section, in marker order, that has a
      title line. */
  function ParsePhase4Results(file: Option<string>): (r: seq<Hypothesis>)
    ensures file.None? ==> r == []
    ensures file.Some? ==> |r| <= |Markers(file.value)|
    ensures forall j :: 0 <= j < |r| ==> WellFormed(r[j])
    ensures file.Some? ==>
      var t := file.value;
      var ms := Markers(t);
      var ks := Kept(0, |ms|, (j: nat) => j < |ms| && ParseSection(Section(t, ms, j)).Some?);
      |r| == |ks| && forall m :: 0 <= m < |r| ==> ParseSection(Section(t, ms, ks[m])) == Some(r[m])
  {
    match file
    case None => []
    case Some(t) =>
      var ms := Markers(t);
      var r := ParseFrom(t, ms, ParseSection);
      var parse := ParseSection;
      KeptExt(0, |ms|, (j: nat) => j < |ms| && parse(Section(t, ms, j)).Some?,
        (j: nat) => j < |ms| && ParseSection(Section(t, ms, j)).Some?);
      r
  }

  /** A hypothesis for every marker exactly when the parser accepts every
      section: sections are only ever skipped, never merged or split. */
  lemma OnePerAcceptedSection(t: string, ms: seq<Span<string>>, parse: string -> Option<Hypothesis>)
    requires Placed(t, ms)
    requires forall s :: parse(s).Some? ==> WellFormed(parse(s).value)
    ensures |ParseFrom(t, ms, parse)| == |ms| <==>
      forall j :: 0 <= j < |ms| ==> parse(Section(t, ms, j)).Some?
  {
    var f := (j: nat) => if j < |ms| then parse(Section(t, ms, j)) else None;
    assert ParseFrom(t, ms, parse) == Collect(0, |ms|, f);
    CollectAll(0, |ms|, f);
    assert forall j :: 0 <= j < |ms| ==> f(j) == parse(Section(t, ms, j));
  }

  /** For the whole file: one hypothesis per marker iff every section has
      a title line. */
  lemma OnePerTitledSection(t: string)
    ensures |ParsePhase4Results(Some(t))| == |Markers(t)| <==>
      forall j :: 0 <= j < |Markers(t)| ==> Title(Section(t, Markers(t), j)).Some?
  {
    var ms := Markers(t);
    assert ParsePhase4Results(Some(t)) == ParseFrom(t, ms, ParseSection);
    OnePerAcceptedSection(t, ms, ParseSection);
    assert forall j :: 0 <= j < |ms| ==>
      (ParseSection(Section(t, ms, j)).Some? <==> Title(Section(t, ms, j)).Some?);
  }

  function Concat(ss: seq<string>): string
  {
    if ss == [] then [] else ss[0] + Concat(ss[1..])
  }

  /** The sections, in marker order. */
  function Sections(t: string, ms: seq<Span<string>>, k: nat): (r: seq<string>)
    requires Placed(t, ms) && k <= |ms|
    decreases |ms| - k
    ensures |r| == |ms| - k
  {
    if k == |ms| then [] else [Section(t, ms, k)] + Sections(t, ms, k + 1)
  }

  /** The sections tile the text from the first marker to the end. */
  lemma {:induction false} SectionsCover(t: string, ms: seq<Span<string>>, k: nat)
    requires Placed(t, ms) && k < |ms|
    decreases |ms| - k
    ensures Concat(Sections(t, ms, k)) == t[ms[k].start..]
  {
    var ss := Sections(t, ms, k);
    assert ss[1..] == Sections(t, ms, k + 1);
    if k + 1 == |ms| {
      assert Concat(ss) == Section(t, ms, k) + Concat([]);
    } else {
      SectionsCover(t, ms, k + 1);
      assert t[ms[k].start..] == t[ms[k].start..ms[k + 1].start] + t[ms[k + 1].start..];
    }
  }
}

=== FILE: names.dfy ===
/** File names: the extension check of the upload form, and the sanitised
    name and database name both front ends derive from an input file name
    (Python's `os.path.basename`, `os.path.splitext`, the `[^a-zA-Z0-9]`
    substitution, the 30-character cut and `.lower()`). */
module Names {
  import opened Base
  import opened Text

  /** Position of the last occurrence of c in s (Python's `s.rfind(c)`, None for -1). */
  function LastIndex(s: string, c: char): (r: Option<nat>)
    ensures r.Some? ==> r.value < |s| && s[r.value] == c
    ensures r.Some? ==> forall k :: r.value < k < |s| ==> s[k] != c
    ensures r.None? ==> forall k :: 0 <= k < |s| ==> s[k] != c
  {
    var p := (k: nat) => k < |s| && s[k] == c;
    match LastFrom(0, |s|, p)
    case Some(k) =>
      forall j | k < j < |s| ensures s[j] != c { assert !p(j); }
      Some(k)
    case None =>
      forall j | 0 <= j < |s| ensures s[j] != c { assert !p(j); }
      None
  }

  /** `os.path.basename`: what follows the last '/'. */
  function Basename(path: string): (r: string)
    ensures forall k :: 0 <= k < |r| ==> r[k] != '/'
    ensures |r| <= |path| && r == path[|path| - |r|..]
    ensures |r| < |path| ==> path[|path| - |r| - 1] == '/'
  {
    match LastIndex(path, '/')
    case None => path
    case Some(i) => path[i + 1..]
  }

  /** `os.path.splitext(p)[0]`: everything before the last '.', unless that
      dot belongs to the directory part or only dots precede it in the last
      path component (".bashrc" has no extension). */
  function SplitextRoot(p: string): (r: string)
    ensures r <= p
    ensures r != p ==> p[|r|] == '.' && forall k :: |r| < k < |p| ==> p[k] != '.' && p[k] != '/'
  {
    var sep: int := match LastIndex(p, '/') case Some(i) => i case None => -1;
    match LastIndex(p, '.')
    case None => p
    case Some(d) =>
      if d > sep && exists k :: sep + 1 <= k < d && p[k] != '.' then p[..d] else p
  }

  /** A dotted name loses exactly its last extension. */
  lemma SplitextDropsExtension(stem: string, ext: string)
    requires forall k :: 0 <= k < |stem| ==> stem[k] != '/'
    requires exists k :: 0 <= k < |stem| && stem[k] != '.'
    requires forall k :: 0 <= k < |ext| ==> ext[k] != '.' && ext[k] != '/'
    ensures SplitextRoot(stem + "." + ext) == stem
  {
    var p := stem + "." + ext;
    assert p[|stem|] == '.';
    assert LastIndex(p, '.') == Some(|stem|) by {
      var r := LastIndex(p, '.');
      assert r.Some? && r.value >= |stem|;
      forall k | |stem| < k < |p| ensures p[k] != '.' {
        assert p[k] == ext[k - |stem| - 1];
      }
    }
    assert LastIndex(p, '/').None? by {
      forall k | 0 <= k < |p| ensures p[k] != '/' {
        if k < |stem| { assert p[k] == stem[k]; }
        else if k > |stem| { assert p[k] == ext[k - |stem| - 1]; }
      }
    }
    var k :| 0 <= k < |stem| && stem[k] != '.';
    assert p[k] == stem[k];
    assert p[..|stem|] == stem;
  }

  /** A name without any dot is its own root. */
  lemma SplitextWithoutDot(p: string)
    requires forall k :: 0 <= k < |p| ==> p[k] != '.'
    ensures SplitextRoot(p) == p
  {
  }

  /** `re.sub(r'[^a-zA-Z0-9]', '_', s)`. */
  function Sanitize(s: string): (r: string)
    ensures |r| == |s|
    ensures forall k :: 0 <= k < |s| ==> r[k] == (if IsAsciiAlnum(s[k]) then s[k] else '_')
  {
    seq(|s|, k requires 0 <= k < |s| => if IsAsciiAlnum(s[k]) then s[k] else '_')
  }

  predicate IsNameChar(c: char) { IsAsciiAlnum(c) || c == '_' }

  const CleanNameLimit: nat := 30

  /** The sanitised file stem, cut to 30 characters. */
  function CleanName(filename: string): (r: string)
    ensures |r| == Min(|SplitextRoot(filename)|, CleanNameLimit)
    ensures forall k :: 0 <= k < |r| ==> IsNameChar(r[k])
    ensures forall k :: 0 <= k < |r| ==> r[k] == (if IsAsciiAlnum(filename[k]) then filename[k] else '_')
  {
    Prefix(Sanitize(SplitextRoot(filename)), CleanNameLimit)
  }

  const DbPrefix: string := "chronos_"

  /** The web runner's `unique_id`: clean name, '_', timestamp. */
  function UniqueId(clean: string, timestamp: string): (r: string)
    ensures |r| == |clean| + 1 + |timestamp|
    ensures r[..|clean|] == clean && r[|clean|] == '_' && r[|clean| + 1..] == timestamp
  {
    clean + "_" + timestamp
  }

  /** With timestamps of one width (`%Y%m%d_%H%M%S` always has 15
      characters), the id determines both the clean name and the
      timestamp. */
  lemma UniqueIdSplits(clean: string, timestamp: string, clean': string, timestamp': string)
    requires |timestamp| == |timestamp'|
    requires UniqueId(clean, timestamp) == UniqueId(clean', timestamp')
    ensures clean == clean' && timestamp == timestamp'
  {
    var u := UniqueId(clean, timestamp);
    assert clean == u[..|clean|] && clean' == u[..|clean'|];
  }

  /** The database name: "chronos_", the clean name, '_' and the timestamp,
      all lower-cased. */
  function DbName(clean: string, timestamp: string): (r: string)
    ensures |r| == |DbPrefix| + |clean| + 1 + |timestamp|
    ensures r[..|DbPrefix|] == DbPrefix
    ensures r[|DbPrefix|..|DbPrefix| + |clean|] == Lower(clean)
    ensures r[|DbPrefix| + |clean|] == '_'
    ensures r[|DbPrefix| + |clean| + 1..] == Lower(timestamp)
  {
    var u := clean + "_" + timestamp;
    LowerConcat(DbPrefix, u);
    LowerConcat(clean + "_", timestamp);
    LowerConcat(clean, "_");
    assert Lower(DbPrefix) == DbPrefix;
    assert Lower("_") == "_";
    Lower(DbPrefix + u)
  }

  /** The database name of a file: no upper-case letter and nothing outside
      [a-z0-9_] comes from the file name, and it is the web runner's
      `unique_id` under the same prefix. */
  lemma DbNameOfFile(filename: string, timestamp: string)
    ensures var clean := CleanName(filename);
      var r := DbName(clean, timestamp);
      && r == Lower(DbPrefix + UniqueId(clean, timestamp))
      && forall k :: |DbPrefix| <= k < |DbPrefix| + |clean| ==> IsNameChar(r[k]) && !('A' <= r[k] <= 'Z')
  {
    var clean := CleanName(filename);
    DbNameKeepsNameChars(clean, timestamp);
  }

  lemma DbNameKeepsNameChars(clean: string, timestamp: string)
    requires forall k :: 0 <= k < |clean| ==> IsNameChar(clean[k])
    ensures var r := DbName(clean, timestamp);
      forall k :: |DbPrefix| <= k < |DbPrefix| + |clean| ==> IsNameChar(r[k]) && !('A' <= r[k] <= 'Z')
  {
    var r := DbName(clean, timestamp);
    forall k | |DbPrefix| <= k < |DbPrefix| + |clean|
      ensures IsNameChar(r[k]) && !('A' <= r[k] <= 'Z')
    {
      assert r[k] == Lower(clean)[k - |DbPrefix|];
      assert IsNameChar(clean[k - |DbPrefix|]);
    }
  }

  const AllowedExtensions: set<string> := {"pdf", "png", "jpg", "jpeg", "tiff"}

  /** `allowed_file`: there is a '.', and what follows the last one,
      lower-cased, is an allowed extension. */
  predicate AllowedFile(filename: string)
  {
    match LastIndex(filename, '.')
    case None => false
    case Some(d) => Lower(filename[d + 1..]) in AllowedExtensions
  }

  /** Both directions of the extension rule. */
  lemma AllowedFileIff(filename: string)
    ensures AllowedFile(filename) <==>
      exists d :: 0 <= d < |filename| && filename[d] == '.'
        && (forall k :: d < k < |filename| ==> filename[k] != '.')
        && Lower(filename[d + 1..]) in AllowedExtensions
  {
    if LastIndex(filename, '.').Some? {
      var d := LastIndex(filename, '.').value;
      assert filename[d] == '.';
    }
  }

  /** Any stem followed by an allowed extension, in any letter case, passes. */
  lemma AllowedWithExtension(stem: string, ext: string)
    requires Lower(ext) in AllowedExtensions
    ensures AllowedFile(stem + "." + ext)
  {
    var p := stem + "." + ext;
    assert forall k :: 0 <= k < |ext| ==> ext[k] != '.' by {
      forall k | 0 <= k < |ext| ensures ext[k] != '.' {
        assert Lower(ext)[k] == LowerChar(ext[k]);
        assert Lower(ext)[k] != '.';
      }
    }
    assert p[|stem|] == '.';
    var r := LastIndex(p, '.');
    assert r.Some? && r.value >= |stem|;
    forall k | |stem| < k < |p| ensures p[k] != '.' {
      assert p[k] == ext[k - |stem| - 1];
    }
    assert r.value == |stem|;
    assert p[|stem| + 1..] == ext;
  }
}

=== FILE: phase2.dfy ===
/** Phase 2 (context building): turning the model's node/relationship
    listing into a graph, the text handed to the model, and the sequencing
    of graph extraction and summary generation.  The two regular-expression
    scans of the listing are given as their match sequences, in match order:
    `nodeMatches` holds every `Node(id='…', type='…')` the node pattern finds,
    including those written inside relationship declarations. */
module Phase2 {
  import opened Base
  import opened Text
  import opened Stages

  type Properties = map<string, string>

  /** Every node and relationship is tagged with this provenance. */
  const SourceProperties: Properties := map["source" := "phase2_chronos"]

  datatype Node = Node(id: string, ntype: string, properties: Properties)

  datatype Relationship = Relationship(
    subj: Node,
    obj: Node,
    rtype: string,
    timestamp: Option<string>,
    properties: Properties)

  datatype GraphElement = GraphElement(nodes: seq<Node>, relationships: seq<Relationship>, source: string)

  /** Groups of one match of the node pattern. */
  datatype NodeMatch = NodeMatch(id: string, ntype: string)

  /** Groups of one match of the relationship pattern; `timestamp` is None
      when the optional `, timestamp='…'` group did not take part. */
  datatype RelMatch = RelMatch(
    subjId: string,
    subjType: string,
    objId: string,
    objType: string,
    rtype: string,
    timestamp: Option<string>)

  const SourceLimit: nat := 1000

  /** The text of the graph's source element: at most 1000 characters. */
  function CreateSourceElement(text: string): (r: string)
    ensures |r| == Min(|text|, SourceLimit)
    ensures r <= text
  {
    Prefix(text, SourceLimit)
  }

  function Ids(nodes: seq<Node>): set<string>
  {
    set i | 0 <= i < |nodes| :: nodes[i].id
  }

  function MatchIds(ms: seq<NodeMatch>): set<string>
  {
    set k | 0 <= k < |ms| :: ms[k].id
  }

  predicate UniqueIds(nodes: seq<Node>)
  {
    forall i, j :: 0 <= i < j < |nodes| ==> nodes[i].id != nodes[j].id
  }

  /** Match k is the first one declaring its id. */
  predicate FirstDeclaration(ms: seq<NodeMatch>, k: nat)
    requires k < |ms|
  {
    forall j :: 0 <= j < k ==> ms[j].id != ms[k].id
  }

  /** Position of the node with the given id, if any. */
  function IndexOf(nodes: seq<Node>, id: string): (r: Option<nat>)
    ensures r.Some? ==> r.value < |nodes| && nodes[r.value].id == id
    ensures r.Some? ==> forall i :: 0 <= i < r.value ==> nodes[i].id != id
    ensures r.None? <==> id !in Ids(nodes)
  {
    var p := (i: nat) => i < |nodes| && nodes[i].id == id;
    var f := FirstFrom(0, |nodes|, p);
    if f.Some? then
      assert p(f.value);
      assert forall i :: 0 <= i < f.value ==> nodes[i].id != id by {
        forall i | 0 <= i < f.value ensures nodes[i].id != id { assert !p(i); }
      }
      f
    else
      assert id !in Ids(nodes) by {
        forall i | 0 <= i < |nodes| ensures nodes[i].id != id { assert !p(i); }
      }
      None
  }

  /** `nodes[id]` in the node dictionary. */
  function Lookup(nodes: seq<Node>, id: string): (r: Option<Node>)
    ensures r.Some? <==> id in Ids(nodes)
    ensures r.Some? ==> r.value in nodes && r.value.id == id
  {
    match IndexOf(nodes, id)
    case Some(i) => Some(nodes[i])
    case None => None
  }

  /** First pass: the node dictionary in insertion order.  A repeated id is
      ignored, so the first declaration's type is kept. */
  function CollectNodes(ms: seq<NodeMatch>): (nodes: seq<Node>)
    ensures UniqueIds(nodes)
    ensures Ids(nodes) == MatchIds(ms)
    ensures forall i :: 0 <= i < |nodes| ==> nodes[i].properties == SourceProperties
    ensures |nodes| <= |ms|
  {
    if |ms| == 0 then []
    else
      var prev := CollectNodes(ms[..|ms| - 1]);
      var m := ms[|ms| - 1];
      assert MatchIds(ms) == MatchIds(ms[..|ms| - 1]) + {m.id} by {
        assert forall k :: 0 <= k < |ms| - 1 ==> ms[..|ms| - 1][k] == ms[k];
      }
      if m.id in Ids(prev) then prev
      else
        var r := prev + [Node(m.id, m.ntype, SourceProperties)];
        assert Ids(r) == Ids(prev) + {m.id} by {
          forall x | x in Ids(r) ensures x in Ids(prev) + {m.id} {
            var i :| 0 <= i < |r| && r[i].id == x;
            if i < |prev| { assert r[i] == prev[i]; }
          }
          forall x | x in Ids(prev) ensures x in Ids(r) {
            var i :| 0 <= i < |prev| && prev[i].id == x;
            assert r[i] == prev[i];
          }
          assert r[|prev|].id == m.id;
        }
        r
  }

  /** Appending a node does not move the nodes already there. */
  lemma IndexOfAppend(prev: seq<Node>, n: Node, id: string)
    ensures id in Ids(prev) ==> IndexOf(prev + [n], id) == IndexOf(prev, id)
    ensures id !in Ids(prev) && n.id == id ==> IndexOf(prev + [n], id) == Some(|prev|)
  {
    var r := prev + [n];
    if id in Ids(prev) {
      var i := IndexOf(prev, id).value;
      assert r[i] == prev[i];
      assert forall j :: 0 <= j < i ==> r[j] == prev[j];
    } else if n.id == id {
      assert forall j :: 0 <= j < |prev| ==> r[j] == prev[j];
      assert r[|prev|] == n;
    }
  }

  lemma CollectNodesStep(ms: seq<NodeMatch>)
    requires |ms| > 0
    ensures var prev := CollectNodes(ms[..|ms| - 1]);
      var m := ms[|ms| - 1];
      CollectNodes(ms) == if m.id in Ids(prev) then prev else prev + [Node(m.id, m.ntype, SourceProperties)]
  {
  }

  /** The stored node for an id is the one its first declaration wrote. */
  lemma {:induction false} FirstDeclarationWins(ms: seq<NodeMatch>, k: nat)
    requires k < |ms| && FirstDeclaration(ms, k)
    ensures Lookup(CollectNodes(ms), ms[k].id) == Some(Node(ms[k].id, ms[k].ntype, SourceProperties))
  {
    var init := ms[..|ms| - 1];
    var prev := CollectNodes(init);
    var last := ms[|ms| - 1];
    CollectNodesStep(ms);
    if k == |ms| - 1 {
      assert ms[k].id !in MatchIds(init) by {
        forall j | 0 <= j < |init| ensures init[j].id != ms[k].id { assert init[j] == ms[j]; }
      }
      IndexOfAppend(prev, Node(last.id, last.ntype, SourceProperties), ms[k].id);
    } else {
      assert init[k] == ms[k];
      FirstDeclarationWins(init, k);
      IndexOfAppend(prev, Node(last.id, last.ntype, SourceProperties), ms[k].id);
    }
  }

  /** Nodes come out in the order their ids were first declared. */
  lemma {:induction false} FirstOccurrenceOrder(ms: seq<NodeMatch>, a: nat, b: nat)
    requires a < b < |ms| && FirstDeclaration(ms, a) && FirstDeclaration(ms, b)
    ensures IndexOf(CollectNodes(ms), ms[a].id).Some? && IndexOf(CollectNodes(ms), ms[b].id).Some?
    ensures IndexOf(CollectNodes(ms), ms[a].id).value < IndexOf(CollectNodes(ms), ms[b].id).value
  {
    var init := ms[..|ms| - 1];
    var prev := CollectNodes(init);
    var last := ms[|ms| - 1];
    var n := Node(last.id, last.ntype, SourceProperties);
    CollectNodesStep(ms);
    assert init[a] == ms[a];
    assert ms[a].id in MatchIds(init);
    IndexOfAppend(prev, n, ms[a].id);
    if b == |ms| - 1 {
      assert ms[b].id !in MatchIds(init) by {
        forall j | 0 <= j < |init| ensures init[j].id != ms[b].id { assert init[j] == ms[j]; }
      }
      IndexOfAppend(prev, n, ms[b].id);
    } else {
      assert init[b] == ms[b];
      FirstOccurrenceOrder(init, a, b);
      IndexOfAppend(prev, n, ms[b].id);
    }
  }

  /** Both ids of the match name stored nodes. */
  predicate Kept(nodes: seq<Node>, m: RelMatch)
  {
    m.subjId in Ids(nodes) && m.objId in Ids(nodes)
  }

  /** Second pass: relationships in match order, dropping those with an
      unknown id; endpoints are the stored nodes. */
  function BuildRelationships(nodes: seq<Node>, ms: seq<RelMatch>): (r: seq<Relationship>)
    ensures |r| <= |ms|
    ensures forall i :: 0 <= i < |r| ==>
      r[i].subj in nodes && r[i].obj in nodes && r[i].properties == SourceProperties
  {
    if |ms| == 0 then []
    else
      var prev := BuildRelationships(nodes, ms[..|ms| - 1]);
      var m := ms[|ms| - 1];
      if Kept(nodes, m) then
        prev + [Relationship(Lookup(nodes, m.subjId).value, Lookup(nodes, m.objId).value, m.rtype, m.timestamp, SourceProperties)]
      else prev
  }

  /** One relationship match: it yields a relationship iff both ids are
      stored; the endpoints are the stored nodes (not the types written in
      the relationship), type and timestamp are the captured ones. */
  lemma RelationshipKeptIff(nodes: seq<Node>, m: RelMatch)
    ensures |BuildRelationships(nodes, [m])| == 1 <==> Kept(nodes, m)
    ensures |BuildRelationships(nodes, [m])| == 0 <==> !Kept(nodes, m)
    ensures Kept(nodes, m) ==>
      var r := BuildRelationships(nodes, [m])[0];
      && r.subj == Lookup(nodes, m.subjId).value && r.obj == Lookup(nodes, m.objId).value
      && r.subj.id == m.subjId && r.obj.id == m.objId
      && r.rtype == m.rtype && r.timestamp == m.timestamp
  {
    assert [m][..0] == [];
  }

  /** Relationship order follows match order: the pass distributes over
      concatenation of the match sequence. */
  lemma {:induction false} BuildRelationshipsConcat(nodes: seq<Node>, a: seq<RelMatch>, b: seq<RelMatch>)
    ensures BuildRelationships(nodes, a + b) == BuildRelationships(nodes, a) + BuildRelationships(nodes, b)
    decreases |b|
  {
    if |b| == 0 {
      assert a + b == a;
    } else {
      var b' := b[..|b| - 1];
      assert (a + b)[..|a + b| - 1] == a + b';
      assert (a + b)[|a + b| - 1] == b[|b| - 1];
      BuildRelationshipsConcat(nodes, a, b');
    }
  }

  /** What survives depends only on the set of declared ids, not on where
      or in which order the nodes were declared. */
  lemma {:induction false} SurvivalDependsOnlyOnIds(n1: seq<NodeMatch>, n2: seq<NodeMatch>, ms: seq<RelMatch>)
    requires MatchIds(n1) == MatchIds(n2)
    ensures |BuildRelationships(CollectNodes(n1), ms)| == |BuildRelationships(CollectNodes(n2), ms)|
    ensures forall i :: 0 <= i < |BuildRelationships(CollectNodes(n1), ms)| ==>
      var r1 := BuildRelationships(CollectNodes(n1), ms)[i];
      var r2 := BuildRelationships(CollectNodes(n2), ms)[i];
      r1.subj.id == r2.subj.id && r1.obj.id == r2.obj.id && r1.rtype == r2.rtype && r1.timestamp == r2.timestamp
    decreases |ms|
  {
    if |ms| > 0 {
      SurvivalDependsOnlyOnIds(n1, n2, ms[..|ms| - 1]);
    }
  }

  /** Every relationship's endpoints are among the node matches, as they
      are when the node pattern finds the embedded `Node(...)` texts inside
      the relationship text. */
  predicate EndpointsDeclared(nodeMatches: seq<NodeMatch>, ms: seq<RelMatch>)
  {
    forall i :: 0 <= i < |ms| ==> ms[i].subjId in MatchIds(nodeMatches) && ms[i].objId in MatchIds(nodeMatches)
  }

  /** With every endpoint declared, every relationship match survives. */
  lemma {:induction false} EmbeddedEndpointsKeepAll(nodeMatches: seq<NodeMatch>, ms: seq<RelMatch>)
    requires EndpointsDeclared(nodeMatches, ms)
    ensures |BuildRelationships(CollectNodes(nodeMatches), ms)| == |ms|
    decreases |ms|
  {
    if |ms| > 0 {
      EmbeddedEndpointsKeepAll(nodeMatches, ms[..|ms| - 1]);
    }
  }

  /** `_parse_graph_elements`. */
  function ParseGraphElements(nodeMatches: seq<NodeMatch>, relMatches: seq<RelMatch>, llmOutput: string, sourceText: string)
    : (g: GraphElement)
    ensures UniqueIds(g.nodes) && Ids(g.nodes) == MatchIds(nodeMatches)
    ensures forall i :: 0 <= i < |g.relationships| ==> g.relationships[i].subj in g.nodes && g.relationships[i].obj in g.nodes
    ensures |g.relationships| <= |relMatches|
    ensures sourceText != "" ==> g.source <= sourceText && |g.source| == Min(|sourceText|, SourceLimit)
    ensures sourceText == "" ==> g.source <= llmOutput && |g.source| == Min(|llmOutput|, SourceLimit)
  {
    var nodes := CollectNodes(nodeMatches);
    GraphElement(nodes, BuildRelationships(nodes, relMatches),
                 CreateSourceElement(if sourceText != "" then sourceText else llmOutput))
  }

  /** A later declaration cannot change a node's type, and a relationship
      written with another type for its endpoint still points at the stored
      node. */
  lemma DuplicateDeclarationIgnored()
    ensures var g := ParseGraphElements(
        [NodeMatch("a", "Old"), NodeMatch("b", "T"), NodeMatch("a", "New")],
        [RelMatch("a", "New", "b", "T", "causes", None)], "", "text");
      && |g.nodes| == 2 && g.nodes[0].ntype == "Old"
      && |g.relationships| == 1 && g.relationships[0].subj.ntype == "Old"
  {
    var ms := [NodeMatch("a", "Old"), NodeMatch("b", "T"), NodeMatch("a", "New")];
    assert ms[..2][..1] == [NodeMatch("a", "Old")];
    assert ms[..2] == [NodeMatch("a", "Old"), NodeMatch("b", "T")];
    assert CollectNodes(ms[..2][..1]) == [Node("a", "Old", SourceProperties)];
    assert CollectNodes(ms[..2]) == [Node("a", "Old", SourceProperties), Node("b", "T", SourceProperties)];
    var nodes := CollectNodes(ms);
    assert nodes == CollectNodes(ms[..2]);
    FirstDeclarationWins(ms, 0);
    RelationshipKeptIff(nodes, RelMatch("a", "New", "b", "T", "causes", None));
  }

  const OcrPromptLimit: nat := 10000
  const TruncationMarker: string := "...[truncated]"

  /** The OCR part of the extraction prompt: at most 10000 characters of the
      text, then a line holding the truncation marker only when text was cut. */
  function OcrExcerpt(ocr: string): (r: string)
    ensures Prefix(ocr, OcrPromptLimit) + "\n" <= r
    ensures |ocr| <= OcrPromptLimit ==> r == ocr + "\n"
    ensures |ocr| > OcrPromptLimit ==>
      |r| == OcrPromptLimit + 1 + |TruncationMarker| && r[OcrPromptLimit + 1..] == TruncationMarker
  {
    Prefix(ocr, OcrPromptLimit) + "\n" + (if |ocr| > OcrPromptLimit then TruncationMarker else "")
  }

  /** The traceability text: 500-character prefixes of both inputs. */
  function SourceTextFor(phase1: string, ocr: string): (r: string)
    ensures r != ""
    ensures |r| <= 1022
    ensures |r| == 22 + Min(|phase1|, 500) + Min(|ocr|, 500)
    ensures r[..8] == "Phase1: " && r[|r| - 3..] == "..."
    ensures r[8..8 + Min(|phase1|, 500)] == phase1[..Min(|phase1|, 500)]
    ensures r[8 + Min(|phase1|, 500)..19 + Min(|phase1|, 500)] == "... | OCR: "
    ensures r[19 + Min(|phase1|, 500)..|r| - 3] == ocr[..Min(|ocr|, 500)]
  {
    "Phase1: " + Prefix(phase1, 500) + "... | OCR: " + Prefix(ocr, 500) + "..."
  }

  /** `extract_knowledge_graph`: `reply` is the outcome of the rate-limited
      request (made with a 15-second spacing); the scans of its text are
      given.  The source element always comes from the inputs, never from
      the model's text, because the traceability text is never empty. */
  function ExtractKnowledgeGraph(phase1: string, ocr: string, reply: Result<string>,
                                 nodeMatches: seq<NodeMatch>, relMatches: seq<RelMatch>): (r: Result<GraphElement>)
    ensures reply.Err? ==> r == Err(reply.message)
    ensures reply.Ok? && reply.value == "" ==> r == Err(EmptyResponseMessage)
    ensures r.Ok? ==> reply.Ok? && reply.value != ""
    ensures r.Ok? ==>
      r.value.source == Prefix(SourceTextFor(phase1, ocr), SourceLimit) && Ids(r.value.nodes) == MatchIds(nodeMatches)
  {
    match reply
    case Err(e) => Err(e)
    case Ok(text) =>
      if text == "" then Err(EmptyResponseMessage)
      else Ok(ParseGraphElements(nodeMatches, relMatches, text, SourceTextFor(phase1, ocr)))
  }

  /** Metadata of a generated summary (timestamp and output file left out). */
  datatype SummaryMetadata = SummaryMetadata(inputLength: nat, outputLength: nat)

  /** `generate_phase2_summary`. */
  function GenerateSummary(phase1: string, reply: Result<string>): (r: Result<(string, SummaryMetadata)>)
    ensures r.Ok? <==> reply.Ok? && reply.value != ""
    ensures r.Ok? ==> r.value.0 == reply.value && r.value.1 == SummaryMetadata(|phase1|, |reply.value|)
  {
    match reply
    case Err(e) => Err(e)
    case Ok(text) => if text == "" then Err(EmptyResponseMessage) else Ok((text, SummaryMetadata(|phase1|, |text|)))
  }

  /** The record `run_phase2` returns; `metadata` None stands for `{}`. */
  datatype Phase2Results = Phase2Results(
    graphElement: Option<GraphElement>,
    summary: Option<string>,
    metadata: Option<SummaryMetadata>)

  /** `run_phase2`: graph extraction (with storage) and the summary are each
      tolerated on failure.  `storage` is the outcome of writing the graph to
      the database. */
  function RunPhase2(phase1: string, ocr: string,
                     kgReply: Result<string>, nodeMatches: seq<NodeMatch>, relMatches: seq<RelMatch>,
                     storage: Result<()>, summaryReply: Result<string>): (r: Phase2Results)
    // The graph is recorded before storage is attempted: a storage failure leaves it set.
    ensures r.graphElement.Some? <==> ExtractKnowledgeGraph(phase1, ocr, kgReply, nodeMatches, relMatches).Ok?
    ensures r.graphElement.Some? ==> r.graphElement.value == ExtractKnowledgeGraph(phase1, ocr, kgReply, nodeMatches, relMatches).value
    ensures r.summary.Some? <==> summaryReply.Ok? && summaryReply.value != ""
    ensures r.summary.Some? ==> r.summary.value == summaryReply.value
    ensures r.metadata.Some? <==> r.summary.Some?
    ensures r.metadata.Some? ==> r.metadata.value.inputLength == |phase1| && r.metadata.value.outputLength == |r.summary.value|
  {
    var graph := OkOrNone(ExtractKnowledgeGraph(phase1, ocr, kgReply, nodeMatches, relMatches));
    match GenerateSummary(phase1, summaryReply)
    case Ok(s) => Phase2Results(graph, Some(s.0), Some(s.1))
    case Err(_) => Phase2Results(graph, None, None)
  }

  /** The two halves are independent: the summary does not depend on the
      graph extraction or its storage, nor the graph on the summary. */
  lemma Phase2HalvesIndependent(phase1: string, ocr: string,
                                kg1: Result<string>, kg2: Result<string>, nodeMatches: seq<NodeMatch>, relMatches: seq<RelMatch>,
                                st1: Result<()>, st2: Result<()>, sum1: Result<string>, sum2: Result<string>)
    ensures RunPhase2(phase1, ocr, kg1, nodeMatches, relMatches, st1, sum1).summary
         == RunPhase2(phase1, ocr, kg2, nodeMatches, relMatches, st2, sum1).summary
    ensures RunPhase2(phase1, ocr, kg1, nodeMatches, relMatches, st1, sum1).graphElement
         == RunPhase2(phase1, ocr, kg1, nodeMatches, relMatches, st2, sum2).graphElement
  {
  }
}

=== FILE: phase3.dfy ===
/** Phase 3 (distilling): three lenses over the Phase 2 summary, then a
    synthesis of the three.  The model is an oracle from requests to
    replies; each request carries exactly the texts its prompt embeds, so
    the call log shows what every call was given. */
module Phase3 {
  import opened Base
  import opened Stages

  datatype Lens = LensA | LensB | LensC

  /** The `lens` entry of a lens result: the lens letter, then its title. */
  function LensName(l: Lens): (r: string)
    ensures |r| > 4 && r[1] == ' ' && r[2] == '-' && r[3] == ' '
    ensures r[0] == (match l case LensA => 'A' case LensB => 'B' case LensC => 'C')
  {
    match l
    case LensA => "A - Modern Research Extensions"
    case LensB => "B - Historical Observation Extensions"
    case LensC => "C - Bridge Questions"
  }

  /** One model call: a lens prompt built around the Phase 2 summary, or the
      synthesis prompt built around the three lens outputs. */
  datatype Request =
    | LensRequest(lens: Lens, summary: string)
    | SynthesisRequest(outputA: string, outputB: string, outputC: string)

  /** A lens result without its output file and timestamp. */
  datatype LensResult = LensResult(lens: string, output: string)

  datatype SynthesisResult = SynthesisResult(synthesis: string)

  /** The record `run_phase3` returns; every entry starts out None. */
  datatype Phase3Results = Phase3Results(
    lensA: Option<LensResult>,
    lensB: Option<LensResult>,
    lensC: Option<LensResult>,
    synthesis: Option<SynthesisResult>)

  /** The results record together with the calls made, in order. */
  datatype Phase3Run = Phase3Run(results: Phase3Results, calls: seq<Request>)

  /** What Python raises when the summary printed by length is None. */
  const NoneLengthMessage: string := "object of type 'NoneType' has no len()"

  /** A lens executor: one call with the summary; empty text fails. */
  function GenerateLens(l: Lens, summary: string, model: Request -> Reply): (r: Result<LensResult>)
    ensures r.Ok? <==> model(LensRequest(l, summary)).Text? && model(LensRequest(l, summary)).text != []
    ensures r.Ok? ==> r.value == LensResult(LensName(l), model(LensRequest(l, summary)).text)
    ensures r.Err? && model(LensRequest(l, summary)).Text? ==> r.message == EmptyResponseMessage
  {
    match Execute(model(LensRequest(l, summary)))
    case Ok(text) => Ok(LensResult(LensName(l), text))
    case Err(e) => Err(e)
  }

  /** The synthesis executor: one call with the three lens outputs. */
  function GenerateSynthesis(a: LensResult, b: LensResult, c: LensResult, model: Request -> Reply): (r: Result<SynthesisResult>)
    ensures r.Ok? <==> Execute(model(SynthesisRequest(a.output, b.output, c.output))).Ok?
    ensures r.Ok? ==> r.value.synthesis == model(SynthesisRequest(a.output, b.output, c.output)).text
    ensures r.Ok? ==> r.value.synthesis != []
  {
    match Execute(model(SynthesisRequest(a.output, b.output, c.output)))
    case Ok(text) => Ok(SynthesisResult(text))
    case Err(e) => Err(e)
  }

  /** `run_phase3`.  A None summary raises at the length print, before any
      call and outside every handler.  Each lens failure is caught and
      leaves only its own entry None; the synthesis is attempted only when
      all three lenses produced a result, and its failure is caught too. */
  function RunPhase3(summary: Option<string>, model: Request -> Reply): (r: Result<Phase3Run>)
    ensures r.Err? <==> summary.None?
    ensures r.Err? ==> r.message == NoneLengthMessage
    ensures r.Ok? ==>
      var res := r.value.results;
      var calls := r.value.calls;
      // the three lenses run in order, each given the same summary
      && 3 <= |calls| <= 4
      && calls[..3] == [LensRequest(LensA, summary.value), LensRequest(LensB, summary.value), LensRequest(LensC, summary.value)]
      && res.lensA == OkOrNone(GenerateLens(LensA, summary.value, model))
      && res.lensB == OkOrNone(GenerateLens(LensB, summary.value, model))
      && res.lensC == OkOrNone(GenerateLens(LensC, summary.value, model))
      // the synthesis is attempted iff every lens succeeded, on their outputs
      && (|calls| == 4 <==> res.lensA.Some? && res.lensB.Some? && res.lensC.Some?)
      && (|calls| == 4 ==> calls[3] == SynthesisRequest(res.lensA.value.output, res.lensB.value.output, res.lensC.value.output))
      && (res.synthesis.Some? <==> |calls| == 4 && Execute(model(calls[3])).Ok?)
      && (res.synthesis.Some? ==> res.synthesis.value.synthesis == model(calls[3]).text)
  {
    match summary
    case None => Err(NoneLengthMessage)
    case Some(s) =>
      var a := OkOrNone(GenerateLens(LensA, s, model));
      var b := OkOrNone(GenerateLens(LensB, s, model));
      var c := OkOrNone(GenerateLens(LensC, s, model));
      var lensCalls := [LensRequest(LensA, s), LensRequest(LensB, s), LensRequest(LensC, s)];
      if a.Some? && b.Some? && c.Some? then
        var syn := OkOrNone(GenerateSynthesis(a.value, b.value, c.value, model));
        Ok(Phase3Run(Phase3Results(a, b, c, syn),
                     lensCalls + [SynthesisRequest(a.value.output, b.value.output, c.value.output)]))
      else
        Ok(Phase3Run(Phase3Results(a, b, c, None), lensCalls))
  }

  /** The entry of one lens. */
  function LensEntry(res: Phase3Results, l: Lens): Option<LensResult>
  {
    match l
    case LensA => res.lensA
    case LensB => res.lensB
    case LensC => res.lensC
  }

  /** Lens failures are isolated: the entry of a lens depends only on the
      reply to that lens's own request, whatever the other calls return. */
  lemma LensFailureIsolated(summary: string, l: Lens, m1: Request -> Reply, m2: Request -> Reply)
    requires m1(LensRequest(l, summary)) == m2(LensRequest(l, summary))
    ensures LensEntry(RunPhase3(Some(summary), m1).value.results, l)
         == LensEntry(RunPhase3(Some(summary), m2).value.results, l)
  {
  }

  /** A synthesis is only ever present on top of three lens results, and a
      lens that fails rules it out without stopping the other lenses. */
  lemma SynthesisNeedsAllLenses(summary: string, model: Request -> Reply, l: Lens)
    requires GenerateLens(l, summary, model).Err?
    ensures RunPhase3(Some(summary), model).value.results.synthesis.None?
    ensures |RunPhase3(Some(summary), model).value.calls| == 3
    ensures forall k: Lens :: k != l ==>
      (LensEntry(RunPhase3(Some(summary), model).value.results, k).Some? <==> GenerateLens(k, summary, model).Ok?)
  {
    var res := RunPhase3(Some(summary), model).value.results;
    assert LensEntry(res, l).None?;
  }

  /** When every call answers with text, all four entries are filled. */
  lemma AllRepliesGiveFullRecord(summary: string, model: Request -> Reply)
    requires forall q :: model(q).Text? && model(q).text != []
    ensures var res := RunPhase3(Some(summary), model).value.results;
      res.lensA.Some? && res.lensB.Some? && res.lensC.Some? && res.synthesis.Some?
  {
    var res := RunPhase3(Some(summary), model).value.results;
    assert res.lensA.Some? && res.lensB.Some? && res.lensC.Some?;
    var q := SynthesisRequest(res.lensA.value.output, res.lensB.value.output, res.lensC.value.output);
    assert model(q).Text?;
  }
}

=== FILE: phase4.dfy ===
/** Phase 4 (formulating): research questions from the Phase 3 synthesis,
    then their ranking, then an executive summary.  As in Phase 3 the model
    is an oracle from requests to replies, and each request carries the
    texts and numbers its prompt embeds. */
module Phase4 {
  import opened Base
  import opened Stages

  datatype Request =
    | QuestionsRequest(synthesis: string, numQuestions: int, hFormat: bool)
    | RankingRequest(questions: string, topN: int)
    | SummaryRequest(questions: string, ranking: string)

  /** Executor results without their output files and timestamps. */
  datatype QuestionsResult = QuestionsResult(questionsOutput: string, numQuestions: int)
  datatype RankingResult = RankingResult(rankingOutput: string, topN: int)
  datatype SummaryResult = SummaryResult(summaryOutput: string)

  /** The record `run_phase4` returns; the three entries start out None. */
  datatype Phase4Results = Phase4Results(
    format: string,
    questions: Option<QuestionsResult>,
    ranking: Option<RankingResult>,
    summary: Option<SummaryResult>)

  datatype Phase4Run = Phase4Run(results: Phase4Results, calls: seq<Request>)

  const HFormat: string := "H-format"
  const DetailedFormat: string := "13-field"

  function FormatLabel(hFormat: bool): (r: string)
    ensures r == HFormat <==> hFormat
    ensures r == DetailedFormat <==> !hFormat
  {
    if hFormat then HFormat else DetailedFormat
  }

  /** The question executor; on success the result echoes the requested count. */
  function GenerateQuestions(synthesis: string, numQuestions: int, hFormat: bool, model: Request -> Reply): (r: Result<QuestionsResult>)
    ensures r.Ok? <==> Execute(model(QuestionsRequest(synthesis, numQuestions, hFormat))).Ok?
    ensures r.Ok? ==> r.value.numQuestions == numQuestions
    ensures r.Ok? ==> r.value.questionsOutput == model(QuestionsRequest(synthesis, numQuestions, hFormat)).text
    ensures r.Err? ==> r.message == Execute(model(QuestionsRequest(synthesis, numQuestions, hFormat))).message
  {
    match Execute(model(QuestionsRequest(synthesis, numQuestions, hFormat)))
    case Ok(text) => Ok(QuestionsResult(text, numQuestions))
    case Err(e) => Err(e)
  }

  /** The ranking executor; on success the result echoes the requested top n. */
  function RankQuestions(questions: string, topN: int, model: Request -> Reply): (r: Result<RankingResult>)
    ensures r.Ok? <==> Execute(model(RankingRequest(questions, topN))).Ok?
    ensures r.Ok? ==> r.value.topN == topN
    ensures r.Ok? ==> r.value.rankingOutput == model(RankingRequest(questions, topN)).text
  {
    match Execute(model(RankingRequest(questions, topN)))
    case Ok(text) => Ok(RankingResult(text, topN))
    case Err(e) => Err(e)
  }

  function GenerateExecutiveSummary(questions: string, ranking: string, model: Request -> Reply): (r: Result<SummaryResult>)
    ensures r.Ok? <==> Execute(model(SummaryRequest(questions, ranking))).Ok?
    ensures r.Ok? ==> r.value.summaryOutput == model(SummaryRequest(questions, ranking)).text
  {
    match Execute(model(SummaryRequest(questions, ranking)))
    case Ok(text) => Ok(SummaryResult(text))
    case Err(e) => Err(e)
  }

  /** `run_phase4`.  A failed question step returns the record at once;
      after it, a ranking failure is tolerated, and the summary is attempted
      only when both questions and ranking are present. */
  function RunPhase4(synthesis: string, numQuestions: int, topN: int, hFormat: bool, model: Request -> Reply): (r: Phase4Run)
    ensures r.results.format == FormatLabel(hFormat)
    ensures 1 <= |r.calls| <= 3
    ensures r.calls[0] == QuestionsRequest(synthesis, numQuestions, hFormat)
    ensures r.results.questions == OkOrNone(GenerateQuestions(synthesis, numQuestions, hFormat, model))
    // nothing after a failed question step
    ensures r.results.questions.None? ==> |r.calls| == 1 && r.results.ranking.None? && r.results.summary.None?
    // the ranking is asked about the question text, with the requested top n
    ensures r.results.questions.Some? ==>
      && |r.calls| >= 2
      && r.calls[1] == RankingRequest(r.results.questions.value.questionsOutput, topN)
      && r.results.ranking == OkOrNone(RankQuestions(r.results.questions.value.questionsOutput, topN, model))
    // the summary is attempted iff both earlier entries are present
    ensures |r.calls| == 3 <==> r.results.questions.Some? && r.results.ranking.Some?
    ensures |r.calls| == 3 ==>
      r.calls[2] == SummaryRequest(r.results.questions.value.questionsOutput, r.results.ranking.value.rankingOutput)
    ensures r.results.summary.Some? <==> |r.calls| == 3 && Execute(model(r.calls[2])).Ok?
  {
    var fmt := FormatLabel(hFormat);
    var qCall := QuestionsRequest(synthesis, numQuestions, hFormat);
    match GenerateQuestions(synthesis, numQuestions, hFormat, model)
    case Err(_) => Phase4Run(Phase4Results(fmt, None, None, None), [qCall])
    case Ok(q) =>
      var rCall := RankingRequest(q.questionsOutput, topN);
      match RankQuestions(q.questionsOutput, topN, model)
      case Err(_) => Phase4Run(Phase4Results(fmt, Some(q), None, None), [qCall, rCall])
      case Ok(rk) =>
        var sCall := SummaryRequest(q.questionsOutput, rk.rankingOutput);
        var summary := OkOrNone(GenerateExecutiveSummary(q.questionsOutput, rk.rankingOutput, model));
        Phase4Run(Phase4Results(fmt, Some(q), Some(rk), summary), [qCall, rCall, sCall])
  }

  /** The entries are filled in order: a summary implies a ranking, and a
      ranking implies questions. */
  lemma EntriesFilledInOrder(synthesis: string, numQuestions: int, topN: int, hFormat: bool, model: Request -> Reply)
    ensures var res := RunPhase4(synthesis, numQuestions, topN, hFormat, model).results;
      (res.summary.Some? ==> res.ranking.Some?) && (res.ranking.Some? ==> res.questions.Some?)
  {
  }

  /** Questions and ranking depend only on their own two calls: whatever the
      summary call answers, they come out the same. */
  lemma SummaryFailureTolerated(synthesis: string, numQuestions: int, topN: int, hFormat: bool,
                                m1: Request -> Reply, m2: Request -> Reply)
    requires forall q: Request :: !q.SummaryRequest? ==> m1(q) == m2(q)
    ensures RunPhase4(synthesis, numQuestions, topN, hFormat, m1).results.questions
         == RunPhase4(synthesis, numQuestions, topN, hFormat, m2).results.questions
    ensures RunPhase4(synthesis, numQuestions, topN, hFormat, m1).results.ranking
         == RunPhase4(synthesis, numQuestions, topN, hFormat, m2).results.ranking
  {
    var qCall := QuestionsRequest(synthesis, numQuestions, hFormat);
    assert m1(qCall) == m2(qCall);
    var r1 := RunPhase4(synthesis, numQuestions, topN, hFormat, m1);
    if r1.results.questions.Some? {
      var rCall := RankingRequest(r1.results.questions.value.questionsOutput, topN);
      assert m1(rCall) == m2(rCall);
    }
  }
}

=== FILE: pipeline.dfy ===
/** The command-line pipeline (`main`): the database name, then OCR,
    Phase 1 to Phase 4 and the verification of the top questions, each
    stage gated on what the previous ones left in their results.  External
    services are outcomes given as parameters; the model oracles of Phase 3
    and Phase 4 are functions from requests to replies. */
module Pipeline {
  import opened Base
  import opened Text
  import opened Stages
  import opened Names
  import Phase2
  import Phase3
  import Phase4
  import TopQuestions

  /** What the Phase 2 step is given besides the Phase 1 text and the OCR
      text: the connection outcome of the builder, the model's graph reply
      with its scans, the storage outcome, the summary reply, and the
      outcome of closing the builder. */
  datatype Phase2Inputs = Phase2Inputs(
    connect: Result<()>,
    kgReply: Result<string>,
    nodeMatches: seq<Phase2.NodeMatch>,
    relMatches: seq<Phase2.RelMatch>,
    storage: Result<()>,
    summaryReply: Result<string>,
    close: Result<()>)

  /** How `main` ends. */
  datatype Ending =
    | FileNotFound
    | Cancelled
    | Phase1Failed(message: string)
    | PipelineFailed(message: string)
    | Completed

  /** The results the stages leave behind; `verificationRequest` is the
      list handed to the verifier, None when it is never called. */
  datatype StageResults = StageResults(
    phase2: Option<Phase2.Phase2Results>,
    phase3: Option<Phase3.Phase3Results>,
    phase4: Option<Phase4.Phase4Results>,
    topQuestions: seq<string>,
    verificationRequest: Option<seq<string>>)

  datatype MainRun = MainRun(dbName: Option<string>, ending: Ending, stages: Option<StageResults>)

  /** The fixed Phase 4 arguments of the pipeline. */
  const NumQuestions: int := 10
  const RankTopN: int := 3
  const VerifyTopN: int := 2

  /** The database name of an input path: basename, stem, sanitised and cut,
      then prefixed, suffixed with the timestamp and lower-cased. */
  function DbNameFor(inputFile: string, timestamp: string): (r: string)
    ensures |CleanName(Basename(inputFile))| <= CleanNameLimit
    ensures |r| == |DbPrefix| + |CleanName(Basename(inputFile))| + 1 + |timestamp|
    ensures r[..|DbPrefix|] == DbPrefix
    ensures forall k :: |DbPrefix| <= k < |DbPrefix| + |CleanName(Basename(inputFile))| ==>
      IsNameChar(r[k]) && !('A' <= r[k] <= 'Z')
    ensures r[|DbPrefix|..|DbPrefix| + |CleanName(Basename(inputFile))|] == Lower(CleanName(Basename(inputFile)))
    ensures r[|DbPrefix| + |CleanName(Basename(inputFile))|] == '_'
    ensures r[|DbPrefix| + |CleanName(Basename(inputFile))| + 1..] == Lower(timestamp)
  {
    DbNameOfFile(Basename(inputFile), timestamp);
    DbName(CleanName(Basename(inputFile)), timestamp)
  }

  /** Phase 2: a builder that fails to connect raises before `run_phase2`
      and leaves no results; a failure to close comes after the results are
      assigned and leaves them in place.  Either exception is caught. */
  function Phase2Step(phase1: string, ocr: string, in2: Phase2Inputs): (r: Option<Phase2.Phase2Results>)
    ensures r.Some? <==> in2.connect.Ok?
    ensures r.Some? ==> r.value == Phase2.RunPhase2(phase1, ocr, in2.kgReply, in2.nodeMatches, in2.relMatches, in2.storage, in2.summaryReply)
  {
    match in2.connect
    case Err(_) => None
    case Ok(_) => Some(Phase2.RunPhase2(phase1, ocr, in2.kgReply, in2.nodeMatches, in2.relMatches, in2.storage, in2.summaryReply))
  }

  /** Phase 3 runs only on a non-empty Phase 2 summary, so it never meets a
      None summary and always returns its record. */
  function Phase3Step(p2: Option<Phase2.Phase2Results>, model3: Phase3.Request -> Reply): (r: Option<Phase3.Phase3Results>)
    ensures r.Some? <==> p2.Some? && p2.value.summary.Some? && p2.value.summary.value != []
    ensures r.Some? ==> Phase3.RunPhase3(p2.value.summary, model3) == Ok(Phase3.Phase3Run(r.value, Phase3.RunPhase3(p2.value.summary, model3).value.calls))
  {
    if p2.Some? && p2.value.summary.Some? && p2.value.summary.value != [] then
      Some(Phase3.RunPhase3(p2.value.summary, model3).value.results)
    else None
  }

  /** Phase 4 runs only on a Phase 3 synthesis, with ten questions, the top
      three ranked and the H-format. */
  function Phase4Step(p3: Option<Phase3.Phase3Results>, model4: Phase4.Request -> Reply): (r: Option<Phase4.Phase4Results>)
    ensures r.Some? <==> p3.Some? && p3.value.synthesis.Some?
    ensures r.Some? ==> r.value == Phase4.RunPhase4(p3.value.synthesis.value.synthesis, NumQuestions, RankTopN, true, model4).results
    ensures r.Some? ==> r.value.format == Phase4.HFormat
  {
    if p3.Some? && p3.value.synthesis.Some? then
      Some(Phase4.RunPhase4(p3.value.synthesis.value.synthesis, NumQuestions, RankTopN, true, model4).results)
    else None
  }

  /** The verification step: with questions and ranking present, the top two
      claims are read back from the two files Phase 4 wrote (whose contents
      are the two outputs), and the verifier is called only when there is
      at least one. */
  function VerificationStep(p4: Option<Phase4.Phase4Results>): (r: (seq<string>, Option<seq<string>>))
    ensures |r.0| <= VerifyTopN
    ensures forall k :: 0 <= k < |r.0| ==> IsStripped(r.0[k])
    ensures r.1.Some? <==> r.0 != []
    ensures r.1.Some? ==> r.1.value == r.0
    ensures r.0 != [] ==> p4.Some? && p4.value.questions.Some? && p4.value.ranking.Some?
    ensures p4.Some? && p4.value.questions.Some? && p4.value.ranking.Some? ==>
      r.0 == TopQuestions.ExtractTopQuestions(Some(Ok(p4.value.ranking.value.rankingOutput)),
                                             Some(Ok(p4.value.questions.value.questionsOutput)), VerifyTopN)
  {
    if p4.Some? && p4.value.questions.Some? && p4.value.ranking.Some? then
      var top := TopQuestions.ExtractTopQuestions(Some(Ok(p4.value.ranking.value.rankingOutput)),
                                                 Some(Ok(p4.value.questions.value.questionsOutput)), VerifyTopN);
      (top, if top != [] then Some(top) else None)
    else ([], None)
  }

  /** Phase 2 to the verification step: none of them raises out of `main`. */
  function LaterStages(phase1: string, ocr: string, in2: Phase2Inputs,
                       model3: Phase3.Request -> Reply, model4: Phase4.Request -> Reply): (r: StageResults)
    ensures r.phase2 == Phase2Step(phase1, ocr, in2)
    ensures r.phase3 == Phase3Step(r.phase2, model3)
    ensures r.phase4 == Phase4Step(r.phase3, model4)
    ensures (r.topQuestions, r.verificationRequest) == VerificationStep(r.phase4)
  {
    var p2 := Phase2Step(phase1, ocr, in2);
    var p3 := Phase3Step(p2, model3);
    var p4 := Phase4Step(p3, model4);
    var v := VerificationStep(p4);
    StageResults(p2, p3, p4, v.0, v.1)
  }

  /** `main`.  The input path comes already unquoted, with a flag for its
      existence and the answer to the confirmation prompt.  An OCR failure
      reaches the outer handler; a Phase 1 failure returns quietly before
      Phase 2. */
  function Main(inputFile: string, inputExists: bool, timestamp: string, answer: string,
                ocr: Result<string>, phase1: Result<string>, in2: Phase2Inputs,
                model3: Phase3.Request -> Reply, model4: Phase4.Request -> Reply): (r: MainRun)
    ensures r.dbName.Some? <==> inputExists
    ensures r.dbName.Some? ==> r.dbName.value == DbNameFor(inputFile, timestamp)
    ensures r.ending == FileNotFound <==> !inputExists
    ensures r.ending == Cancelled <==> inputExists && Lower(answer) != "y"
    ensures r.ending.PipelineFailed? <==> inputExists && Lower(answer) == "y" && ocr.Err?
    ensures r.ending.PipelineFailed? ==> r.ending.message == ocr.message
    ensures r.ending.Phase1Failed? <==> inputExists && Lower(answer) == "y" && ocr.Ok? && phase1.Err?
    // the later stages run exactly when OCR and Phase 1 succeed, and then the run completes
    ensures r.stages.Some? <==> r.ending == Completed
    ensures r.stages.Some? <==> inputExists && Lower(answer) == "y" && ocr.Ok? && phase1.Ok?
    ensures r.stages.Some? ==> r.stages.value == LaterStages(phase1.value, ocr.value, in2, model3, model4)
  {
    if !inputExists then MainRun(None, FileNotFound, None)
    else
      var db := Some(DbNameFor(inputFile, timestamp));
      if Lower(answer) != "y" then MainRun(db, Cancelled, None)
      else match ocr
        case Err(e) => MainRun(db, PipelineFailed(e), None)
        case Ok(text) =>
          match phase1
          case Err(e) => MainRun(db, Phase1Failed(e), None)
          case Ok(brainstorm) => MainRun(db, Completed, Some(LaterStages(brainstorm, text, in2, model3, model4)))
  }

  /** Each stage runs only on top of all earlier ones: a verification
      request needs Phase 4 questions and ranking, Phase 4 needs a Phase 3
      synthesis, and Phase 3 needs a non-empty Phase 2 summary. */
  lemma StagesRunInOrder(phase1: string, ocr: string, in2: Phase2Inputs,
                         model3: Phase3.Request -> Reply, model4: Phase4.Request -> Reply)
    ensures var r := LaterStages(phase1, ocr, in2, model3, model4);
      && (r.verificationRequest.Some? ==> r.phase4.Some? && r.phase4.value.questions.Some? && r.phase4.value.ranking.Some?)
      && (r.phase4.Some? ==> r.phase3.Some? && r.phase3.value.synthesis.Some?)
      && (r.phase3.Some? ==> r.phase2.Some? && r.phase2.value.summary.Some? && in2.connect.Ok?
                              && in2.summaryReply.Ok? && in2.summaryReply.value != [])
  {
  }

  /** A builder that cannot connect skips Phase 2 and with it every later
      stage, yet the pipeline still completes. */
  lemma Phase2ExceptionContinues(inputFile: string, timestamp: string, ocr: string, phase1: string,
                                 in2: Phase2Inputs, model3: Phase3.Request -> Reply, model4: Phase4.Request -> Reply)
    requires in2.connect.Err?
    ensures var r := Main(inputFile, true, timestamp, "y", Ok(ocr), Ok(phase1), in2, model3, model4);
      && r.ending == Completed
      && r.stages.value == StageResults(None, None, None, [], None)
  {
    assert Lower("y") == "y";
  }

  /** Failing to close the builder changes nothing: the Phase 2 results were
      assigned before the close and every later stage sees them.  This holds
      because the Phase 2 step never reads the close outcome: the exception
      `close` raises reaches the same handler as a Phase 2 failure, which
      only prints it, after `phase2_results` was already assigned. */
  lemma CloseFailureHarmless(phase1: string, ocr: string, in2: Phase2Inputs,
                             model3: Phase3.Request -> Reply, model4: Phase4.Request -> Reply)
    ensures LaterStages(phase1, ocr, in2.(close := Err("close failed")), model3, model4)
         == LaterStages(phase1, ocr, in2.(close := Ok(())), model3, model4)
  {
  }

  /** Only the lens and synthesis replies to the Phase 2 summary matter to
      Phase 3; a summary the model left empty skips Phase 3 and Phase 4. */
  lemma EmptySummarySkipsLaterPhases(phase1: string, ocr: string, in2: Phase2Inputs,
                                     model3: Phase3.Request -> Reply, model4: Phase4.Request -> Reply)
    requires in2.summaryReply.Err? || in2.summaryReply.value == []
    ensures var r := LaterStages(phase1, ocr, in2, model3, model4);
      r.phase3.None? && r.phase4.None? && r.topQuestions == [] && r.verificationRequest.None?
  {
  }

  /** When every model call answers with text, the pipeline reaches Phase 4
      with questions in the H-format. */
  lemma FullRepliesReachPhase4(phase1: string, ocr: string, in2: Phase2Inputs,
                               model3: Phase3.Request -> Reply, model4: Phase4.Request -> Reply)
    requires in2.connect.Ok? && in2.summaryReply.Ok? && in2.summaryReply.value != []
    requires forall q :: model3(q).Text? && model3(q).text != []
    requires forall q :: model4(q).Text? && model4(q).text != []
    ensures var r := LaterStages(phase1, ocr, in2, model3, model4);
      && r.phase4.Some? && r.phase4.value.format == Phase4.HFormat
      && r.phase4.value.questions.Some? && r.phase4.value.ranking.Some? && r.phase4.value.summary.Some?
  {
    var p2 := Phase2Step(phase1, ocr, in2);
    Phase3.AllRepliesGiveFullRecord(in2.summaryReply.value, model3);
    var p3 := Phase3Step(p2, model3);
    assert p3.Some? && p3.value.synthesis.Some?;
    var syn := p3.value.synthesis.value.synthesis;
    var q := Phase4.QuestionsRequest(syn, NumQuestions, true);
    assert model4(q).Text?;
    var run := Phase4.RunPhase4(syn, NumQuestions, RankTopN, true, model4);
    assert model4(run.calls[1]).Text?;
    assert model4(run.calls[2]).Text?;
  }
}

=== FILE: rate_limiter.dfy ===
/** The pacing and backoff arithmetic of GeminiRateLimiter, its error
    classification and delay extraction, its statistics and the process-wide
    factory.  Time is an abstract `real` clock in seconds; `random.uniform`
    becomes an explicit jitter argument. */
module RateLimiter {
  import opened Base
  import opened Text

  /** Constructor arguments; immutable once the limiter is built. */
  datatype Config = Config(
    initialDelay: real,
    maxDelay: real,
    baseDelay: real,
    maxRetries: int,
    totalTimeout: int)

  const DefaultConfig: Config := Config(2.0, 300.0, 12.0, 5, 1800)

  /** Delays `time.sleep` accepts: a negative argument makes it raise. */
  predicate ValidConfig(c: Config)
  {
    c.initialDelay >= 0.0 && c.maxDelay >= 0.0 && c.baseDelay >= 0.0
  }

  /** A limiter instance: its configuration plus the two pacing counters. */
  datatype Limiter = Limiter(config: Config, requestCount: nat, lastRequestTime: real)

  function NewLimiter(c: Config): Limiter
  {
    Limiter(c, 0, 0.0)
  }

  function Pow2(n: nat): nat
  {
    if n == 0 then 1 else 2 * Pow2(n - 1)
  }

  lemma {:induction false} Pow2Monotone(a: nat, b: nat)
    requires a <= b
    ensures Pow2(a) <= Pow2(b)
    decreases b
  {
    if a < b {
      Pow2Monotone(a, b - 1);
    }
  }

  /** The range `random.uniform(0.1, 0.9)` draws from: absolute seconds,
      not a fraction of the initial delay. */
  predicate JitterInRange(j: real)
  {
    0.1 <= j <= 0.9
  }

  /** `initial_delay * 2 ** attempt`, before jitter and cap. */
  function Exponential(c: Config, attempt: nat): real
  {
    c.initialDelay * Pow2(attempt) as real
  }

  /** Exponential backoff for a failure that is not a rate limit. */
  function CalculateDelay(c: Config, attempt: nat, jitter: real): (d: real)
    requires JitterInRange(jitter)
    ensures d <= c.maxDelay
    ensures d <= Exponential(c, attempt) + 0.9
    ensures d >= MinReal(Exponential(c, attempt) + 0.1, c.maxDelay)
  {
    MinReal(Exponential(c, attempt) + jitter, c.maxDelay)
  }

  /** For one jitter value the delay never decreases as the attempt grows. */
  lemma BackoffMonotone(c: Config, a: nat, b: nat, jitter: real)
    requires c.initialDelay >= 0.0 && JitterInRange(jitter) && a <= b
    ensures CalculateDelay(c, a, jitter) <= CalculateDelay(c, b, jitter)
  {
    Pow2Monotone(a, b);
    MulMonotone(c.initialDelay, Pow2(a) as real, Pow2(b) as real);
    assert Exponential(c, a) <= Exponential(c, b);
  }

  /** Jitter is drawn afresh on every attempt; the delay still grows from
      one attempt to the next once the initial delay is at least 0.8 s,
      the widest gap two jitter draws can have. */
  lemma BackoffMonotoneAcrossDraws(c: Config, a: nat, j1: real, j2: real)
    requires c.initialDelay >= 0.8 && JitterInRange(j1) && JitterInRange(j2)
    ensures CalculateDelay(c, a, j1) <= CalculateDelay(c, a + 1, j2)
  {
    assert Pow2(a + 1) == 2 * Pow2(a);
    assert Exponential(c, a + 1) == Exponential(c, a) + Exponential(c, a);
    Pow2Monotone(0, a);
    MulMonotone(c.initialDelay, 1.0, Pow2(a) as real);
    assert Exponential(c, a) >= 0.8;
  }

  lemma MulMonotone(k: real, x: real, y: real)
    requires k >= 0.0 && x <= y
    ensures k * x <= k * y
  {
    assert k * y - k * x == k * (y - x);
  }

  /** With a small initial delay, two independent draws can make the second
      backoff shorter than the first. */
  lemma BackoffCanShrinkAcrossDraws()
    ensures CalculateDelay(Config(0.1, 300.0, 12.0, 5, 1800), 0, 0.9)
         > CalculateDelay(Config(0.1, 300.0, 12.0, 5, 1800), 1, 0.1)
  {
  }

  /** The limiter the delay test builds (initial 1 s, cap 10 s) always
      backs off between 1 and 10 seconds. */
  lemma BackoffWithinTestBounds(attempt: nat, jitter: real)
    requires JitterInRange(jitter)
    ensures var c := GetRateLimiter(None, Overrides(Some(1.0), Some(10.0), None, None, None)).config;
      1.0 <= CalculateDelay(c, attempt, jitter) <= 10.0
  {
    Pow2Monotone(0, attempt);
  }

  /** The rate-limit test on an error's message.  "429" and
      "RESOURCE_EXHAUSTED" are matched as written; the other markers
      after lower-casing the message. */
  predicate IsRateLimitError(msg: string)
  {
    || Contains(msg, "429")
    || Contains(msg, "RESOURCE_EXHAUSTED")
    || Contains(Lower(msg), "quota")
    || Contains(Lower(msg), "rate limit")
    || Contains(Lower(msg), "too many requests")
  }

  /** The rate-limit test as a statement about occurrences: some marker
      occurs at some position of the message (the last three in its
      lower-cased form). */
  lemma RateLimitErrorIff(msg: string)
    ensures IsRateLimitError(msg) <==>
      || Occurs(msg, "429")
      || Occurs(msg, "RESOURCE_EXHAUSTED")
      || Occurs(Lower(msg), "quota")
      || Occurs(Lower(msg), "rate limit")
      || Occurs(Lower(msg), "too many requests")
  {
    ContainsIff(msg, "429");
    ContainsIff(msg, "RESOURCE_EXHAUSTED");
    ContainsIff(Lower(msg), "quota");
    ContainsIff(Lower(msg), "rate limit");
    ContainsIff(Lower(msg), "too many requests");
  }

  /** A message stays rate-limit class when an exception wraps it in more text. */
  lemma RateLimitInContext(pre: string, msg: string, post: string)
    requires IsRateLimitError(msg)
    ensures IsRateLimitError(pre + msg + post)
  {
    LowerConcat(pre, msg);
    LowerConcat(pre + msg, post);
    assert Lower(pre + msg + post) == Lower(pre) + Lower(msg) + Lower(post);
    if Contains(msg, "429") {
      ContainsInContext(pre, msg, post, "429");
    } else if Contains(msg, "RESOURCE_EXHAUSTED") {
      ContainsInContext(pre, msg, post, "RESOURCE_EXHAUSTED");
    } else if Contains(Lower(msg), "quota") {
      ContainsInContext(Lower(pre), Lower(msg), Lower(post), "quota");
    } else if Contains(Lower(msg), "rate limit") {
      ContainsInContext(Lower(pre), Lower(msg), Lower(post), "rate limit");
    } else {
      ContainsInContext(Lower(pre), Lower(msg), Lower(post), "too many requests");
    }
  }

  /** `lit` cannot occur in a text that lacks one of its characters. */
  lemma AbsentChar(t: string, lit: string, j: nat)
    requires j < |lit| && lit[j] !in t
    ensures !Contains(t, lit)
  {
    forall i: nat ensures !StartsAt(t, i, lit) {
      if i + |lit| <= |t| {
        assert t[i + j] in t;
        assert t[i..i + |lit|][j] == t[i + j];
      }
    }
    ContainsIff(t, lit);
  }

  /** The upper-case marker is case-sensitive: its lower-case spelling alone
      is not a rate-limit error, while "quota" is found in any case. */
  lemma LowerOfLowerCase(s: string)
    requires forall k :: 0 <= k < |s| ==> !('A' <= s[k] <= 'Z')
    ensures Lower(s) == s
  {
  }

  lemma LowerMarkerNotRateLimit()
    ensures !IsRateLimitError("resource_exhausted")
  {
    ExactMarkersAbsent();
    LowercaseMarkersAbsent();
    LowerMarkerIsLower();
  }

  lemma ExactMarkersAbsent()
    ensures !Contains("resource_exhausted", "429")
    ensures !Contains("resource_exhausted", "RESOURCE_EXHAUSTED")
  {
    AbsentChar("resource_exhausted", "429", 0);
    AbsentChar("resource_exhausted", "RESOURCE_EXHAUSTED", 0);
  }

  lemma LowercaseMarkersAbsent()
    ensures !Contains("resource_exhausted", "quota")
    ensures !Contains("resource_exhausted", "rate limit")
    ensures !Contains("resource_exhausted", "too many requests")
  {
    var t := "resource_exhausted";
    AbsentChar(t, "quota", 0);
    AbsentChar(t, "rate limit", 4);
    AbsentChar(t, "too many requests", 3);
  }

  lemma LowerMarkerIsLower()
    ensures Lower("resource_exhausted") == "resource_exhausted"
  {
    LowerOfLowerCase("resource_exhausted");
  }

  lemma UpperQuotaIsRateLimit()
    ensures IsRateLimitError("QUOTA exceeded")
  {
    var lu := Lower("QUOTA exceeded");
    assert lu[..5] == "quota";
    assert StartsAt(lu, 0, "quota");
    ContainsIff(lu, "quota");
  }

  /** Digits the delay patterns can capture, as a number. */
  function CapturedNumber(t: string, j: nat): (v: Option<nat>)
  {
    var d := DigitRun(t, j);
    if d > 0 && j <= |t| then Some(DigitsValue(t[j..j + d])) else None
  }

  /** `marker` occurs at i, ignoring ASCII case. */
  predicate StartsAtFolded(t: string, i: nat, marker: string)
  {
    i + |marker| <= |t| && Lower(t[i..i + |marker|]) == marker
  }

  /** The patterns tried on a rate-limit message, in the order they are tried. */
  datatype DelayPattern =
    | QuotedRetryDelay   // "retryDelay":\s*"(\d+)s"
    | BareRetryDelay     // "retryDelay":\s*(\d+)
    | RetryAfterField    // retryAfter:\s*(\d+)
    | RetryAfterHeader   // Retry-After:\s*(\d+)
    | SecondsPhrase      // (\d+)\s*seconds?

  const PatternOrder: seq<DelayPattern> :=
    [QuotedRetryDelay, BareRetryDelay, RetryAfterField, RetryAfterHeader, SecondsPhrase]

  /** The number a pattern captures when it matches at position i
      (case-insensitively, as `re.IGNORECASE` does).  Each `\s*` and `\d+`
      takes its longest run: a shorter one would leave a space or a digit
      where the next item of the pattern needs something else. */
  function DelayMatchAt(p: DelayPattern, t: string, i: nat): Option<nat>
  {
    match p
    case QuotedRetryDelay => LabelledAt(t, i, "\"retrydelay\":", true)
    case BareRetryDelay => LabelledAt(t, i, "\"retrydelay\":", false)
    case RetryAfterField => LabelledAt(t, i, "retryafter:", false)
    case RetryAfterHeader => LabelledAt(t, i, "retry-after:", false)
    case SecondsPhrase =>
      var d := DigitRun(t, i);
      var j := i + d + SpaceRun(t, i + d);
      if d > 0 && StartsAtFolded(t, j, "second") then CapturedNumber(t, i) else None
  }

  function LabelledAt(t: string, i: nat, marker: string, quoted: bool): Option<nat>
  {
    if !StartsAtFolded(t, i, marker) then None
    else
      var j := i + |marker| + SpaceRun(t, i + |marker|);
      if !quoted then CapturedNumber(t, j)
      else if !StartsAt(t, j, "\"") then None
      else
        var d := DigitRun(t, j + 1);
        if d > 0 && StartsAtFolded(t, j + 1 + d, "s\"") then CapturedNumber(t, j + 1) else None
  }

  /** `re.search` of one pattern: the capture of its leftmost match. */
  function SearchDelay(p: DelayPattern, t: string): (r: Option<nat>)
    ensures r.Some? ==> exists i: nat :: i <= |t| && DelayMatchAt(p, t, i) == r
    ensures r.None? <==> forall i: nat :: i <= |t| ==> DelayMatchAt(p, t, i).None?
  {
    var q := (i: nat) => DelayMatchAt(p, t, i).Some?;
    var f := FirstFrom(0, |t| + 1, q);
    if f.Some? then
      assert q(f.value);
      DelayMatchAt(p, t, f.value)
    else
      assert forall i: nat | i <= |t| :: DelayMatchAt(p, t, i).None? by {
        forall i: nat | i <= |t| ensures DelayMatchAt(p, t, i).None? { assert !q(i); }
      }
      None
  }

  /** The server-suggested delay: the first pattern, in `PatternOrder`, that
      matches anywhere in the message decides; the seconds phrase is the
      last resort. */
  function ExtractRetryDelay(msg: string): (r: Option<nat>)
    ensures r.None? <==> forall k :: 0 <= k < |PatternOrder| ==> SearchDelay(PatternOrder[k], msg).None?
    ensures r.Some? ==> exists k :: (0 <= k < |PatternOrder| && SearchDelay(PatternOrder[k], msg) == r
      && forall j :: 0 <= j < k ==> SearchDelay(PatternOrder[j], msg).None?)
  {
    var search := (p: DelayPattern) => SearchDelay(p, msg);
    FirstPattern(PatternOrder, search)
  }

  /** The result of the first pattern in ps whose search succeeds. */
  function FirstPattern(ps: seq<DelayPattern>, search: DelayPattern -> Option<nat>): (r: Option<nat>)
    ensures r.None? <==> forall k :: 0 <= k < |ps| ==> search(ps[k]).None?
    ensures r.Some? ==> exists k :: (0 <= k < |ps| && search(ps[k]) == r
      && forall j :: 0 <= j < k ==> search(ps[j]).None?)
  {
    if |ps| == 0 then None
    else match search(ps[0])
      case Some(v) => Some(v)
      case None =>
        var r := FirstPattern(ps[1..], search);
        assert r.Some? ==> exists k :: (0 <= k < |ps| && search(ps[k]) == r
          && forall j :: 0 <= j < k ==> search(ps[j]).None?) by {
          if r.Some? {
            var k :| 0 <= k < |ps| - 1 && search(ps[1..][k]) == r
              && forall j :: 0 <= j < k ==> search(ps[1..][j]).None?;
            assert search(ps[k + 1]) == r;
            assert forall j :: 0 <= j < k + 1 ==> search(ps[j]).None? by {
              forall j | 0 <= j < k + 1 ensures search(ps[j]).None? {
                if j > 0 { assert ps[j] == ps[1..][j - 1]; }
              }
            }
          }
        }
        r
  }

  /** The search of a pattern finds its leftmost match. */
  lemma SearchFindsFirst(p: DelayPattern, t: string, i: nat)
    requires i <= |t| && DelayMatchAt(p, t, i).Some?
    requires forall j: nat :: j < i ==> DelayMatchAt(p, t, j).None?
    ensures SearchDelay(p, t) == DelayMatchAt(p, t, i)
  {
    var q := (i: nat) => DelayMatchAt(p, t, i).Some?;
    FirstFromIs(0, |t| + 1, q, i);
  }

  const QuotedThirty: string := "\"retryDelay\": \"30s\""

  /** A quoted JSON `retryDelay` anywhere in the message decides, whatever
      else the message says. */
  lemma QuotedRetryDelayDecides(msg: string)
    requires SearchDelay(QuotedRetryDelay, msg).Some?
    ensures ExtractRetryDelay(msg) == SearchDelay(QuotedRetryDelay, msg)
  {
    assert PatternOrder[0] == QuotedRetryDelay;
  }

  /** A quoted JSON `retryDelay` is read as its number of seconds. */
  lemma QuotedRetryDelayExtracted()
    ensures ExtractRetryDelay(QuotedThirty) == Some(30)
  {
    assert SearchDelay(QuotedRetryDelay, QuotedThirty) == Some(30) by {
      QuotedMatch30("", "");
      assert "" + QuotedThirty + "" == QuotedThirty;
      var q := (i: nat) => DelayMatchAt(QuotedRetryDelay, QuotedThirty, i).Some?;
      assert q(0);
    }
    QuotedRetryDelayDecides(QuotedThirty);
  }

  /** The JSON field wins over a "45 seconds" phrase, even one that comes first. */
  lemma JsonRetryDelayBeatsSecondsPhrase()
    ensures ExtractRetryDelay("wait 45 seconds {" + QuotedThirty + "}") == Some(30)
  {
    var pre := "wait 45 seconds {";
    var t := pre + QuotedThirty + "}";
    assert SearchDelay(QuotedRetryDelay, t) == Some(30) by {
      FirstQuotedThirty(pre, "}");
    }
    QuotedRetryDelayDecides(t);
  }

  /** The quoted field is found after any text free of double quotes. */
  lemma FirstQuotedThirty(pre: string, post: string)
    requires forall k :: 0 <= k < |pre| ==> pre[k] != '"'
    ensures SearchDelay(QuotedRetryDelay, pre + QuotedThirty + post) == Some(30)
  {
    var t := pre + QuotedThirty + post;
    QuotedMatch30(pre, post);
    forall i: nat | i < |pre| ensures DelayMatchAt(QuotedRetryDelay, t, i).None? {
      QuotedMatchNeedsQuote(t, i);
      assert t[i] == pre[i];
    }
    SearchFindsFirst(QuotedRetryDelay, t, |pre|);
  }

  /** `"retryDelay": "30s"` in any surrounding text. */
  lemma QuotedMatch30(pre: string, post: string)
    ensures DelayMatchAt(QuotedRetryDelay, pre + QuotedThirty + post, |pre|) == Some(30)
  {
    var t := pre + QuotedThirty + post;
    assert t[|pre|..|pre| + 19] == QuotedThirty;
    QuotedAt30(t, |pre|);
  }

  /** The field matches wherever its 19 characters occur. */
  lemma QuotedAt30(t: string, i: nat)
    requires i + 19 <= |t| && t[i..i + 19] == QuotedThirty
    ensures DelayMatchAt(QuotedRetryDelay, t, i) == Some(30)
  {
    forall k | 0 <= k < 19 ensures t[i + k] == QuotedThirty[k] {
      assert t[i..i + 19][k] == t[i + k];
    }
    assert StartsAtFolded(t, i, "\"retrydelay\":") by {
      assert t[i..i + 13] == QuotedThirty[..13];
      assert Lower(QuotedThirty[..13]) == "\"retrydelay\":";
    }
    assert SpaceRun(t, i + 13) == 1 by {
      assert t[i + 13] == ' ' && t[i + 14] == '"';
      assert SpaceRun(t, i + 14) == 0;
    }
    assert StartsAt(t, i + 14, "\"") by {
      assert t[i + 14..i + 15] == "\"";
    }
    assert DigitRun(t, i + 15) == 2 by {
      assert t[i + 15] == '3' && t[i + 16] == '0' && t[i + 17] == 's';
      assert DigitRun(t, i + 17) == 0;
    }
    assert StartsAtFolded(t, i + 17, "s\"") by {
      assert t[i + 17..i + 19] == QuotedThirty[17..19];
      assert Lower(QuotedThirty[17..19]) == "s\"";
    }
    assert CapturedNumber(t, i + 15) == Some(30) by {
      assert t[i + 15..i + 17] == "30";
      assert DigitsValue("30") == 30;
    }
  }

  lemma QuotedMatchNeedsQuote(t: string, i: nat)
    ensures DelayMatchAt(QuotedRetryDelay, t, i).Some? ==> i < |t| && t[i] == '"'
  {
    if DelayMatchAt(QuotedRetryDelay, t, i).Some? {
      assert Lower(t[i..i + 13])[0] == '"';
    }
  }

  /** Every pattern captures digits: a message without any yields no suggestion. */
  lemma {:induction false} NoDigitsNoSuggestion(msg: string)
    requires forall k :: 0 <= k < |msg| ==> !IsDigit(msg[k])
    ensures ExtractRetryDelay(msg) == None
  {
    forall p: DelayPattern, i: nat | i <= |msg|
      ensures DelayMatchAt(p, msg, i).None?
    {
      NoDigitsNoMatch(p, msg, i);
    }
  }

  lemma NoDigitsNoMatch(p: DelayPattern, msg: string, i: nat)
    requires forall k :: 0 <= k < |msg| ==> !IsDigit(msg[k])
    ensures DelayMatchAt(p, msg, i).None?
  {
    forall j: nat ensures CapturedNumber(msg, j).None? {
      assert DigitRun(msg, j) == 0;
    }
  }

  /** A message with no number yields no suggestion. */
  lemma QuotaMessageHasNoSuggestion()
    ensures ExtractRetryDelay("Quota exceeded for this project") == None
  {
    NoDigitsNoSuggestion("Quota exceeded for this project");
  }

  /** What `_handle_rate_limit_error` waits: the suggestion when it is
      non-zero and longer than the base delay, the base delay otherwise.
      A suggestion of 0 is falsy and also falls back to the base delay. */
  function HandleRateLimitError(c: Config, msg: string): (d: real)
    ensures d >= c.baseDelay
    ensures ExtractRetryDelay(msg).None? ==> d == c.baseDelay
    ensures ExtractRetryDelay(msg).Some? && ExtractRetryDelay(msg).value as real <= c.baseDelay ==> d == c.baseDelay
    ensures (ExtractRetryDelay(msg).Some? && ExtractRetryDelay(msg).value as real > c.baseDelay
      && ExtractRetryDelay(msg).value != 0) ==> d == ExtractRetryDelay(msg).value as real
  {
    match ExtractRetryDelay(msg)
    case Some(v) => if v != 0 then MaxReal(v as real, c.baseDelay) else c.baseDelay
    case None => c.baseDelay
  }

  /** Result of `_enforce_request_delay`: the updated limiter and the sleep it took. */
  datatype Paced = Paced(limiter: Limiter, wait: real)

  /** Minimum spacing between requests.  The clock reads `now` on entry and
      advances exactly by the sleep. */
  function EnforceRequestDelay(lim: Limiter, now: real): (p: Paced)
    ensures p.wait >= 0.0
    ensures p.wait > 0.0 <==> now - lim.lastRequestTime < lim.config.baseDelay
    ensures p.limiter.lastRequestTime == now + p.wait
    ensures p.limiter.lastRequestTime == MaxReal(now, lim.lastRequestTime + lim.config.baseDelay)
    ensures p.limiter.requestCount == lim.requestCount + 1
    ensures p.limiter.config == lim.config
  {
    var elapsed := now - lim.lastRequestTime;
    var wait := if elapsed < lim.config.baseDelay then lim.config.baseDelay - elapsed else 0.0;
    Paced(Limiter(lim.config, lim.requestCount + 1, now + wait), wait)
  }

  /** What `get_stats` reports. */
  datatype Stats = Stats(requestCount: nat, lastRequestTime: real, configured: Config)

  function GetStats(lim: Limiter): (r: Stats)
    ensures r.requestCount == lim.requestCount && r.lastRequestTime == lim.lastRequestTime
    ensures r.configured == lim.config
  {
    Stats(lim.requestCount, lim.lastRequestTime, lim.config)
  }

  /** The statistics report the limiter's whole state: two limiters with
      the same statistics are the same limiter. */
  lemma StatsReportAll(a: Limiter, b: Limiter)
    ensures GetStats(a) == GetStats(b) <==> a == b
  {
  }

  /** `reset_stats`: zeroes both counters and keeps the configuration. */
  function ResetStats(lim: Limiter): (r: Limiter)
    ensures GetStats(r).requestCount == 0 && GetStats(r).lastRequestTime == 0.0
    ensures GetStats(r).configured == GetStats(lim).configured
  {
    lim.(requestCount := 0, lastRequestTime := 0.0)
  }

  /** Keyword arguments given to `get_rate_limiter`; `None` means not passed. */
  datatype Overrides = Overrides(
    initialDelay: Option<real>,
    maxDelay: Option<real>,
    baseDelay: Option<real>,
    maxRetries: Option<int>,
    totalTimeout: Option<int>)

  const NoOverrides: Overrides := Overrides(None, None, None, None, None)

  function OrElse<T>(o: Option<T>, d: T): T
  {
    if o.Some? then o.value else d
  }

  /** `get_rate_limiter`: `current` is the process-wide instance; the result
      also becomes the new process-wide instance. */
  function GetRateLimiter(current: Option<Limiter>, o: Overrides): (r: Limiter)
    ensures current.Some? && o == NoOverrides ==> r == current.value
    ensures current.None? || o != NoOverrides ==>
      && r.requestCount == 0 && r.lastRequestTime == 0.0
      && r.config.initialDelay == OrElse(o.initialDelay, DefaultConfig.initialDelay)
      && r.config.maxDelay == OrElse(o.maxDelay, DefaultConfig.maxDelay)
      && r.config.baseDelay == OrElse(o.baseDelay, DefaultConfig.baseDelay)
      && r.config.maxRetries == OrElse(o.maxRetries, DefaultConfig.maxRetries)
      && r.config.totalTimeout == OrElse(o.totalTimeout, DefaultConfig.totalTimeout)
  {
    if current.Some? && o == NoOverrides then current.value
    else
      NewLimiter(Config(
        OrElse(o.initialDelay, DefaultConfig.initialDelay),
        OrElse(o.maxDelay, DefaultConfig.maxDelay),
        OrElse(o.baseDelay, DefaultConfig.baseDelay),
        OrElse(o.maxRetries, DefaultConfig.maxRetries),
        OrElse(o.totalTimeout, DefaultConfig.totalTimeout)))
  }

  /** The limiter `rate_limited_request` uses: it always passes `base_delay`,
      so it always gets a fresh instance with zeroed counters, whatever the
      process-wide instance was. */
  function RateLimitedLimiter(current: Option<Limiter>, delayBetweenRequests: real): (r: Limiter)
    ensures r == NewLimiter(DefaultConfig.(baseDelay := delayBetweenRequests))
  {
    GetRateLimiter(current, NoOverrides.(baseDelay := Some(delayBetweenRequests)))
  }

  /** The configuration test: every override is reported back by `get_stats`. */
  lemma ConfiguredOverridesReported(current: Option<Limiter>)
    ensures GetStats(GetRateLimiter(current, Overrides(Some(0.5), Some(30.0), Some(2.0), Some(3), Some(600)))).configured
         == Config(0.5, 30.0, 2.0, 3, 600)
  {
  }
}

=== FILE: retry_loop.dfy ===
/** The attempt loop of `GeminiRateLimiter.generate_content`.  The model
    client is an oracle: `calls[i]` is what the i-th call produces and how
    long it takes; `jitters[i]` is the jitter drawn if attempt i backs off. */
module RetryLoop {
  import opened Base
  import opened Text
  import opened RateLimiter

  /** What one call of the model produced. */
  datatype Reply =
    | NoResponse                     // a falsy response object
    | Response(text: Option<string>) // None: the response has no `text` attribute
    | Raised(message: string)        // the call raised; `message` is its text

  datatype Call = Call(reply: Reply, duration: real)

  const EmptyResponseMessage: string := "Empty or invalid response from Gemini API"
  const ExhaustedMessage: string := "Maximum retry attempts exceeded"

  /** A response counts only when it has non-empty text. */
  predicate Succeeded(r: Reply)
  {
    r.Response? && r.text.Some? && r.text.value != ""
  }

  /** Text of the exception a failed attempt ends with. */
  function FailureText(r: Reply): string
  {
    if r.Raised? then r.message else EmptyResponseMessage
  }

  /** One pass through the loop: the pacing sleep before the call (none on
      attempt 0), when the call started, its reply, and the sleep after a
      failure (if any). */
  datatype AttemptLog = AttemptLog(paceWait: Option<real>, startedAt: real, reply: Reply, backoff: Option<real>)

  /** `max_attempts or max_retries`: None and 0 are both falsy. */
  function EffectiveAttempts(c: Config, maxAttempts: Option<int>): (m: int)
    ensures maxAttempts.Some? && maxAttempts.value != 0 ==> m == maxAttempts.value
    ensures maxAttempts.None? || maxAttempts.value == 0 ==> m == c.maxRetries
  {
    if maxAttempts.None? || maxAttempts.value == 0 then c.maxRetries else maxAttempts.value
  }

  /** The sleep after failed attempt `attempt` of `m`. */
  function BackoffAfter(c: Config, attempt: nat, m: int, msg: string, jitter: real): (b: Option<real>)
    requires JitterInRange(jitter)
    ensures IsRateLimitError(msg) ==> b.Some? && b.value >= c.baseDelay
    ensures !IsRateLimitError(msg) ==> (b.Some? <==> attempt < m)
    ensures !IsRateLimitError(msg) && b.Some? ==> b.value <= c.maxDelay
  {
    if IsRateLimitError(msg) then Some(HandleRateLimitError(c, msg))
    else if attempt < m then Some(CalculateDelay(c, attempt, jitter))
    else None
  }

  function OrZero(o: Option<real>): real
  {
    if o.Some? then o.value else 0.0
  }

  /** Total time slept over a run of attempts. */
  function TotalSleep(log: seq<AttemptLog>): real
  {
    if |log| == 0 then 0.0
    else TotalSleep(log[..|log| - 1]) + OrZero(log[|log| - 1].paceWait) + OrZero(log[|log| - 1].backoff)
  }

  /** Total time spent inside the calls themselves. */
  function TotalDuration(calls: seq<Call>): real
  {
    if |calls| == 0 then 0.0 else TotalDuration(calls[..|calls| - 1]) + calls[|calls| - 1].duration
  }

  /** The rules logged attempt i follows.  `c` is the configuration, `m`
      the effective attempt bound, `jitters[i]` the jitter attempt i draws
      if it backs off, `last0` the limiter's last request time when the
      loop began. */
  ghost predicate AttemptFollowsPolicy(c: Config, m: int, calls: seq<Call>, jitters: seq<real>, last0: real,
                                       log: seq<AttemptLog>, i: nat)
    requires i < |log| <= |calls| && |log| <= |jitters| && JitterInRange(jitters[i])
  {
    var e := log[i];
    && e.reply == calls[i].reply
    // Pacing happens before every attempt except the first.
    && (e.paceWait.None? <==> i == 0)
    && (e.paceWait.Some? ==> e.paceWait.value >= 0.0)
    // A paced attempt starts once the previous call returned and the sleep
    // after it ended, or `base_delay` after the last request (the limiter's,
    // for attempt 1), whichever is later; the pacing sleep fills the gap.
    && (i >= 1 ==>
          var prevEnd := log[i - 1].startedAt + calls[i - 1].duration + OrZero(log[i - 1].backoff);
          var lastRequest := if i == 1 then last0 else log[i - 1].startedAt;
          && e.startedAt == MaxReal(prevEnd, lastRequest + c.baseDelay)
          && e.paceWait == Some(e.startedAt - prevEnd))
    // Hence paced attempts start at least `base_delay` after the previous
    // request, and attempts never overlap.
    && (i == 1 ==> e.startedAt >= last0 + c.baseDelay)
    && (i >= 2 ==> e.startedAt >= log[i - 1].startedAt + c.baseDelay)
    && (i >= 1 ==> e.startedAt >= log[i - 1].startedAt + calls[i - 1].duration + OrZero(log[i - 1].backoff))
    // A success sleeps no more; a failure sleeps exactly the backoff for its
    // message, attempt number and jitter.
    && (Succeeded(e.reply) ==> e.backoff.None?)
    && (!Succeeded(e.reply) ==> e.backoff == BackoffAfter(c, i, m, FailureText(e.reply), jitters[i]))
    // So a rate-limit failure always waits at least `base_delay`, even after the last attempt,
    && (!Succeeded(e.reply) && IsRateLimitError(FailureText(e.reply)) ==>
          e.backoff.Some? && e.backoff.value >= c.baseDelay)
    // and any other failure backs off, at most `max_delay`, only when another attempt follows.
    && (!Succeeded(e.reply) && !IsRateLimitError(FailureText(e.reply)) ==>
          (e.backoff.Some? <==> i < m) && (e.backoff.Some? ==> e.backoff.value <= c.maxDelay))
  }

  ghost predicate FollowsPolicy(c: Config, m: int, calls: seq<Call>, jitters: seq<real>, last0: real, log: seq<AttemptLog>)
    requires |log| <= |calls| && |log| <= |jitters|
    requires forall i :: 0 <= i < |jitters| ==> JitterInRange(jitters[i])
  {
    forall i :: 0 <= i < |log| ==> AttemptFollowsPolicy(c, m, calls, jitters, last0, log, i)
  }

  lemma PolicyExtends(c: Config, m: int, calls: seq<Call>, jitters: seq<real>, last0: real, log: seq<AttemptLog>, e: AttemptLog)
    requires |log| < |calls| && |log| < |jitters|
    requires forall i :: 0 <= i < |jitters| ==> JitterInRange(jitters[i])
    requires FollowsPolicy(c, m, calls, jitters, last0, log)
    requires AttemptFollowsPolicy(c, m, calls, jitters, last0, log + [e], |log|)
    ensures FollowsPolicy(c, m, calls, jitters, last0, log + [e])
  {
    forall i | 0 <= i < |log| ensures AttemptFollowsPolicy(c, m, calls, jitters, last0, log + [e], i) {
      assert AttemptFollowsPolicy(c, m, calls, jitters, last0, log, i);
      assert (log + [e])[i] == log[i];
      if i >= 1 { assert (log + [e])[i - 1] == log[i - 1]; }
    }
  }

  /** Every prefix of a log that follows the policy follows it too. */
  lemma PolicyPrefix(c: Config, m: int, calls: seq<Call>, jitters: seq<real>, last0: real, log: seq<AttemptLog>, n: nat)
    requires n <= |log| <= |calls| && |log| <= |jitters|
    requires forall i :: 0 <= i < |jitters| ==> JitterInRange(jitters[i])
    requires FollowsPolicy(c, m, calls, jitters, last0, log)
    ensures FollowsPolicy(c, m, calls, jitters, last0, log[..n])
  {
    forall i | 0 <= i < n ensures AttemptFollowsPolicy(c, m, calls, jitters, last0, log[..n], i) {
      assert AttemptFollowsPolicy(c, m, calls, jitters, last0, log, i);
      assert log[..n][i] == log[i];
      if i >= 1 { assert log[..n][i - 1] == log[i - 1]; }
    }
  }

  /** One attempt of the loop. */
  datatype Step = Step(entry: AttemptLog, limiter: Limiter, clock: real, done: Option<Result<string>>)

  function Attempt(lim: Limiter, now: real, m: int, attempt: nat, call: Call, jitter: real): (s: Step)
    requires JitterInRange(jitter)
    ensures s.entry.reply == call.reply
    ensures s.entry.paceWait.None? <==> attempt == 0
    ensures s.entry.paceWait.Some? ==> s.entry.paceWait.value >= 0.0
    ensures attempt == 0 ==> s.entry.startedAt == now && s.limiter == lim
    ensures attempt > 0 ==>
      && s.entry.startedAt == MaxReal(now, lim.lastRequestTime + lim.config.baseDelay)
      && s.limiter.lastRequestTime == s.entry.startedAt
      && s.limiter.requestCount == lim.requestCount + 1
    ensures s.limiter.config == lim.config
    ensures s.clock == now + OrZero(s.entry.paceWait) + call.duration + OrZero(s.entry.backoff)
    ensures s.entry.startedAt >= now && s.clock == s.entry.startedAt + call.duration + OrZero(s.entry.backoff)
    ensures Succeeded(call.reply) ==> s.entry.backoff.None? && s.done == Some(Ok(call.reply.text.value))
    ensures !Succeeded(call.reply) ==>
      && s.entry.backoff == BackoffAfter(lim.config, attempt, m, FailureText(call.reply), jitter)
      && (s.done.Some? <==> attempt == m)
      && (s.done.Some? ==> s.done.value == Err(FailureText(call.reply)))
  {
    var paced := if attempt > 0 then EnforceRequestDelay(lim, now) else Paced(lim, 0.0);
    var started := if attempt > 0 then paced.limiter.lastRequestTime else now;
    var pace := if attempt > 0 then Some(paced.wait) else None;
    if Succeeded(call.reply) then
      Step(AttemptLog(pace, started, call.reply, None), paced.limiter, started + call.duration,
           Some(Ok(call.reply.text.value)))
    else
      var msg := FailureText(call.reply);
      var backoff := BackoffAfter(lim.config, attempt, m, msg, jitter);
      Step(AttemptLog(pace, started, call.reply, backoff), paced.limiter, started + call.duration + OrZero(backoff),
           if attempt == m then Some(Err(msg)) else None)
  }

  /** State of the attempt loop between iterations. */
  datatype LoopState = LoopState(
    attempt: nat,
    finished: bool,
    outcome: Result<string>,
    limiter: Limiter,
    clock: real,
    log: seq<AttemptLog>)

  /** What holds between iterations of the loop that started with limiter
      `lim` at time `now`, with effective bound m. */
  ghost predicate LoopInv(lim: Limiter, now: real, m: int, calls: seq<Call>, jitters: seq<real>, st: LoopState)
  {
    && 0 <= st.attempt <= m < |calls|
    && m < |jitters| && (forall i :: 0 <= i < |jitters| ==> JitterInRange(jitters[i]))
    && |st.log| == (if st.finished then st.attempt + 1 else st.attempt)
    && FollowsPolicy(lim.config, m, calls, jitters, lim.lastRequestTime, st.log)
    && OutcomeInv(m, calls, st)
    && AccountsInv(lim, now, calls, st)
  }

  /** The attempts made so far failed, except possibly the one that ended the loop. */
  ghost predicate OutcomeInv(m: int, calls: seq<Call>, st: LoopState)
    requires st.attempt < |calls|
  {
    && (forall i :: 0 <= i < st.attempt ==> !Succeeded(calls[i].reply))
    && (!st.finished ==> st.outcome == Err(ExhaustedMessage))
    && (st.finished && st.outcome.Ok? ==>
          Succeeded(calls[st.attempt].reply) && st.outcome.value == calls[st.attempt].reply.text.value)
    && (st.finished && st.outcome.Err? ==>
          st.attempt == m && !Succeeded(calls[st.attempt].reply)
          && st.outcome.message == FailureText(calls[st.attempt].reply))
  }

  /** The limiter's counters and the clock account for every attempt made. */
  ghost predicate AccountsInv(lim: Limiter, now: real, calls: seq<Call>, st: LoopState)
    requires |st.log| <= |calls|
  {
    && st.limiter.config == lim.config
    && (|st.log| >= 1 ==> st.limiter.requestCount == lim.requestCount + |st.log| - 1)
    && (|st.log| <= 1 ==> st.limiter.requestCount == lim.requestCount && st.limiter.lastRequestTime == lim.lastRequestTime)
    && (|st.log| >= 2 ==> st.limiter.lastRequestTime == st.log[|st.log| - 1].startedAt)
    && (|st.log| >= 1 ==> st.log[0].startedAt == now)
    && st.clock == now + TotalSleep(st.log) + TotalDuration(calls[..|st.log|])
    && (|st.log| >= 1 ==> st.clock == st.log[|st.log| - 1].startedAt + calls[|st.log| - 1].duration
                                        + OrZero(st.log[|st.log| - 1].backoff))
  }

  /** One iteration: make attempt `st.attempt` and record it. */
  function Next(m: int, calls: seq<Call>, jitters: seq<real>, st: LoopState): (r: LoopState)
    requires st.attempt < |calls| && st.attempt < |jitters| && JitterInRange(jitters[st.attempt])
  {
    Record(st, Attempt(st.limiter, st.clock, m, st.attempt, calls[st.attempt], jitters[st.attempt]))
  }

  /** Record the step just made: the loop ends when the step decided the outcome. */
  function Record(st: LoopState, s: Step): LoopState
  {
    if s.done.Some? then LoopState(st.attempt, true, s.done.value, s.limiter, s.clock, st.log + [s.entry])
    else LoopState(st.attempt + 1, false, st.outcome, s.limiter, s.clock, st.log + [s.entry])
  }

  lemma NextPreserves(lim: Limiter, now: real, m: int, calls: seq<Call>, jitters: seq<real>, st: LoopState)
    requires LoopInv(lim, now, m, calls, jitters, st) && !st.finished
    ensures LoopInv(lim, now, m, calls, jitters, Next(m, calls, jitters, st))
  {
    NextFollowsPolicy(lim, now, m, calls, jitters, st);
    NextKeepsOutcome(lim, now, m, calls, jitters, st);
    NextKeepsAccounts(lim, now, m, calls, jitters, st);
  }

  lemma NextFollowsPolicy(lim: Limiter, now: real, m: int, calls: seq<Call>, jitters: seq<real>, st: LoopState)
    requires 0 <= st.attempt <= m < |calls| && |st.log| == st.attempt && !st.finished
    requires m < |jitters| && forall i :: 0 <= i < |jitters| ==> JitterInRange(jitters[i])
    requires FollowsPolicy(lim.config, m, calls, jitters, lim.lastRequestTime, st.log)
    requires AccountsInv(lim, now, calls, st)
    ensures FollowsPolicy(lim.config, m, calls, jitters, lim.lastRequestTime, Next(m, calls, jitters, st).log)
  {
    var s := Attempt(st.limiter, st.clock, m, st.attempt, calls[st.attempt], jitters[st.attempt]);
    var log := st.log;
    assert AttemptFollowsPolicy(lim.config, m, calls, jitters, lim.lastRequestTime, log + [s.entry], |log|) by {
      if |log| >= 1 {
        assert (log + [s.entry])[|log| - 1] == log[|log| - 1];
      }
    }
    PolicyExtends(lim.config, m, calls, jitters, lim.lastRequestTime, log, s.entry);
  }

  lemma NextKeepsOutcome(lim: Limiter, now: real, m: int, calls: seq<Call>, jitters: seq<real>, st: LoopState)
    requires 0 <= st.attempt <= m < |calls| && OutcomeInv(m, calls, st) && !st.finished
    requires m < |jitters| && forall i :: 0 <= i < |jitters| ==> JitterInRange(jitters[i])
    ensures Next(m, calls, jitters, st).attempt < |calls|
    ensures OutcomeInv(m, calls, Next(m, calls, jitters, st))
  {
    var a := st.attempt;
    var s := Attempt(st.limiter, st.clock, m, a, calls[a], jitters[a]);
    RecordKeepsOutcome(m, calls, st, s);
  }

  /** OutcomeInv survives recording any step whose decision follows the
      reply of call `st.attempt` as Attempt's contract describes. */
  lemma RecordKeepsOutcome(m: int, calls: seq<Call>, st: LoopState, s: Step)
    requires 0 <= st.attempt <= m < |calls| && OutcomeInv(m, calls, st) && !st.finished
    requires Succeeded(calls[st.attempt].reply) ==> s.done == Some(Ok(calls[st.attempt].reply.text.value))
    requires !Succeeded(calls[st.attempt].reply) ==>
      && (s.done.Some? <==> st.attempt == m)
      && (s.done.Some? ==> s.done.value == Err(FailureText(calls[st.attempt].reply)))
    ensures Record(st, s).attempt < |calls|
    ensures OutcomeInv(m, calls, Record(st, s))
  {
    var a := st.attempt;
    if s.done.None? {
      assert forall i :: 0 <= i < a + 1 ==> !Succeeded(calls[i].reply);
    }
  }

  lemma NextKeepsAccounts(lim: Limiter, now: real, m: int, calls: seq<Call>, jitters: seq<real>, st: LoopState)
    requires 0 <= st.attempt <= m < |calls| && |st.log| == st.attempt && !st.finished
    requires m < |jitters| && forall i :: 0 <= i < |jitters| ==> JitterInRange(jitters[i])
    requires AccountsInv(lim, now, calls, st)
    ensures |Next(m, calls, jitters, st).log| <= |calls|
    ensures AccountsInv(lim, now, calls, Next(m, calls, jitters, st))
  {
    var a := st.attempt;
    var s := Attempt(st.limiter, st.clock, m, a, calls[a], jitters[a]);
    var r := Next(m, calls, jitters, st);
    assert r.log == st.log + [s.entry] && r.limiter == s.limiter && r.clock == s.clock;
    SleepAppend(st.log, s.entry);
    DurationAppend(calls, a);
    assert |r.log| >= 1 ==> r.log[0] == if a == 0 then s.entry else st.log[0];
  }

  lemma SleepAppend(log: seq<AttemptLog>, e: AttemptLog)
    ensures TotalSleep(log + [e]) == TotalSleep(log) + OrZero(e.paceWait) + OrZero(e.backoff)
  {
    assert (log + [e])[..|log|] == log;
  }

  lemma DurationAppend(calls: seq<Call>, n: nat)
    requires n < |calls|
    ensures TotalDuration(calls[..n + 1]) == TotalDuration(calls[..n]) + calls[n].duration
  {
    assert calls[..n + 1][..n] == calls[..n];
  }

  method GenerateContent(lim: Limiter, now: real, maxAttempts: Option<int>, calls: seq<Call>, jitters: seq<real>)
    returns (outcome: Result<string>, lim': Limiter, now': real, log: seq<AttemptLog>)
    requires ValidConfig(lim.config)
    requires EffectiveAttempts(lim.config, maxAttempts) < |calls|
    requires EffectiveAttempts(lim.config, maxAttempts) < |jitters|
    requires forall i :: 0 <= i < |jitters| ==> JitterInRange(jitters[i])
    // A negative bound skips the loop: no call, and the fall-through error.
    ensures EffectiveAttempts(lim.config, maxAttempts) < 0 ==>
      outcome == Err(ExhaustedMessage) && log == [] && lim' == lim && now' == now
    ensures EffectiveAttempts(lim.config, maxAttempts) >= 0 ==>
      1 <= |log| <= EffectiveAttempts(lim.config, maxAttempts) + 1
    ensures |log| <= |calls|
    ensures |log| <= |jitters|
    ensures FollowsPolicy(lim.config, EffectiveAttempts(lim.config, maxAttempts), calls, jitters, lim.lastRequestTime, log)
    // The loop stops at the first success.
    ensures forall i :: 0 <= i < |log| - 1 ==> !Succeeded(calls[i].reply)
    ensures outcome.Ok? <==> exists k :: 0 <= k <= EffectiveAttempts(lim.config, maxAttempts) && Succeeded(calls[k].reply)
    ensures outcome.Ok? ==>
      (|log| >= 1 && Succeeded(calls[|log| - 1].reply) && outcome.value == calls[|log| - 1].reply.text.value)
    // After the last attempt fails, its own exception propagates unchanged.
    ensures outcome.Err? && EffectiveAttempts(lim.config, maxAttempts) >= 0 ==>
      (|log| == EffectiveAttempts(lim.config, maxAttempts) + 1
       && outcome.message == FailureText(calls[|log| - 1].reply))
    ensures lim'.config == lim.config
    ensures |log| >= 1 ==> lim'.requestCount == lim.requestCount + |log| - 1
    ensures |log| >= 2 ==> lim'.lastRequestTime == log[|log| - 1].startedAt
    ensures |log| >= 1 ==> log[0].startedAt == now
    ensures now' == now + TotalSleep(log) + TotalDuration(calls[..|log|])
  {
    var m := EffectiveAttempts(lim.config, maxAttempts);
    if m < 0 {
      return Err(ExhaustedMessage), lim, now, [];
    }
    var st := LoopState(0, false, Err(ExhaustedMessage), lim, now, []);
    while !st.finished
      invariant LoopInv(lim, now, m, calls, jitters, st)
      decreases m + 1 - st.attempt, if st.finished then 0 else 1
    {
      NextPreserves(lim, now, m, calls, jitters, st);
      st := Next(m, calls, jitters, st);
    }
    outcome, lim', now', log := st.outcome, st.limiter, st.clock, st.log;
  }

  /** n·d, as repeated addition. */
  function Times(n: nat, d: real): real
  {
    if n == 0 then 0.0 else Times(n - 1, d) + d
  }

  lemma {:induction false} TimesIs(n: nat, d: real)
    ensures Times(n, d) == n as real * d
  {
    if n > 0 {
      TimesIs(n - 1, d);
      assert n as real * d == (n - 1) as real * d + d;
    }
  }

  /** A run whose every attempt sleeps at least `d` after the call sleeps
      at least `d` per attempt in all. */
  lemma {:induction false} SleepsAtLeast(log: seq<AttemptLog>, d: real)
    requires forall i :: 0 <= i < |log| ==> OrZero(log[i].backoff) >= d && OrZero(log[i].paceWait) >= 0.0
    ensures TotalSleep(log) >= Times(|log|, d)
  {
    if |log| > 0 {
      var n := |log| - 1;
      assert forall i :: 0 <= i < n ==> log[..n][i] == log[i];
      SleepsAtLeast(log[..n], d);
    }
  }

  /** Every attempt of a run that keeps hitting the rate limit sleeps at
      least `base_delay` afterwards, so the run sleeps at least
      `base_delay` times the number of attempts. */
  lemma RateLimitedRunSleeps(c: Config, m: int, calls: seq<Call>, jitters: seq<real>, last0: real, log: seq<AttemptLog>)
    requires |log| <= |calls| && |log| <= |jitters|
    requires forall i :: 0 <= i < |jitters| ==> JitterInRange(jitters[i])
    requires FollowsPolicy(c, m, calls, jitters, last0, log)
    requires forall i :: 0 <= i < |log| ==> calls[i].reply.Raised? && IsRateLimitError(calls[i].reply.message)
    ensures TotalSleep(log) >= Times(|log|, c.baseDelay)
  {
    RateLimitedAttemptsSleep(c, m, calls, jitters, last0, log);
    SleepsAtLeast(log, c.baseDelay);
  }

  lemma RateLimitedAttemptsSleep(c: Config, m: int, calls: seq<Call>, jitters: seq<real>, last0: real, log: seq<AttemptLog>)
    requires |log| <= |calls| && |log| <= |jitters|
    requires forall i :: 0 <= i < |jitters| ==> JitterInRange(jitters[i])
    requires FollowsPolicy(c, m, calls, jitters, last0, log)
    requires forall i :: 0 <= i < |log| ==> calls[i].reply.Raised? && IsRateLimitError(calls[i].reply.message)
    ensures forall i :: 0 <= i < |log| ==> OrZero(log[i].backoff) >= c.baseDelay && OrZero(log[i].paceWait) >= 0.0
  {
    forall i | 0 <= i < |log| ensures OrZero(log[i].backoff) >= c.baseDelay && OrZero(log[i].paceWait) >= 0.0 {
      assert AttemptFollowsPolicy(c, m, calls, jitters, last0, log, i);
    }
  }

  /** `rate_limited_request`: a fresh limiter (see `RateLimitedLimiter`)
      runs the loop, so pacing state from earlier requests is forgotten. */
  method RateLimitedRequest(current: Option<Limiter>, delayBetweenRequests: real, now: real,
                            maxAttempts: Option<int>, calls: seq<Call>, jitters: seq<real>)
    returns (outcome: Result<string>, global: Limiter, now': real, log: seq<AttemptLog>)
    requires delayBetweenRequests >= 0.0
    requires EffectiveAttempts(DefaultConfig, maxAttempts) < |calls|
    requires EffectiveAttempts(DefaultConfig, maxAttempts) < |jitters|
    requires forall i :: 0 <= i < |jitters| ==> JitterInRange(jitters[i])
    ensures global.config == DefaultConfig.(baseDelay := delayBetweenRequests)
    // The counters restart from zero whatever the previous global limiter had counted.
    ensures |log| >= 1 ==> global.requestCount == |log| - 1
    // The first attempt is never paced, and the second is paced only
    // against the zeroed last request time.
    ensures |log| >= 1 ==> log[0].paceWait.None? && log[0].startedAt == now
    ensures |log| >= 2 ==> log[1].startedAt >= delayBetweenRequests
    // One logged attempt per call made; the second attempt starts only
    // after the first call returned and its backoff sleep ended.
    ensures |log| <= |calls|
    ensures |log| >= 2 ==> log[1].startedAt >= log[0].startedAt + calls[0].duration + OrZero(log[0].backoff)
    ensures |log| >= 2 ==>
      log[1].startedAt == MaxReal(log[0].startedAt + calls[0].duration + OrZero(log[0].backoff), delayBetweenRequests)
    ensures outcome.Ok? <==>
      exists k :: 0 <= k <= EffectiveAttempts(DefaultConfig, maxAttempts) && Succeeded(calls[k].reply)
  {
    var newLimiter := RateLimitedLimiter(current, delayBetweenRequests);
    outcome, global, now', log := GenerateContent(newLimiter, now, maxAttempts, calls, jitters);
    if |log| >= 1 {
      assert AttemptFollowsPolicy(newLimiter.config, EffectiveAttempts(newLimiter.config, maxAttempts), calls, jitters, 0.0, log, 0);
    }
    if |log| >= 2 {
      assert AttemptFollowsPolicy(newLimiter.config, EffectiveAttempts(newLimiter.config, maxAttempts), calls, jitters, 0.0, log, 1);
    }
  }

  /** A request that hits the rate limit on every attempt, with
      `max_attempts=2`: three calls, the third call's exception propagates,
      and at least three `base_delay` sleeps were taken, the last one after
      the final failure. */
  method AlwaysRateLimited(lim: Limiter, now: real, calls: seq<Call>, jitters: seq<real>)
    returns (outcome: Result<string>, log: seq<AttemptLog>)
    requires ValidConfig(lim.config)
    requires |calls| == 3 && |jitters| == 3
    requires forall i :: 0 <= i < 3 ==> JitterInRange(jitters[i])
    requires forall i :: 0 <= i < 3 ==> calls[i].reply.Raised? && IsRateLimitError(calls[i].reply.message)
    ensures |log| == 3
    ensures outcome == Err(calls[2].reply.message)
    ensures TotalSleep(log) >= 3.0 * lim.config.baseDelay
    ensures log[2].backoff.Some?
  {
    var lim', now';
    outcome, lim', now', log := GenerateContent(lim, now, Some(2), calls, jitters);
    RateLimitedThree(lim.config, calls, jitters, lim.lastRequestTime, log);
  }

  /** Three rate-limited attempts sleep three times `base_delay`, and the
      last one sleeps too. */
  lemma RateLimitedThree(c: Config, calls: seq<Call>, jitters: seq<real>, last0: real, log: seq<AttemptLog>)
    requires |log| == |calls| == |jitters| == 3
    requires forall i :: 0 <= i < 3 ==> JitterInRange(jitters[i])
    requires FollowsPolicy(c, 2, calls, jitters, last0, log)
    requires forall i :: 0 <= i < 3 ==> calls[i].reply.Raised? && IsRateLimitError(calls[i].reply.message)
    ensures TotalSleep(log) >= 3.0 * c.baseDelay
    ensures log[2].backoff.Some?
  {
    RateLimitedRunSleeps(c, 2, calls, jitters, last0, log);
    TimesIs(3, c.baseDelay);
    assert AttemptFollowsPolicy(c, 2, calls, jitters, last0, log, 2);
  }
}

=== FILE: stages.dfy ===
/** A direct call to the text-generation model, as every stage executor of
    phases 3 and 4 makes it, and the rule each executor applies to the reply:
    empty text is a failure. */
module Stages {
  import opened Base

  /** What one call produced: the response text (possibly empty), or the
      exception the call raised, by its message. */
  datatype Reply = Text(text: string) | Raised(message: string)

  const EmptyResponseMessage: string := "Empty response from Gemini model"

  /** One executor: the text on success; the call's own exception, or the
      empty-response ValueError, re-raised otherwise. */
  function Execute(reply: Reply): (r: Result<string>)
    ensures r.Ok? <==> reply.Text? && reply.text != []
    ensures r.Ok? ==> r.value == reply.text && |r.value| > 0
    ensures r.Err? && reply.Text? ==> r.message == EmptyResponseMessage
    ensures r.Err? && reply.Raised? ==> r.message == reply.message
  {
    match reply
    case Raised(e) => Err(e)
    case Text(t) => if t == [] then Err(EmptyResponseMessage) else Ok(t)
  }

  /** An outcome as an optional record entry: the entry a caught failure leaves None. */
  function OkOrNone<T>(r: Result<T>): (o: Option<T>)
    ensures o.Some? <==> r.Ok?
    ensures o.Some? ==> o.value == r.value
  {
    match r
    case Ok(v) => Some(v)
    case Err(_) => None
  }
}

=== FILE: text.dfy ===
/** Character classes, searches and slicing with the semantics of the Python
    string and `re` operations the system uses.  Greedy quantifiers are
    modelled by `LastFrom` (try the longest candidate first), lazy ones by
    `FirstFrom` (try the shortest first), which is exactly the order in which
    a backtracking matcher explores them. */
module Text {
  import opened Base

  /** The least k in [lo, hi) satisfying p, if any. */
  function FirstFrom(lo: nat, hi: nat, p: nat -> bool): (r: Option<nat>)
    decreases hi - lo
    ensures r.Some? ==> lo <= r.value < hi && p(r.value)
    ensures r.Some? ==> forall k :: lo <= k < r.value ==> !p(k)
    ensures r.None? ==> forall k :: lo <= k < hi ==> !p(k)
  {
    if lo >= hi then None
    else if p(lo) then Some(lo)
    else FirstFrom(lo + 1, hi, p)
  }

  /** The positions in [lo, hi) satisfying keep, in increasing order. */
  function Kept(lo: nat, hi: nat, keep: nat -> bool): (ks: seq<nat>)
    decreases hi - lo
    ensures forall m :: 0 <= m < |ks| ==> lo <= ks[m] < hi && keep(ks[m])
    ensures forall m, n :: 0 <= m < n < |ks| ==> ks[m] < ks[n]
    ensures forall j :: lo <= j < hi && keep(j) ==> j in ks
  {
    if lo >= hi then [] else (if keep(lo) then [lo] else []) + Kept(lo + 1, hi, keep)
  }

  /** Kept depends on keep only through its values. */
  lemma {:induction false} KeptExt(lo: nat, hi: nat, keep: nat -> bool, keep': nat -> bool)
    requires forall j :: lo <= j < hi ==> keep(j) == keep'(j)
    decreases hi - lo
    ensures Kept(lo, hi, keep) == Kept(lo, hi, keep')
  {
    if lo < hi {
      KeptExt(lo + 1, hi, keep, keep');
    }
  }

  /** The values f gives on [lo, hi), in order, skipping None. */
  function Collect<U>(lo: nat, hi: nat, f: nat -> Option<U>): (r: seq<U>)
    decreases hi - lo
    ensures lo <= hi ==> |r| <= hi - lo
  {
    if lo >= hi then []
    else match f(lo)
      case None => Collect(lo + 1, hi, f)
      case Some(u) => [u] + Collect(lo + 1, hi, f)
  }

  /** The m-th value collected is f's value at the m-th position where f
      gives one. */
  lemma {:induction false} CollectKept<U>(lo: nat, hi: nat, f: nat -> Option<U>)
    decreases hi - lo
    ensures var r := Collect(lo, hi, f);
      var ks := Kept(lo, hi, (j: nat) => f(j).Some?);
      |r| == |ks| && forall m :: 0 <= m < |r| ==> f(ks[m]) == Some(r[m])
  {
    if lo < hi {
      CollectKept(lo + 1, hi, f);
      var keep := (j: nat) => f(j).Some?;
      var r := Collect(lo, hi, f);
      var rest := Collect(lo + 1, hi, f);
      var ks := Kept(lo, hi, keep);
      var ks' := Kept(lo + 1, hi, keep);
      if f(lo).Some? {
        assert r == [f(lo).value] + rest && ks == [lo] + ks';
        forall m | 0 < m < |r| ensures f(ks[m]) == Some(r[m]) {
          assert r[m] == rest[m - 1] && ks[m] == ks'[m - 1];
        }
      } else {
        assert r == rest && ks == ks';
      }
    }
  }

  /** Nothing is dropped exactly when f gives a value everywhere. */
  lemma {:induction false} CollectAll<U>(lo: nat, hi: nat, f: nat -> Option<U>)
    requires lo <= hi
    decreases hi - lo
    ensures |Collect(lo, hi, f)| == hi - lo <==> forall j :: lo <= j < hi ==> f(j).Some?
  {
    if lo < hi {
      CollectAll(lo + 1, hi, f);
    }
  }

  /** FirstFrom finds k exactly when k is the first position satisfying p. */
  lemma FirstFromIs(lo: nat, hi: nat, p: nat -> bool, k: nat)
    requires lo <= k < hi && p(k)
    requires forall j :: lo <= j < k ==> !p(j)
    ensures FirstFrom(lo, hi, p) == Some(k)
  {
  }

  /** The greatest k in [lo, hi) satisfying p, if any. */
  function LastFrom(lo: nat, hi: nat, p: nat -> bool): (r: Option<nat>)
    decreases hi - lo
    ensures r.Some? ==> lo <= r.value < hi && p(r.value)
    ensures r.Some? ==> forall k :: r.value < k < hi ==> !p(k)
    ensures r.None? ==> forall k :: lo <= k < hi ==> !p(k)
  {
    if lo >= hi then None
    else if p(hi - 1) then Some(hi - 1)
    else LastFrom(lo, hi - 1, p)
  }

  /** `lit` occurs in `t` at position `i`. */
  predicate StartsAt(t: string, i: nat, lit: string)
  {
    i + |lit| <= |t| && t[i..i + |lit|] == lit
  }

  /** An occurrence begins with the literal's first character. */
  lemma StartsAtFirst(t: string, i: nat, lit: string)
    requires |lit| > 0
    ensures StartsAt(t, i, lit) ==> t[i] == lit[0]
  {
    if StartsAt(t, i, lit) {
      assert t[i..i + |lit|][0] == t[i];
    }
  }

  /** Python's `lit in t`. */
  ghost predicate Occurs(t: string, lit: string)
  {
    exists i: nat :: StartsAt(t, i, lit)
  }

  /** Leftmost occurrence of `lit` at or after `from` (Python's `t.find(lit, from)`). */
  function Find(t: string, lit: string, from: nat): Option<nat>
  {
    FirstFrom(from, |t| + 1, (i: nat) => StartsAt(t, i, lit))
  }

  predicate Contains(t: string, lit: string)
  {
    Find(t, lit, 0).Some?
  }

  lemma ContainsIff(t: string, lit: string)
    ensures Contains(t, lit) <==> Occurs(t, lit)
  {
    var p := (i: nat) => StartsAt(t, i, lit);
    var r := FirstFrom(0, |t| + 1, p);
    if Occurs(t, lit) {
      var i: nat :| StartsAt(t, i, lit);
      assert i < |t| + 1 && p(i);
    }
    if r.Some? {
      assert p(r.value);
    }
  }

  /** An occurrence survives any text put before or after it. */
  lemma ContainsInContext(pre: string, t: string, post: string, lit: string)
    requires Contains(t, lit)
    ensures Contains(pre + t + post, lit)
  {
    ContainsIff(t, lit);
    var i: nat :| StartsAt(t, i, lit);
    var u := pre + t + post;
    assert u[|pre| + i..|pre| + i + |lit|] == t[i..i + |lit|];
    assert StartsAt(u, |pre| + i, lit);
    ContainsIff(u, lit);
  }

  predicate IsDigit(c: char) { '0' <= c <= '9' }

  predicate IsAsciiAlnum(c: char) { IsDigit(c) || 'a' <= c <= 'z' || 'A' <= c <= 'Z' }

  /** Python's whitespace (`str.isspace`, `\s` in a str pattern, what `strip()` removes). */
  predicate IsSpace(c: char)
  {
    var n := c as int;
    n == 0x20 || 0x09 <= n <= 0x0D || 0x1C <= n <= 0x1F || n == 0x85 || n == 0xA0
    || n == 0x1680 || 0x2000 <= n <= 0x200A || n == 0x2028 || n == 0x2029
    || n == 0x202F || n == 0x205F || n == 0x3000
  }

  function LowerChar(c: char): char
  {
    if 'A' <= c <= 'Z' then (c as int + 32) as char else c
  }

  /** ASCII case folding; used for `.lower()` and `re.IGNORECASE`. */
  function Lower(s: string): (r: string)
    ensures |r| == |s|
    ensures forall i :: 0 <= i < |s| ==> r[i] == LowerChar(s[i])
  {
    seq(|s|, i requires 0 <= i < |s| => LowerChar(s[i]))
  }

  lemma LowerConcat(a: string, b: string)
    ensures Lower(a + b) == Lower(a) + Lower(b)
  {
  }

  /** Length of the longest run of characters satisfying p that starts at i. */
  function Run(t: string, i: nat, p: char -> bool): (n: nat)
    decreases |t| - i
    ensures i <= |t| ==> i + n <= |t|
    ensures i > |t| ==> n == 0
    ensures forall k :: i <= k < i + n ==> p(t[k])
    ensures i + n < |t| ==> !p(t[i + n])
  {
    if i < |t| && p(t[i]) then 1 + Run(t, i + 1, p) else 0
  }

  /** A run is exactly as long as its characters satisfy p. */
  lemma RunIs(t: string, i: nat, n: nat, p: char -> bool)
    requires i + n <= |t|
    requires forall k :: i <= k < i + n ==> p(t[k])
    requires i + n < |t| ==> !p(t[i + n])
    ensures Run(t, i, p) == n
  {
  }

  /** A weaker class of characters runs at least as far. */
  lemma RunWeaker(t: string, i: nat, p: char -> bool, q: char -> bool)
    requires forall c :: p(c) ==> q(c)
    decreases |t| - i
    ensures Run(t, i, p) <= Run(t, i, q)
  {
    if i < |t| && p(t[i]) {
      RunWeaker(t, i + 1, p, q);
    }
  }

  function DigitRun(t: string, i: nat): nat { Run(t, i, IsDigit) }

  function SpaceRun(t: string, i: nat): nat { Run(t, i, IsSpace) }

  function DigitOf(c: char): nat
  {
    if IsDigit(c) then c as int - '0' as int else 0
  }

  /** Python's `int(s)` for a string of decimal digits. */
  function DigitsValue(s: string): nat
    decreases |s|
  {
    if |s| == 0 then 0 else DigitsValue(s[..|s| - 1]) * 10 + DigitOf(s[|s| - 1])
  }

  /** Index of the first newline at or after a, or |t| when there is none:
      a `.` without DOTALL cannot extend past it. */
  function LineEnd(t: string, a: nat): (e: nat)
    ensures a <= |t| ==> a <= e <= |t|
    ensures forall k :: a <= k < e && k < |t| ==> t[k] != '\n'
  {
    var p := (k: nat) => k < |t| && t[k] == '\n';
    match FirstFrom(a, |t|, p)
    case Some(k) =>
      forall j | a <= j < k ensures t[j] != '\n' { assert !p(j); }
      k
    case None =>
      forall j | a <= j < |t| ensures t[j] != '\n' { assert !p(j); }
      |t|
  }

  /** Python's `s[:n]` for a non-negative n. */
  function Prefix(s: string, n: nat): (r: string)
    ensures |r| == Min(n, |s|)
    ensures r <= s
  {
    s[..Min(n, |s|)]
  }

  /** Python's `xs[:n]` for any integer n (a negative n drops elements from the end). */
  function SlicePrefix<T>(xs: seq<T>, n: int): (r: seq<T>)
    ensures r <= xs
    ensures n >= 0 ==> |r| == Min(n, |xs|)
    ensures n < 0 ==> |r| == Max(|xs| + n, 0)
  {
    if n >= 0 then xs[..Min(n, |xs|)] else xs[..Max(|xs| + n, 0)]
  }

  /** Bounds [a, b) of `s.strip()`: the maximal whitespace prefix and suffix are removed. */
  function StripBounds(s: string): (r: (nat, nat))
    ensures r.0 <= r.1 <= |s|
    ensures forall k :: 0 <= k < r.0 ==> IsSpace(s[k])
    ensures forall k :: r.1 <= k < |s| ==> IsSpace(s[k])
    ensures r.0 < r.1 ==> !IsSpace(s[r.0]) && !IsSpace(s[r.1 - 1])
  {
    var a := SpaceRun(s, 0);
    (a, a + (|s| - a - TrailingSpaces(s[a..])))
  }

  function TrailingSpaces(s: string): (n: nat)
    decreases |s|
    ensures n <= |s|
    ensures forall k :: |s| - n <= k < |s| ==> IsSpace(s[k])
    ensures n < |s| ==> !IsSpace(s[|s| - n - 1])
  {
    if |s| > 0 && IsSpace(s[|s| - 1]) then 1 + TrailingSpaces(s[..|s| - 1]) else 0
  }

  function Strip(s: string): (r: string)
    ensures |r| <= |s|
    ensures r == s[StripBounds(s).0..StripBounds(s).1]
    ensures r == [] || (!IsSpace(r[0]) && !IsSpace(r[|r| - 1]))
  {
    s[StripBounds(s).0..StripBounds(s).1]
  }

  predicate IsStripped(s: string)
  {
    s == [] || (!IsSpace(s[0]) && !IsSpace(s[|s| - 1]))
  }

  /** Python's `re.finditer` for a pattern that never matches the empty
      string: `at(i)` is the match of the pattern anchored at i; the scan
      takes the leftmost match, then resumes where that match ended. */
  function FindAll<M>(t: string, pos: nat, at: nat -> Option<Hit<M>>): (r: seq<Span<M>>)
    requires forall i :: at(i).Some? ==> at(i).value.end > i
    decreases |t| + 1 - pos
    ensures forall k :: 0 <= k < |r| ==>
      pos <= r[k].start <= |t| && at(r[k].start) == Some(Hit(r[k].end, r[k].value))
    ensures forall k :: 0 <= k < |r| - 1 ==> r[k].end <= r[k + 1].start
  {
    if pos > |t| then []
    else match FirstFrom(pos, |t| + 1, (i: nat) => at(i).Some?)
      case None => []
      case Some(i) =>
        var h := at(i).value;
        [Span(i, h.end, h.value)] + FindAll(t, h.end, at)
  }

  /** The scan misses no match: every position where the pattern matches
      lies inside one of the reported matches. */
  lemma {:induction false} FindAllComplete<M>(t: string, pos: nat, at: nat -> Option<Hit<M>>, i: nat)
    requires forall j :: at(j).Some? ==> at(j).value.end > j
    requires pos <= i <= |t| && at(i).Some?
    ensures exists k :: 0 <= k < |FindAll(t, pos, at)| && FindAll(t, pos, at)[k].start <= i < FindAll(t, pos, at)[k].end
    decreases |t| + 1 - pos
  {
    var p := (j: nat) => at(j).Some?;
    assert p(i);
    var f := FirstFrom(pos, |t| + 1, p);
    assert f.Some?;
    var s := f.value;
    var h := at(s).value;
    var rest := FindAll(t, h.end, at);
    assert FindAll(t, pos, at) == [Span(s, h.end, h.value)] + rest;
    if i >= h.end {
      FindAllComplete(t, h.end, at, i);
      var k :| 0 <= k < |rest| && rest[k].start <= i < rest[k].end;
      assert FindAll(t, pos, at)[k + 1] == rest[k];
    } else {
      assert FindAll(t, pos, at)[0].start <= i;
    }
  }

  /** The anchored matcher `at` matches at `i`. */
  predicate MatchesAt<M>(at: nat -> Option<Hit<M>>, i: nat)
  {
    at(i).Some?
  }

  /** `r` is what a left-to-right `re.finditer` scan of `t` from `pos`
      reports for the anchored matcher `at`: each entry is the match at its
      start, entries come in order without overlapping, and every position
      from `pos` on where `at` matches lies inside some entry. */
  ghost predicate AllMatchesFrom<M>(t: string, pos: nat, at: nat -> Option<Hit<M>>, r: seq<Span<M>>)
  {
    && (forall k :: 0 <= k < |r| ==>
          pos <= r[k].start <= |t| && at(r[k].start) == Some(Hit(r[k].end, r[k].value)))
    && (forall k :: 0 <= k < |r| - 1 ==> r[k].end <= r[k + 1].start)
    && (forall i: nat :: pos <= i <= |t| && MatchesAt(at, i) ==>
          exists k :: 0 <= k < |r| && r[k].start <= i < r[k].end)
  }

  /** Every value of a span that is a match at its start is the value of
      a match at some position. */
  lemma AllMatchesValues<M>(t: string, pos: nat, at: nat -> Option<Hit<M>>, r: seq<Span<M>>)
    requires forall k :: 0 <= k < |r| ==> pos <= r[k].start <= |t| && at(r[k].start) == Some(Hit(r[k].end, r[k].value))
    ensures forall k :: 0 <= k < |r| ==> exists i: nat :: i <= |t| && at(i).Some? && at(i).value.value == r[k].value
  {
    forall k | 0 <= k < |r| ensures exists i: nat :: i <= |t| && at(i).Some? && at(i).value.value == r[k].value {
      var i: nat := r[k].start;
      assert i <= |t| && at(i) == Some(Hit(r[k].end, r[k].value));
      assert i <= |t| && at(i).Some? && at(i).value.value == r[k].value;
    }
    assert forall k :: 0 <= k < |r| ==> exists i: nat :: i <= |t| && at(i).Some? && at(i).value.value == r[k].value;
  }

  /** Non-empty spans that do not overlap their neighbours do not overlap
      any later one. */
  lemma {:induction false} SpansOrdered<M>(r: seq<Span<M>>)
    requires forall k :: 0 <= k < |r| ==> r[k].start < r[k].end
    requires forall k :: 0 <= k < |r| - 1 ==> r[k].end <= r[k + 1].start
    ensures forall k, l :: 0 <= k < l < |r| ==> r[k].end <= r[l].start
    decreases |r|
  {
    if |r| > 1 {
      var q := r[1..];
      SpansOrdered(q);
      forall k, l | 0 <= k < l < |r| ensures r[k].end <= r[l].start {
        if k == 0 {
          if l > 1 {
            assert q[0] == r[1] && q[l - 1] == r[l];
          }
        } else {
          assert q[k - 1] == r[k] && q[l - 1] == r[l];
        }
      }
    }
  }

  /** The scan reports all matches. */
  lemma {:induction false} FindAllMatches<M>(t: string, pos: nat, at: nat -> Option<Hit<M>>)
    requires forall i :: at(i).Some? ==> at(i).value.end > i
    ensures AllMatchesFrom(t, pos, at, FindAll(t, pos, at))
  {
    var r := FindAll(t, pos, at);
    forall i: nat | pos <= i <= |t| && MatchesAt(at, i)
      ensures exists k :: 0 <= k < |r| && r[k].start <= i < r[k].end
    {
      FindAllComplete(t, pos, at, i);
    }
  }

  /** With no match from `pos` on, nothing is reported. */
  lemma {:induction false} AllMatchesNone<M>(t: string, pos: nat, at: nat -> Option<Hit<M>>, r: seq<Span<M>>)
    requires AllMatchesFrom(t, pos, at, r)
    requires forall i: nat :: pos <= i <= |t| ==> !MatchesAt(at, i)
    ensures r == []
  {
    if r != [] {
      AllMatchesHead(t, pos, at, r);
      assert false;
    }
  }

  /** The first report is a match from `pos` on. */
  lemma AllMatchesHead<M>(t: string, pos: nat, at: nat -> Option<Hit<M>>, r: seq<Span<M>>)
    requires AllMatchesFrom(t, pos, at, r)
    requires |r| > 0
    ensures pos <= r[0].start <= |t| && MatchesAt(at, r[0].start)
  {
  }

  /** The first report is the leftmost match. */
  lemma {:induction false} AllMatchesFirst<M>(t: string, pos: nat, at: nat -> Option<Hit<M>>, r: seq<Span<M>>, s: nat)
    requires forall i :: at(i).Some? ==> at(i).value.end > i
    requires AllMatchesFrom(t, pos, at, r)
    requires pos <= s <= |t| && at(s).Some?
    requires forall j: nat :: pos <= j < s ==> !MatchesAt(at, j)
    ensures |r| > 0 && r[0] == Span(s, at(s).value.end, at(s).value.value)
  {
    assert MatchesAt(at, s);
    var k :| 0 <= k < |r| && r[k].start <= s < r[k].end;
    assert forall l :: 0 <= l < |r| ==> r[l].start < r[l].end;
    SpansOrdered(r);
    assert r[0].start <= r[k].start;
    assert MatchesAt(at, r[0].start);
  }

  /** After the first report, the rest describe the scan from its end. */
  lemma {:induction false} AllMatchesRest<M>(t: string, pos: nat, at: nat -> Option<Hit<M>>, r: seq<Span<M>>)
    requires forall i :: at(i).Some? ==> at(i).value.end > i
    requires AllMatchesFrom(t, pos, at, r)
    requires |r| > 0
    ensures AllMatchesFrom(t, r[0].end, at, r[1..])
  {
    var q := r[1..];
    assert forall l :: 0 <= l < |r| ==> r[l].start < r[l].end;
    SpansOrdered(r);
    forall l | 0 <= l < |q|
      ensures r[0].end <= q[l].start <= |t| && at(q[l].start) == Some(Hit(q[l].end, q[l].value))
    {
      assert q[l] == r[l + 1];
    }
    forall i: nat | r[0].end <= i <= |t| && MatchesAt(at, i)
      ensures exists l :: 0 <= l < |q| && q[l].start <= i < q[l].end
    {
      var l :| 0 <= l < |r| && r[l].start <= i < r[l].end;
      assert l != 0;
      assert q[l - 1] == r[l];
    }
  }

  /** Only the scan reports all matches: the description above pins the
      result down. */
  lemma {:induction false} AllMatchesAreFindAll<M>(t: string, pos: nat, at: nat -> Option<Hit<M>>, r: seq<Span<M>>)
    requires forall i :: at(i).Some? ==> at(i).value.end > i
    requires AllMatchesFrom(t, pos, at, r)
    ensures r == FindAll(t, pos, at)
    decreases |t| + 1 - pos
  {
    var p := (i: nat) => at(i).Some?;
    if pos > |t| {
      AllMatchesNone(t, pos, at, r);
    } else {
      match FirstFrom(pos, |t| + 1, p)
      case None =>
        forall i: nat | pos <= i <= |t| ensures !MatchesAt(at, i) {
          assert !p(i);
        }
        AllMatchesNone(t, pos, at, r);
      case Some(s) =>
        var h := at(s).value;
        assert FindAll(t, pos, at) == [Span(s, h.end, h.value)] + FindAll(t, h.end, at);
        forall j: nat | pos <= j < s ensures !MatchesAt(at, j) {
          assert !p(j);
        }
        AllMatchesFirst(t, pos, at, r, s);
        AllMatchesRest(t, pos, at, r);
        AllMatchesAreFindAll(t, h.end, at, r[1..]);
        assert r == [r[0]] + r[1..];
    }
  }

  /** The `finditer` description holds of exactly one sequence: the scan. */
  lemma AllMatchesIff<M>(t: string, pos: nat, at: nat -> Option<Hit<M>>, r: seq<Span<M>>)
    requires forall i :: at(i).Some? ==> at(i).value.end > i
    ensures AllMatchesFrom(t, pos, at, r) <==> r == FindAll(t, pos, at)
  {
    FindAllMatches(t, pos, at);
    if AllMatchesFrom(t, pos, at, r) {
      AllMatchesAreFindAll(t, pos, at, r);
    }
  }
}

=== FILE: top_questions.dfy ===
/** `extract_top_questions_from_phase4`: picking the claim statements of
    the top-ranked questions out of the ranking and question files.  Each
    regular expression is a scanner anchored at a position, following the
    order in which a backtracking matcher tries its alternatives: a greedy
    `\s*` gives characters back from the longest run, a lazy `.*?` takes
    the shortest extension for which the rest matches. */
module TopQuestions {
  import opened Base
  import opened Text

  /** `(\d+)\.\s+\*\*(H\d+):` anchored at i; the value is group 2, the question id. */
  function RankEntryAt(t: string, i: nat): (r: Option<Hit<string>>)
    ensures r.Some? ==> i < r.value.end <= |t|
    ensures r.Some? ==> (|r.value.value| >= 2 && r.value.value[0] == 'H'
      && forall k :: 1 <= k < |r.value.value| ==> IsDigit(r.value.value[k]))
  {
    var d := DigitRun(t, i);
    if d == 0 || i + d >= |t| || t[i + d] != '.' then None
    else
      var s := SpaceRun(t, i + d + 1);
      var h := i + d + 1 + s;
      if s == 0 || !StartsAt(t, h, "**H") then None
      else
        var n := DigitRun(t, h + 3);
        if n == 0 || h + 3 + n >= |t| || t[h + 3 + n] != ':' then None
        else
          assert t[h + 2] == "**H"[2];
          Some(Hit(h + 4 + n, t[h + 2..h + 3 + n]))
  }

  /** A ranking line "<n>. **H<m>:" starting at i yields the id "H<m>". */
  lemma RankEntryIs(t: string, i: nat, d: nat, n: nat)
    requires 0 < d && 0 < n && i + d + 5 + n < |t|
    requires forall k :: i <= k < i + d ==> IsDigit(t[k])
    requires t[i + d] == '.' && t[i + d + 1] == ' ' && t[i + d + 2] == '*' && t[i + d + 3] == '*' && t[i + d + 4] == 'H'
    requires forall k :: i + d + 5 <= k < i + d + 5 + n ==> IsDigit(t[k])
    requires t[i + d + 5 + n] == ':'
    ensures RankEntryAt(t, i) == Some(Hit(i + d + 6 + n, t[i + d + 4..i + d + 5 + n]))
  {
    assert DigitRun(t, i) == d by { RunIs(t, i, d, IsDigit); }
    assert SpaceRun(t, i + d + 1) == 1 by { RunIs(t, i + d + 1, 1, IsSpace); }
    assert DigitRun(t, i + d + 5) == n by { RunIs(t, i + d + 5, n, IsDigit); }
    assert StartsAt(t, i + d + 2, "**H");
    RankEntryOfRuns(t, i, d, n);
  }

  /** RankEntryIs with the character runs already measured. */
  lemma RankEntryOfRuns(t: string, i: nat, d: nat, n: nat)
    requires 0 < d && 0 < n && i + d + 5 + n < |t|
    requires DigitRun(t, i) == d && t[i + d] == '.' && SpaceRun(t, i + d + 1) == 1
    requires StartsAt(t, i + d + 2, "**H") && DigitRun(t, i + d + 5) == n && t[i + d + 5 + n] == ':'
    ensures RankEntryAt(t, i) == Some(Hit(i + d + 6 + n, t[i + d + 4..i + d + 5 + n]))
  {
  }

  /** The matches `re.findall(rank_pattern, content)` walks over: every
      ranking entry, leftmost first, none overlapping. */
  function RankEntries(t: string): (r: seq<Span<string>>)
    ensures AllMatchesFrom(t, 0, (i: nat) => RankEntryAt(t, i), r)
  {
    FindAllMatches(t, 0, (i: nat) => RankEntryAt(t, i));
    FindAll(t, 0, (i: nat) => RankEntryAt(t, i))
  }

  /** `[m[1] for m in re.findall(rank_pattern, content)]`. */
  function RankedIds(t: string): (r: seq<string>)
    ensures forall k :: 0 <= k < |r| ==> |r[k]| >= 2 && r[k][0] == 'H'
  {
    var spans := FindAll(t, 0, (i: nat) => RankEntryAt(t, i));
    forall k | 0 <= k < |spans| ensures |spans[k].value| >= 2 && spans[k].value[0] == 'H' {
      assert RankEntryAt(t, spans[k].start) == Some(Hit(spans[k].end, spans[k].value));
    }
    seq(|spans|, k requires 0 <= k < |spans| => spans[k].value)
  }

  /** The ids are the captured groups of the ranking entries, one per
      entry, in order. */
  lemma RankedIdsAreEntries(t: string)
    ensures |RankedIds(t)| == |RankEntries(t)|
    ensures forall k :: 0 <= k < |RankedIds(t)| ==> RankedIds(t)[k] == RankEntries(t)[k].value
  {
  }

  /** The lookahead ending a claim: a newline, "**" and the next field name
      (or, for the per-question pattern, the next question's `H<n>:`). */
  predicate ClaimEndsAt(t: string, e: nat, orNextQuestion: bool)
  {
    StartsAt(t, e, "\n**")
    && (StartsAt(t, e + 3, "Historical Source") || StartsAt(t, e + 3, "Variables")
        || StartsAt(t, e + 3, "Mechanism")
        || (orNextQuestion && e + 3 < |t| && t[e + 3] == 'H'
            && DigitRun(t, e + 4) > 0 && e + 4 + DigitRun(t, e + 4) < |t| && t[e + 4 + DigitRun(t, e + 4)] == ':'))
  }

  /** The lazy group starting at s ends at the first lookahead position. */
  function ClaimEnd(t: string, s: nat, orNextQuestion: bool): (r: Option<nat>)
    ensures r.Some? ==> s <= r.value <= |t| && ClaimEndsAt(t, r.value, orNextQuestion)
  {
    FirstFrom(s, |t| + 1, (e: nat) => ClaimEndsAt(t, e, orNextQuestion))
  }

  lemma ClaimEndIs(t: string, s: nat, e: nat, orNextQuestion: bool)
    requires s <= e <= |t| && ClaimEndsAt(t, e, orNextQuestion)
    requires forall j :: s <= j < e ==> !ClaimEndsAt(t, j, orNextQuestion)
    ensures ClaimEnd(t, s, orNextQuestion) == Some(e)
  {
    FirstFromIs(s, |t| + 1, (e: nat) => ClaimEndsAt(t, e, orNextQuestion), e);
  }

  /** The whitespace consumed by `\s*` can end at the newline at p. */
  predicate NewlineBeforeClaim(t: string, p: nat, orNextQuestion: bool)
  {
    p < |t| && t[p] == '\n' && ClaimEnd(t, p + 1, orNextQuestion).Some?
  }

  /** `\s*\n(.*?)(?=<end>)` anchored at c: the greedy whitespace run gives
      back characters until a newline follows it; the lazy group then ends
      at the first lookahead position.  The value is the group. */
  function ClaimTailAt(t: string, c: nat, orNextQuestion: bool): (r: Option<Hit<string>>)
    ensures r.Some? ==> c < r.value.end <= |t|
  {
    match TailNewline(t, c, orNextQuestion)
    case None => None
    case Some(p) =>
      var e := ClaimEnd(t, p + 1, orNextQuestion).value;
      Some(Hit(e, t[p + 1..e]))
  }

  /** The newline the greedy `\s*` at c stops before: the last one in the
      whitespace run after which the lazy group can end. */
  function TailNewline(t: string, c: nat, orNextQuestion: bool): (r: Option<nat>)
    ensures r.Some? ==> c <= r.value < c + SpaceRun(t, c) && NewlineBeforeClaim(t, r.value, orNextQuestion)
  {
    LastFrom(c, c + SpaceRun(t, c), (p: nat) => NewlineBeforeClaim(t, p, orNextQuestion))
  }

  /** A lone newline that a claim follows is where the whitespace stops. */
  lemma TailNewlineAt(t: string, c: nat, orNextQuestion: bool)
    requires SpaceRun(t, c) == 1 && NewlineBeforeClaim(t, c, orNextQuestion)
    ensures TailNewline(t, c, orNextQuestion) == Some(c)
  {
  }

  /** The field names the claim lookahead accepts. */
  predicate IsFieldName(f: string)
  {
    f == "Historical Source" || f == "Variables" || f == "Mechanism"
  }

  /** The tail capture in index terms: after a single newline the group
      runs to the first position where the lookahead holds. */
  lemma ClaimTailIs(t: string, c: nat, e: nat, orNextQuestion: bool)
    requires c + 1 < |t| && t[c] == '\n' && !IsSpace(t[c + 1])
    requires c + 1 <= e && ClaimEndsAt(t, e, orNextQuestion)
    requires forall j :: c + 1 <= j < e ==> !ClaimEndsAt(t, j, orNextQuestion)
    ensures ClaimTailAt(t, c, orNextQuestion) == Some(Hit(e, t[c + 1..e]))
  {
    assert SpaceRun(t, c) == 1 by { RunIs(t, c, 1, IsSpace); }
    assert ClaimEnd(t, c + 1, orNextQuestion) == Some(e) by { ClaimEndIs(t, c + 1, e, orNextQuestion); }
    ClaimTailOfEnd(t, c, e, orNextQuestion);
  }

  /** ClaimTailIs with the whitespace run and the lazy end already known. */
  lemma ClaimTailOfEnd(t: string, c: nat, e: nat, orNextQuestion: bool)
    requires c < |t| && t[c] == '\n' && SpaceRun(t, c) == 1
    requires ClaimEnd(t, c + 1, orNextQuestion) == Some(e)
    ensures ClaimTailAt(t, c, orNextQuestion) == Some(Hit(e, t[c + 1..e]))
  {
    assert NewlineBeforeClaim(t, c, orNextQuestion);
    TailNewlineAt(t, c, orNextQuestion);
    assert TailNewline(t, c, orNextQuestion) == Some(c);
  }

  /** A one-line claim after its newline, followed by the next field,
      is captured exactly. */
  lemma ClaimTailOfLine(pre: string, claim: string, field: string, post: string, orNextQuestion: bool)
    requires |claim| > 0 && !IsSpace(claim[0])
    requires forall k :: 0 <= k < |claim| ==> claim[k] != '\n'
    requires IsFieldName(field)
    ensures var t := pre + "\n" + claim + "\n**" + field + post;
      ClaimTailAt(t, |pre|, orNextQuestion) == Some(Hit(|pre| + 1 + |claim|, claim))
  {
    var t := pre + "\n" + claim + "\n**" + field + post;
    var c := |pre|;
    var e := c + 1 + |claim|;
    LineLayout(pre, claim, field, post);
    FieldEndsClaim(t, e, field, orNextQuestion);
    LineHasNoEnd(t, c + 1, e, orNextQuestion);
    ClaimTailIs(t, c, e, orNextQuestion);
  }

  /** Where the pieces of a claim line sit in the concatenated text. */
  lemma LineLayout(pre: string, claim: string, field: string, post: string)
    requires |claim| > 0 && !IsSpace(claim[0])
    requires forall k :: 0 <= k < |claim| ==> claim[k] != '\n'
    ensures var t := pre + "\n" + claim + "\n**" + field + post;
      var c := |pre|; var e := c + 1 + |claim|;
      && c + 1 < |t| && t[c] == '\n' && !IsSpace(t[c + 1]) && t[c + 1..e] == claim
      && (forall j :: c + 1 <= j < e ==> t[j] != '\n')
      && StartsAt(t, e, "\n**") && StartsAt(t, e + 3, field)
  {
    var t := pre + "\n" + claim + "\n**" + field + post;
    var c := |pre|;
    var e := c + 1 + |claim|;
    assert t[c + 1] == claim[0];
    assert t[c + 1..e] == claim;
    forall j | c + 1 <= j < e ensures t[j] != '\n' {
      assert t[j] == claim[j - c - 1];
    }
    assert t[e..e + 3] == "\n**";
    assert t[e + 3..e + 3 + |field|] == field;
  }

  lemma FieldEndsClaim(t: string, e: nat, field: string, orNextQuestion: bool)
    requires IsFieldName(field) && StartsAt(t, e, "\n**") && StartsAt(t, e + 3, field)
    ensures ClaimEndsAt(t, e, orNextQuestion)
  {
  }

  /** No lookahead position inside a stretch free of newlines. */
  lemma LineHasNoEnd(t: string, a: nat, e: nat, orNextQuestion: bool)
    requires a <= e <= |t|
    requires forall j :: a <= j < e ==> t[j] != '\n'
    ensures forall j :: a <= j < e ==> !ClaimEndsAt(t, j, orNextQuestion)
  {
    forall j | a <= j < e ensures !StartsAt(t, j, "\n**") {
      StartsAtFirst(t, j, "\n**");
    }
  }

  const ClaimHeading: string := "**Claim Statement:**"

  /** `\*\*Claim Statement:\*\*\s*\n(.*?)(?=\n\*\*(?:Historical Source|Variables|Mechanism))` at i. */
  function ClaimAt(t: string, i: nat): (r: Option<Hit<string>>)
    ensures r.Some? ==> i < r.value.end <= |t|
  {
    if StartsAt(t, i, ClaimHeading) then ClaimTailAt(t, i + |ClaimHeading|, false) else None
  }

  /** The matches `re.findall(claim_pattern, content, re.DOTALL)` walks
      over: every claim block, leftmost first, none overlapping. */
  function ClaimMatches(t: string): (r: seq<Span<string>>)
    ensures AllMatchesFrom(t, 0, (i: nat) => ClaimAt(t, i), r)
  {
    FindAllMatches(t, 0, (i: nat) => ClaimAt(t, i));
    FindAll(t, 0, (i: nat) => ClaimAt(t, i))
  }

  /** Groups of `re.findall(claim_pattern, content, re.DOTALL)`. */
  function AllClaims(t: string): (r: seq<string>)
    ensures forall k :: 0 <= k < |r| ==> exists i: nat :: i <= |t| && ClaimAt(t, i).Some? && ClaimAt(t, i).value.value == r[k]
  {
    var spans := FindAll(t, 0, (i: nat) => ClaimAt(t, i));
    AllMatchesValues(t, 0, (i: nat) => ClaimAt(t, i), spans);
    seq(|spans|, k requires 0 <= k < |spans| => spans[k].value)
  }

  /** The claims are the captured groups of the claim blocks, one per
      block, in order. */
  lemma AllClaimsAreMatches(t: string)
    ensures |AllClaims(t)| == |ClaimMatches(t)|
    ensures forall k :: 0 <= k < |AllClaims(t)| ==> AllClaims(t)[k] == ClaimMatches(t)[k].value
  {
  }

  /** `\*\*<id>:.*?\*\*.*?\*\*Claim Statement:\*\*\s*\n(.*?)(?=…|H\d+:)` at i.
      The first lazy gap ends at the first "**" after the id; every claim
      heading after that is then tried in order, and the first whose tail
      matches decides. */
  function ClaimOfAt(t: string, id: string, i: nat): (r: Option<string>)
  {
    var head := "**" + id + ":";
    if !StartsAt(t, i, head) then None
    else match Find(t, "**", i + |head|)
      case None => None
      case Some(a) =>
        var b := FirstFrom(a + 2, |t| + 1,
          (b: nat) => StartsAt(t, b, ClaimHeading) && ClaimTailAt(t, b + |ClaimHeading|, true).Some?);
        match b
        case None => None
        case Some(b) => Some(ClaimTailAt(t, b + |ClaimHeading|, true).value.value)
  }

  /** `re.search(per_question_pattern, content, re.DOTALL)`: the leftmost start that matches. */
  function ClaimOf(t: string, id: string): (r: Option<string>)
    ensures r.Some? ==> exists i: nat ::
      i <= |t| && ClaimOfAt(t, id, i) == r && forall j: nat :: j < i ==> ClaimOfAt(t, id, j).None?
    ensures r.None? ==> forall i: nat :: i <= |t| ==> ClaimOfAt(t, id, i).None?
  {
    var p := (i: nat) => ClaimOfAt(t, id, i).Some?;
    match FirstFrom(0, |t| + 1, p)
    case None =>
      forall i: nat | i <= |t| ensures ClaimOfAt(t, id, i).None? { assert !p(i); }
      None
    case Some(i) =>
      assert p(i);
      forall j: nat | j < i ensures ClaimOfAt(t, id, j).None? { assert !p(j); }
      ClaimOfAt(t, id, i)
  }

  /** The stripped claims of the given ids, in id order, skipping ids whose
      claim is not found; `claim` is the per-id search.  The m-th claim
      belongs to the m-th id whose claim is found. */
  function ClaimsOf(ids: seq<string>, claim: string -> Option<string>): (r: seq<string>)
    ensures |r| <= |ids|
    ensures forall m :: 0 <= m < |r| ==> IsStripped(r[m])
    ensures var ks := Kept(0, |ids|, (j: nat) => j < |ids| && claim(ids[j]).Some?);
      |r| == |ks| && forall m :: 0 <= m < |r| ==> claim(ids[ks[m]]).Some? && r[m] == Strip(claim(ids[ks[m]]).value)
  {
    var f := (j: nat) => if j < |ids| then claim(ids[j]) else None;
    CollectKept(0, |ids|, f);
    KeptExt(0, |ids|, (j: nat) => f(j).Some?, (j: nat) => j < |ids| && claim(ids[j]).Some?);
    StripAll(Collect(0, |ids|, f))
  }

  /** The ranking path: the claims of the first top-n ranked ids, in rank
      order, skipping ids whose claim is not found. */
  function RankedClaims(ranking: string, questions: string, topN: int): (r: seq<string>)
    ensures topN >= 0 ==> |r| <= topN
    ensures |r| <= |RankedIds(ranking)|
    ensures forall k :: 0 <= k < |r| ==> IsStripped(r[k])
    ensures var ids := SlicePrefix(RankedIds(ranking), topN);
      var claim := (id: string) => ClaimOf(questions, id);
      var ks := Kept(0, |ids|, (j: nat) => j < |ids| && claim(ids[j]).Some?);
      |r| == |ks| && forall m :: 0 <= m < |r| ==> r[m] == Strip(ClaimOf(questions, ids[ks[m]]).value)
  {
    var claim := (id: string) => ClaimOf(questions, id);
    ClaimsOf(SlicePrefix(RankedIds(ranking), topN), claim)
  }

  /** `[m.strip() for m in xs]`. */
  function StripAll(xs: seq<string>): (r: seq<string>)
    ensures |r| == |xs|
    ensures forall k :: 0 <= k < |r| ==> r[k] == Strip(xs[k]) && IsStripped(r[k])
  {
    seq(|xs|, k requires 0 <= k < |xs| => Strip(xs[k]))
  }

  /** The fallback: the first top-n claim statements of the question file, stripped. */
  function FallbackClaims(questions: string, topN: int): (r: seq<string>)
    ensures topN >= 0 ==> |r| == Min(topN, |AllClaims(questions)|)
    ensures |r| <= |AllClaims(questions)|
    ensures forall k :: 0 <= k < |r| ==> IsStripped(r[k]) && r[k] == Strip(AllClaims(questions)[k])
  {
    var all := AllClaims(questions);
    var firsts := SlicePrefix(all, topN);
    assert forall k :: 0 <= k < |firsts| ==> firsts[k] == all[k];
    StripAll(firsts)
  }

  /** `extract_top_questions_from_phase4`.  A file argument is None when no
      path is given or the file does not exist, `Err` when reading it
      raises.  An exception ends the extraction with the list collected so
      far, which is always still empty at the two reads. */
  function ExtractTopQuestions(rankingFile: Option<Result<string>>, questionsFile: Option<Result<string>>, topN: int): (r: seq<string>)
    ensures topN >= 0 ==> |r| <= topN
    ensures forall k :: 0 <= k < |r| ==> IsStripped(r[k])
    // a failing read of the ranking file is swallowed and skips the fallback too
    ensures rankingFile.Some? && rankingFile.value.Err? ==> r == []
    // without a readable question file there is nothing to extract
    ensures questionsFile.None? || questionsFile.value.Err? ==> r == []
    // the ranking path decides whenever it yields a claim
    ensures (rankingFile.Some? && rankingFile.value.Ok? && questionsFile.Some? && questionsFile.value.Ok?
             && RankedClaims(rankingFile.value.value, questionsFile.value.value, topN) != []) ==>
      r == RankedClaims(rankingFile.value.value, questionsFile.value.value, topN)
    // and the fallback is used exactly when it yields none
    ensures (questionsFile.Some? && questionsFile.value.Ok?
             && (rankingFile.None? || (rankingFile.value.Ok?
                 && RankedClaims(rankingFile.value.value, questionsFile.value.value, topN) == []))) ==>
      r == FallbackClaims(questionsFile.value.value, topN)
  {
    match questionsFile
    case None => []
    case Some(Err(_)) => []
    case Some(Ok(q)) =>
      match rankingFile
      case Some(Err(_)) => []
      case None => FallbackClaims(q, topN)
      case Some(Ok(ranking)) =>
        var ranked := RankedClaims(ranking, q, topN);
        if ranked != [] then ranked else FallbackClaims(q, topN)
  }
}

=== FILE: webapp.dfy ===
/** The web front end: the synchronous pipeline runner with the status
    record it keeps per upload, and the upload, status and results routes.
    Unlike the command-line pipeline, the runner has one handler around
    everything, so any failure (including a missing Phase 2 summary or
    Phase 3 synthesis) ends the run with an error status. */
module WebApp {
  import opened Base
  import opened Text
  import opened Stages
  import opened Names
  import Phase2
  import Phase3
  import Phase4
  import Pipeline
  import Hypotheses

  /** The external outcomes one run meets, as in the command-line pipeline. */
  datatype Services = Services(
    ocr: Result<string>,
    phase1: Result<string>,
    in2: Pipeline.Phase2Inputs,
    model3: Phase3.Request -> Reply,
    model4: Phase4.Request -> Reply)

  /** The value of `processing_status[unique_id]`. */
  datatype Status =
    | Processing(phase: string, progress: nat, filename: string)
    | Complete(filename: string, uniqueId: string, database: string,
               hypotheses: seq<Hypotheses.Hypothesis>, hypothesesCount: nat)
    | Failed(error: string)

  /** The progress points written while processing, in order. */
  const Checkpoints: seq<(string, nat)> :=
    [("ocr", 10), ("ocr", 15), ("phase1", 30), ("phase2", 50), ("phase3", 70), ("phase4", 85)]

  const CompletePhase: string := "complete"
  const CompleteProgress: nat := 100

  /** What Python raises when a None entry is subscripted. */
  const NotSubscriptableMessage: string := "'NoneType' object is not subscriptable"

  /** How far a run got: the number of checkpoints written, and either the
      parsed hypotheses or the message of the exception that ended it. */
  datatype Outcome = Outcome(reached: nat, result: Result<seq<Hypotheses.Hypothesis>>)

  /** The body of the runner's `try`.  The Phase 2 summary goes to Phase 3
      unchecked, the Phase 3 synthesis and the Phase 4 questions are
      subscripted unchecked, and the question file Phase 4 wrote holds the
      question text. */
  function RunStages(svc: Services): (o: Outcome)
    ensures 2 <= o.reached <= |Checkpoints|
    ensures o.result.Ok? ==> o.reached == |Checkpoints|
    ensures o.reached == 2 <==> svc.ocr.Err?
    ensures svc.ocr.Err? ==> o.result == Err(svc.ocr.message)
    ensures o.reached == 3 <==> svc.ocr.Ok? && svc.phase1.Err?
    ensures o.reached == 3 ==> o.result == Err(svc.phase1.message)
    // a builder that fails to connect or to close both end the run in Phase 2
    ensures o.reached == 4 <==> svc.ocr.Ok? && svc.phase1.Ok? && (svc.in2.connect.Err? || svc.in2.close.Err?)
    ensures o.reached == 5 ==> o.result == Err(Phase3.NoneLengthMessage)
    ensures o.reached == |Checkpoints| && o.result.Err? ==> o.result.message == NotSubscriptableMessage
  {
    match svc.ocr
    case Err(e) => Outcome(2, Err(e))
    case Ok(text) =>
      match svc.phase1
      case Err(e) => Outcome(3, Err(e))
      case Ok(brainstorm) =>
        match svc.in2.connect
        case Err(e) => Outcome(4, Err(e))
        case Ok(_) =>
          var in2 := svc.in2;
          var p2 := Phase2.RunPhase2(brainstorm, text, in2.kgReply, in2.nodeMatches, in2.relMatches, in2.storage, in2.summaryReply);
          match in2.close
          case Err(e) => Outcome(4, Err(e))
          case Ok(_) =>
            match Phase3.RunPhase3(p2.summary, svc.model3)
            case Err(e) => Outcome(5, Err(e))
            case Ok(run3) =>
              match run3.results.synthesis
              case None => Outcome(6, Err(NotSubscriptableMessage))
              case Some(syn) =>
                var p4 := Phase4.RunPhase4(syn.synthesis, Pipeline.NumQuestions, Pipeline.RankTopN, true, svc.model4).results;
                match p4.questions
                case None => Outcome(6, Err(NotSubscriptableMessage))
                case Some(q) => Outcome(6, Ok(Hypotheses.ParsePhase4Results(Some(q.questionsOutput))))
  }

  /** The run: its id, the error it returns, and every value the status
      record takes, in order. */
  datatype WebRun = WebRun(uniqueId: string, error: Option<string>, history: seq<Status>)

  /** The processing statuses of the first n checkpoints. */
  function ProcessingHistory(n: nat, filename: string): (r: seq<Status>)
    requires n <= |Checkpoints|
    ensures |r| == n
    ensures forall i :: 0 <= i < n ==>
      (r[i].Processing? && r[i].filename == filename && r[i].phase == Checkpoints[i].0 && r[i].progress == Checkpoints[i].1)
  {
    seq(n, i requires 0 <= i < n => Processing(Checkpoints[i].0, Checkpoints[i].1, filename))
  }

  /** `run_chronos_pipeline`. */
  function RunChronosPipeline(filename: string, timestamp: string, svc: Services): (r: WebRun)
    ensures r.uniqueId == UniqueId(CleanName(filename), timestamp)
    ensures 3 <= |r.history| <= |Checkpoints| + 1
    ensures r.history[0] == Processing("ocr", 10, filename)
    // every status but the last is a processing one
    ensures forall i :: 0 <= i < |r.history| - 1 ==> r.history[i].Processing?
    // the run ends complete exactly when no error is returned, else with the error
    ensures r.history[|r.history| - 1].Complete? <==> r.error.None?
    ensures r.error.Some? ==> r.history[|r.history| - 1] == Failed(r.error.value)
    ensures r.history[|r.history| - 1].Complete? ==>
      var c := r.history[|r.history| - 1];
      && |r.history| == |Checkpoints| + 1
      && c.uniqueId == r.uniqueId && c.filename == filename
      && c.database == Lower(DbPrefix + r.uniqueId)
      && c.hypothesesCount == |c.hypotheses|
      && forall j :: 0 <= j < |c.hypotheses| ==> Hypotheses.WellFormed(c.hypotheses[j])
  {
    var uniqueId := UniqueId(CleanName(filename), timestamp);
    var o := RunStages(svc);
    var processing := ProcessingHistory(o.reached, filename);
    match o.result
    case Err(e) => WebRun(uniqueId, Some(e), processing + [Failed(e)])
    case Ok(hs) =>
      WebRun(uniqueId, None, processing + [Complete(filename, uniqueId, Lower(DbPrefix + uniqueId), hs, |hs|)])
  }

  /** The progress a status reports; an error status reports none. */
  function Progress(s: Status): Option<nat>
  {
    match s
    case Processing(_, p, _) => Some(p)
    case Complete(_, _, _, _, _) => Some(CompleteProgress)
    case Failed(_) => None
  }

  /** The position of a phase label in the order ocr, phase1, ..., complete. */
  function PhaseRank(s: Status): nat
  {
    match s
    case Processing(phase, _, _) =>
      if phase == "ocr" then 0 else if phase == "phase1" then 1 else if phase == "phase2" then 2
      else if phase == "phase3" then 3 else if phase == "phase4" then 4 else 6
    case Complete(_, _, _, _, _) => 5
    case Failed(_) => 6
  }

  /** Reported progress strictly increases along a run, and the phase labels
      never go back. */
  lemma StatusProgression(filename: string, timestamp: string, svc: Services, i: nat, j: nat)
    requires var h := RunChronosPipeline(filename, timestamp, svc).history;
      i < j < |h| && Progress(h[j]).Some?
    ensures var h := RunChronosPipeline(filename, timestamp, svc).history;
      && Progress(h[i]).Some? && Progress(h[i]).value < Progress(h[j]).value
      && PhaseRank(h[i]) <= PhaseRank(h[j]) && PhaseRank(h[j]) <= 5
  {
    var r := RunChronosPipeline(filename, timestamp, svc);
    var o := RunStages(svc);
    var last := r.history[|r.history| - 1];
    assert r.history == ProcessingHistory(o.reached, filename) + [last];
    HistoryProgression(o.reached, filename, last, i, j);
  }

  /** The same for any run of processing checkpoints followed by a
      completion after the last checkpoint or by a failure. */
  lemma HistoryProgression(n: nat, filename: string, last: Status, i: nat, j: nat)
    requires n <= |Checkpoints| && (last.Failed? || (last.Complete? && n == |Checkpoints|))
    requires var h := ProcessingHistory(n, filename) + [last];
      i < j < |h| && Progress(h[j]).Some?
    ensures var h := ProcessingHistory(n, filename) + [last];
      && Progress(h[i]).Some? && Progress(h[i]).value < Progress(h[j]).value
      && PhaseRank(h[i]) <= PhaseRank(h[j]) && PhaseRank(h[j]) <= 5
  {
    var h := ProcessingHistory(n, filename) + [last];
    assert h[i] == Processing(Checkpoints[i].0, Checkpoints[i].1, filename);
    if j < n {
      assert h[j] == Processing(Checkpoints[j].0, Checkpoints[j].1, filename);
    } else {
      assert h[j] == last;
    }
  }

  /** A missing Phase 2 summary, which the command-line pipeline skips
      over, fails the web run at the Phase 3 checkpoint. */
  lemma MissingSummaryFailsRun(filename: string, timestamp: string, svc: Services)
    requires svc.ocr.Ok? && svc.phase1.Ok? && svc.in2.connect.Ok? && svc.in2.close.Ok?
    requires svc.in2.summaryReply.Err? || svc.in2.summaryReply.value == []
    ensures var r := RunChronosPipeline(filename, timestamp, svc);
      && r.error == Some(Phase3.NoneLengthMessage)
      && |r.history| == 6 && r.history[4] == Processing("phase3", 70, filename)
  {
  }

  // ---- Routes ----

  /** The status records, by run id. */
  type StatusStore = map<string, Status>

  datatype Body =
    | ErrorBody(error: string)
    | Started(uniqueId: string)
    | StatusBody(status: Status)

  datatype Response = Response(code: nat, body: Body)

  const NoFileMessage: string := "No file provided"
  const NoSelectionMessage: string := "No file selected"
  const InvalidTypeMessage: string := "Invalid file type. Allowed: PDF, PNG, JPG, JPEG, TIFF"
  const InvalidIdMessage: string := "Invalid ID"
  const NotCompleteMessage: string := "Analysis not complete"

  /** `upload_file`.  `upload` is the client filename of the file part (None
      when the part is missing); `secure` stands for werkzeug's filename
      sanitiser.  The pipeline runs to the end before the response; the
      response reports an error only when the error message is non-empty. */
  function UploadFile(upload: Option<string>, secure: string -> string, timestamp: string,
                      svc: Services, store: StatusStore): (r: (Response, StatusStore))
    // the three rejections, before anything is saved or run
    ensures upload.None? ==> r == (Response(400, ErrorBody(NoFileMessage)), store)
    ensures upload == Some([]) ==> r == (Response(400, ErrorBody(NoSelectionMessage)), store)
    ensures upload.Some? && upload.value != [] && !AllowedFile(upload.value) ==>
      r == (Response(400, ErrorBody(InvalidTypeMessage)), store)
    // otherwise the run's last status is stored under its id
    ensures upload.Some? && upload.value != [] && AllowedFile(upload.value) ==>
      var run := RunChronosPipeline(secure(upload.value), timestamp, svc);
      && r.1 == store[run.uniqueId := run.history[|run.history| - 1]]
      && (r.0.code == 500 <==> run.error.Some? && run.error.value != [])
      && (r.0.code == 500 ==> r.0.body == ErrorBody(run.error.value))
      && (r.0.code != 500 ==> r.0 == Response(200, Started(run.uniqueId)))
    ensures r.0.code in {200, 400, 500}
  {
    match upload
    case None => (Response(400, ErrorBody(NoFileMessage)), store)
    case Some(name) =>
      if name == [] then (Response(400, ErrorBody(NoSelectionMessage)), store)
      else if !AllowedFile(name) then (Response(400, ErrorBody(InvalidTypeMessage)), store)
      else
        var run := RunChronosPipeline(secure(name), timestamp, svc);
        var stored := store[run.uniqueId := run.history[|run.history| - 1]];
        if run.error.Some? && run.error.value != [] then (Response(500, ErrorBody(run.error.value)), stored)
        else (Response(200, Started(run.uniqueId)), stored)
  }

  /** `get_status`. */
  function GetStatus(store: StatusStore, id: string): (r: Response)
    ensures r.code == 404 <==> id !in store
    ensures r.code == 404 ==> r.body == ErrorBody(InvalidIdMessage)
    ensures r.code != 404 ==> r == Response(200, StatusBody(store[id]))
  {
    if id !in store then Response(404, ErrorBody(InvalidIdMessage))
    else Response(200, StatusBody(store[id]))
  }

  /** `get_results`: only a complete status is served. */
  function GetResults(store: StatusStore, id: string): (r: Response)
    ensures r.code == 404 <==> id !in store
    ensures r.code == 400 <==> id in store && !store[id].Complete?
    ensures r.code == 200 <==> id in store && store[id].Complete?
    ensures r.code == 200 ==> r.body == StatusBody(store[id])
    ensures r.code == 400 ==> r.body == ErrorBody(NotCompleteMessage)
  {
    if id !in store then Response(404, ErrorBody(InvalidIdMessage))
    else if !store[id].Complete? then Response(400, ErrorBody(NotCompleteMessage))
    else Response(200, StatusBody(store[id]))
  }

  /** After an accepted upload its id is known to the status route, and the
      results route serves it exactly when the run returned no error. */
  lemma UploadThenQuery(name: string, secure: string -> string, timestamp: string, svc: Services, store: StatusStore)
    requires name != [] && AllowedFile(name)
    ensures var run := RunChronosPipeline(secure(name), timestamp, svc);
      var after := UploadFile(Some(name), secure, timestamp, svc, store).1;
      && GetStatus(after, run.uniqueId).code == 200
      && (GetResults(after, run.uniqueId).code == 200 <==> run.error.None?)
  {
  }

  /** An exception whose message is empty is reported as a started upload,
      while the stored status is an error and the results route refuses it. */
  lemma EmptyErrorReportsSuccess(name: string, secure: string -> string, timestamp: string, svc: Services, store: StatusStore)
    requires name != [] && AllowedFile(name)
    requires svc.ocr == Err([])
    ensures var resp := UploadFile(Some(name), secure, timestamp, svc, store);
      var id := UniqueId(CleanName(secure(name)), timestamp);
      && resp.0.code == 200
      && resp.1[id] == Failed([])
      && GetResults(resp.1, id).code == 400
  {
  }
}
